=== FILE: README.md ===
# Android Settings: the pure logic behind the screens

This project models, in Dafny, the decision, string and arithmetic logic
that several screens of the Android Settings app hold, lifted out of the
Android lifecycle. Platform inputs become plain values: Wi-Fi
configurations, saved settings strings, service lists, flags and
subscription records. Each component is one module, in one file named
after the component:

- `AddAppNetworks` and `WifiDpp`: Wi-Fi SSID quoting and unquoting,
  security-type classification, matching app-proposed networks against
  saved ones with per-network result codes, and the DPP (Wi-Fi Easy
  Connect) QR-code support predicates. `WifiConfig` holds the shared
  `WifiConfiguration` record.
- `ZenPrioritySenders`, `ZenSummary` and `ZenCountdown`: the Do Not
  Disturb priority-sender rules, the summaries built from a policy, and the
  countdown buckets of the "turn on DND" dialog.
- `MagnificationShortcut`: edits to the colon-separated list of shortcut
  targets and the shortcut-type bitmask.
- `CredentialManager`: the set of enabled credential providers, capped at
  five, and the intent that asks to enable one.
- `BatteryChart` and `BatteryHistEntry`: the battery usage summary and its
  validation, saving and restoring the chart state, and battery-history
  entry keys.
- `FingerprintEnroll`: enrolment progress arithmetic and the icon-touch
  counter.
- `CallsSmsSummary`: the "Calls & SMS" summary.
- `TetherSummary`: the tethering bitmask and its summary.
- `ContextualCards`: ranking contextual cards, replacing updated ones, and
  the half-width and deferred-setup view types.
- `StorageItems`: storage category sizes, the system-size rule, volume
  validity, ordering the rows by size and summing media sizes.
- `NetworkScan`: the radio access networks a manual network scan asks for,
  and starting and stopping it.
- `FacePreview`: the choice of the face-enrolment camera preview size.
- `AspectRatio`: the per-app aspect-ratio keys and values.
- `TextReadingPreview`: the preview grid of the text-reading screen and its
  delayed commits.
- `EuiccSettings`: whether the eSIM settings entry is shown.

`Common` holds what several components share. It has `Option` and `Result`,
and Java's 32-bit `int` wrap-around. It has Android's
`SimpleStringSplitter` (`SplitTokens`: no empty tokens) and `TextUtils.split`
(`SplitAll`: the empty text gives no tokens, otherwise trailing empty tokens
are kept). It also has `TextUtils.join`, ASCII lower-casing and a stable
sort by an integer key.

Java's integer semantics are modelled where they matter. Truncating
division is `FingerprintEnroll.JavaDiv`, 64-bit products are
`FacePreview.WrapLong`, and bitmasks are `bv8`, `bv32` and `bv64`.
Resources (strings, integer arrays) and platform constants that the
component only passes along become parameters or datatype constructors.

Two details of the code are easy to misread, and the model follows the
code in both:

- The minimum system size is `TrafficStats.GB_IN_BYTES`, that is 2^30
  bytes, not 10^9 (`StorageItems.SystemSize`).
- The supported-country check of `showEuiccSettings` splits with
  `TextUtils.split`, so an empty entry in the list never matches a
  non-empty country (`EuiccSettings.InEsimSupportedCountries`).

## Model

All source paths are under `src/com/android/settings/`; the table gives
them in full.

| member | source | states |
|---|---|---|
| AddAppNetworks.AddQuotationIfNeeded | src/com/android/settings/wifi/addappnetworks/AddAppNetworksFragment.java:348-361 | null or empty input gives ""; input already in quotes is kept; any other input comes back wrapped in exactly one pair of quotes; the result is always empty or quoted |
| AddAppNetworks.RemoveDoubleQuotes | src/com/android/settings/wifi/addappnetworks/AddAppNetworksFragment.java:363-373 | null or empty gives ""; a quoted SSID loses exactly its first and last character; anything else is returned unchanged |
| AddAppNetworks.AddQuotationIdempotent | src/com/android/settings/wifi/addappnetworks/AddAppNetworksFragment.java:348-361 | quoting an already quoted SSID changes nothing |
| AddAppNetworks.RemoveUndoesAdd | src/com/android/settings/wifi/addappnetworks/AddAppNetworksFragment.java:348-373 | unquoting a quoted SSID gives the original back, for every non-empty unquoted SSID, and never differs from unquoting the input itself |
| AddAppNetworks.SecurityType | src/com/android/settings/wifi/addappnetworks/AddAppNetworksFragment.java:256-268 | SAE wins whenever present; PSK is chosen exactly when SAE and OWE are absent and WPA-PSK or WPA2-PSK is present; WEP only with a first WEP key |
| AddAppNetworks.CompareCandidate | src/com/android/settings/wifi/addappnetworks/AddAppNetworksFragment.java:293-319 | for the same SSID and security, comparing a PSK or SAE proposal without a key crashes (a null dereference), and only that case does |
| AddAppNetworks.FoundInSavedMeaning | src/com/android/settings/wifi/addappnetworks/AddAppNetworksFragment.java:282-325 | scanning the saved list reports "already saved" exactly when some saved network has the same SSID, security and key, and crashes exactly when a keyless PSK/SAE proposal meets a saved network of the same SSID and security |
| AddAppNetworks.FoundInSavedMeaningAll | src/com/android/settings/wifi/addappnetworks/AddAppNetworksFragment.java:276-336 | the same characterisation for every proposal of a request |
| AddAppNetworks.InitializeResultCodes | src/com/android/settings/wifi/addappnetworks/AddAppNetworksFragment.java:240-247 | one result code per requested network, each the initial code |
| AddAppNetworks.FilterSavedNetworks | src/com/android/settings/wifi/addappnetworks/AddAppNetworksFragment.java:276-336 | each request index is marked already-existing exactly when a saved network matches it; every other index stays initial and appears in the UI list with its own config and unquoted SSID, the UI list in request order; a crash exactly when some proposal crashes the comparison |
| AddAppNetworks.CreateContent | src/com/android/settings/wifi/addappnetworks/AddAppNetworksFragment.java:187-247 | a null, empty or over-five request is cancelled and nothing else is; otherwise it crashes exactly when some proposal's comparison with the saved list throws; it finishes OK, all codes already-existing, exactly when every proposal is already saved; otherwise the dialog lists exactly the unsaved proposals, each with its request position and an initial code, in request order, in single mode exactly for one-network requests |
| AddAppNetworks.OnSaveResult | src/com/android/settings/wifi/addappnetworks/AddAppNetworksFragment.java:494-556 | a save result sets exactly the saving network's code to success or add-error; the next network is saved only in multi-network mode while more remain, so the saving index stays inside the UI list; the done screen shows when the last one is finished and any save succeeded |
| AddAppNetworks.ConfigToSave | src/com/android/settings/wifi/addappnetworks/AddAppNetworksFragment.java:561-567 | the configuration saved differs from the proposal only in its SSID, which is quoted or empty |
| WifiDpp.RemoveFirstAndLastDoubleQuotesAsWritten | src/com/android/settings/wifi/dpp/WifiDppUtils.java:139-153 | the code as written: it throws exactly on the lone text `"`; otherwise a leading and a trailing quote are dropped independently and the rest is kept in between |
| WifiDpp.LoneQuoteThrows | src/com/android/settings/wifi/dpp/WifiDppUtils.java:144-152 | the one-character text `"` makes the substring call throw |
| WifiDpp.RemoveFirstAndLastDoubleQuotes | src/com/android/settings/wifi/dpp/WifiDppUtils.java:139-153 | empty input is returned as is; a leading and a trailing quote are each dropped when present; the result agrees with the code as written wherever that does not throw, and a lone `"` gives "" |
| WifiDpp.UnquoteAgreesWithAddNetworks | src/com/android/settings/wifi/dpp/WifiDppUtils.java:139-153 | this unquoting and the add-networks one agree when both ends are quotes or neither is; with a quote at one end only, this one removes one more character |
| WifiDpp.SecurityString | src/com/android/settings/wifi/dpp/WifiDppUtils.java:155-165 | SAE first, then WPA/WPA2-PSK, then WEP exactly when a first WEP key exists, otherwise no password |
| WifiDpp.SecurityClassifiersAgree | src/com/android/settings/wifi/dpp/WifiDppUtils.java:155-165 | the DPP and the add-networks classifications agree unless OWE is present without SAE, where add-networks says no password |
| WifiDpp.SupportsConfiguratorQrCodeScanner | src/com/android/settings/wifi/dpp/WifiDppUtils.java:326-339 | never while DPP is off; with DPP on, exactly the SAE and PSK networks: open, WEP, enterprise and OWE networks are refused |
| WifiDpp.SupportsConfiguratorQrCodeGenerator | src/com/android/settings/wifi/dpp/WifiDppUtils.java:341-351 | every security except enterprise, OWE and SAE gets a QR code, i.e. PSK, WEP and open networks |
| WifiDpp.SupportsHotspotConfiguratorQrCodeGenerator | src/com/android/settings/wifi/dpp/WifiDppUtils.java:353-360 | a hotspot is offered a QR code exactly when WPA2-PSK or no key management is among its key managements; an offered hotspot has, unless SAE is also present, a security the ZXing format writes (PSK, WEP or none); a hotspot with only WPA-PSK or SAE key management is not offered |
| WifiDpp.ScannerAndGeneratorOverlap | src/com/android/settings/wifi/dpp/WifiDppUtils.java:326-351 | a network supports both the QR scanner and the QR generator exactly when DPP is enabled and it uses PSK; without DPP nothing supports the scanner |
| WifiDpp.HotspotGeneratorSecurity | src/com/android/settings/wifi/dpp/WifiDppUtils.java:353-360 | a WPA2-PSK hotspot without SAE is offered and written as PSK; a hotspot with no key management is offered and written as WEP or open; a WPA-PSK-only hotspot is refused although its security string is PSK; an offered hotspot is written as PSK, WEP or open without SAE and as SAE with it |
| WifiDpp.ConfiguratorIntentExtras | src/com/android/settings/wifi/dpp/WifiDppUtils.java:258-280 | fails exactly when the SSID is a lone `"`, or the configuration has a key and the privileged key is a lone `"`; otherwise the SSID extra is the unquoted SSID, set exactly when that is non-empty; the security extra is always set; a key extra is set exactly when there is a key whose unquoted privileged value is non-empty, and is that value |
| WifiDpp.QuotedExtrasUnquoted | src/com/android/settings/wifi/dpp/WifiDppUtils.java:260-267 | an SSID and a key each quoted at both ends reach the extras without their quotes |
| ZenPrioritySenders.Selectors | src/com/android/settings/notification/modes/ZenModePrioritySendersPreferenceController.java:110-127 | calls get four selectors and messages five, the extra one being "important conversations"; both lists start with starred and end with none |
| ZenPrioritySenders.KeyToSettingEndState | src/com/android/settings/notification/modes/ZenModePrioritySendersPreferenceController.java:266-326 | a key outside the screen's selectors throws; checking starred, contacts, any or none sets senders to starred, contacts, anyone or none, and for messages any and none also set conversations to anyone or none, while checking important sets only conversations to important; unchecking starred, contacts, any or none sets senders to none, and for messages unchecking important, any or none sets conversations to none; calls never set the conversation component |
| ZenPrioritySenders.SettingsToSaveOnClick | src/com/android/settings/notification/modes/ZenModePrioritySendersPreferenceController.java:346-385 | an end-state part is saved exactly when it is set and differs from the current value; nothing else is saved except the two messages overlap resets: priority conversations over senders "anyone" saves senders none, and starred or contacts over conversations "anyone" saves conversations none; for calls the conversation part is always unset |
| ZenPrioritySenders.ClickSettles | src/com/android/settings/notification/modes/ZenModePrioritySendersPreferenceController.java:346-385 | once the saved parts are written to the policy, the same click saves nothing more |
| ZenPrioritySenders.OnSelectorClicked | src/com/android/settings/notification/modes/ZenModePrioritySendersPreferenceController.java:420-448 | a click saves a policy exactly when the key is one of the screen's selectors; for calls the conversation senders are kept |
| ZenPrioritySenders.CheckedSelectorShowsChecked | src/com/android/settings/notification/modes/ZenModePrioritySendersPreferenceController.java:136-153 | after checking any selector, the state saved makes that selector show as checked |
| ZenPrioritySenders.AnyoneAndNoneAreExclusive | src/com/android/settings/notification/modes/ZenModePrioritySendersPreferenceController.java:136-153 | after checking "anyone" or "none", no other selector shows as checked |
| ZenPrioritySenders.UncheckedSelectorShowsUnchecked | src/com/android/settings/notification/modes/ZenModePrioritySendersPreferenceController.java:136-153 | after unchecking a message selector it shows as unchecked, except "none", which the reset to none re-checks |
| ZenPrioritySenders.ConversationSummaryCount | src/com/android/settings/notification/modes/ZenModePrioritySendersPreferenceController.java:405-418 | the important-conversation count is shown exactly when there is at least one |
| ZenSummary.CategoryLabel | src/com/android/settings/notification/modes/ZenModeSummaryHelper.java:171-244 | only the conversations category without important-conversation senders has a blank label |
| ZenSummary.EnabledCategories | src/com/android/settings/notification/modes/ZenModeSummaryHelper.java:144-169 | one label per listed category, in order, the first one capitalised when asked |
| ZenSummary.AllCategoriesRanked | src/com/android/settings/notification/modes/ZenModeSummaryHelper.java:57-67 | the fixed category order is strictly increasing in rank |
| ZenSummary.ListedCategoriesOrdered | src/com/android/settings/notification/modes/ZenModeSummaryHelper.java:57-67 | exactly the filtered, allowed categories are listed, each once, in the fixed order |
| ZenSummary.SubsumedCategoriesOmitted | src/com/android/settings/notification/modes/ZenModeSummaryHelper.java:150-163 | repeat callers are not listed when calls from anyone are allowed; conversations are listed only when important conversations are allowed |
| ZenSummary.CallsSettingSummary | src/com/android/settings/notification/modes/ZenModeSummaryHelper.java:96-111 | the none form exactly when nothing is listed, the one-item form exactly when one category is listed and the two-item form exactly when calls and repeat callers both show; the first item is the capitalised calls label when calls are allowed and the capitalised repeat-callers label otherwise, the second the lower-case repeat-callers label |
| ZenSummary.CallsListed | src/com/android/settings/notification/modes/ZenModeSummaryHelper.java:96-99 | the calls summary lists calls and then repeat callers, each exactly when it is listed |
| ZenSummary.MessagesSettingSummary | src/com/android/settings/notification/modes/ZenModeSummaryHelper.java:113-129 | the none, one and two forms exactly for zero, one and two or more listed categories; the one form is the first listed label capitalised, the two form the first capitalised and the second not; the two form appears exactly when both messages and priority conversations are listed, in that order |
| ZenSummary.MessagesListed | src/com/android/settings/notification/modes/ZenModeSummaryHelper.java:114-116 | with the messages filter the listed categories are messages, then conversations, each when listed |
| ZenSummary.GetPeopleSummary | src/com/android/settings/notification/modes/ZenModeSummaryHelper.java:275-294 | "all" exactly when calls, messages and conversations are from anyone; "none" exactly when all three are from no one and repeat callers are off; otherwise "some" (PeopleSummaryMatchesSelectors ties both to the selectors) |
| ZenSummary.OtherSoundCategoriesSummary | src/com/android/settings/notification/modes/ZenModeSummaryHelper.java:69-94 | counts the listed sound categories and shows the first three, or two when there are more, in order, the first capitalised |
| ZenSummary.PeopleSummaryMatchesSelectors | src/com/android/settings/notification/modes/ZenModeSummaryHelper.java:275-294 | the people summary says "all" exactly when the "anyone" selectors of calls and messages are both checked, and "none" exactly when both "none" selectors are checked and repeat callers are off |
| MagnificationShortcut.OptIn | src/com/android/settings/accessibility/ToggleScreenMagnificationPreferenceFragment.java:525-548 | after opting in the controller is found for that shortcut type; triple tap sets only the enabled flag; a present name changes nothing; otherwise the name is appended after a colon; other types are unaffected |
| MagnificationShortcut.KeptTokens | src/com/android/settings/accessibility/ToggleScreenMagnificationPreferenceFragment.java:564-592 | exactly the non-empty tokens other than the controller name are kept, each as often as in the input, and in input order (KeptTokensAppend) |
| MagnificationShortcut.KeptTokensAppend | src/com/android/settings/accessibility/ToggleScreenMagnificationPreferenceFragment.java:582-589 | the tokens kept from a concatenation are those kept from each part, concatenated, so the input order is kept |
| MagnificationShortcut.OptOut | src/com/android/settings/accessibility/ToggleScreenMagnificationPreferenceFragment.java:564-592 | after opting out the controller is not found; the saved list splits back into the kept tokens, in order; triple tap clears only the enabled flag; other types are unaffected |
| MagnificationShortcut.OptInIdempotent | src/com/android/settings/accessibility/ToggleScreenMagnificationPreferenceFragment.java:525-548 | opting in twice equals opting in once |
| MagnificationShortcut.OptInAll | src/com/android/settings/accessibility/ToggleScreenMagnificationPreferenceFragment.java:513-523 | every requested type has the controller afterwards, and the others keep their state |
| MagnificationShortcut.OptInIf | src/com/android/settings/accessibility/ToggleScreenMagnificationPreferenceFragment.java:513-523 | one type is opted in exactly when its bit is requested |
| MagnificationShortcut.OptOutAll | src/com/android/settings/accessibility/ToggleScreenMagnificationPreferenceFragment.java:551-562 | no requested type has the controller afterwards, and the others keep their state |
| MagnificationShortcut.OptOutIf | src/com/android/settings/accessibility/ToggleScreenMagnificationPreferenceFragment.java:551-562 | one type is opted out exactly when its bit is requested |
| MagnificationShortcut.HasValue | src/com/android/settings/accessibility/ToggleScreenMagnificationPreferenceFragment.java:610-633 | triple tap is on exactly when the stored integer is ON, an unset one reading as OFF; a software or hardware shortcut holds the controller exactly when its setting is set and one of its colon-separated tokens is the controller name |
| MagnificationShortcut.HasValues | src/com/android/settings/accessibility/ToggleScreenMagnificationPreferenceFragment.java:595-608 | true exactly when some requested type holds the controller |
| MagnificationShortcut.UserShortcutTypeFromSettings | src/com/android/settings/accessibility/ToggleScreenMagnificationPreferenceFragment.java:644-656 | a type's bit is set exactly when that type holds the controller, and no other bit is set |
| MagnificationShortcut.ShortcutTypeOfCheckBoxes | src/com/android/settings/accessibility/ToggleScreenMagnificationPreferenceFragment.java:312-322 | each bit reflects its check box, and no other bit is set |
| MagnificationShortcut.ApplyDialogChoice | src/com/android/settings/accessibility/ToggleScreenMagnificationPreferenceFragment.java:394-399 | afterwards exactly the chosen types hold the controller |
| MagnificationShortcut.DialogChoiceReadsBack | src/com/android/settings/accessibility/ToggleScreenMagnificationPreferenceFragment.java:312-399 | the shortcut types read back from the settings are the boxes the user checked |
| MagnificationShortcut.UpdateAlertDialogEnableState | src/com/android/settings/accessibility/ToggleScreenMagnificationPreferenceFragment.java:290-302 | with exactly one box checked that box is disabled and the others keep their state; with none checked the hardware box is disabled and the others keep their state; with two or more checked all three are enabled |
| MagnificationShortcut.LastCheckedBoxLocked | src/com/android/settings/accessibility/ToggleScreenMagnificationPreferenceFragment.java:290-302 | the last checked box cannot be unchecked |
| CredentialManager.Initial | src/com/android/settings/applications/credentials/CredentialManagerPreferenceController.java:89-98 | a new controller has no services, no enabled packages, no pending request and no preferences |
| CredentialManager.Deliver | src/com/android/settings/applications/credentials/CredentialManagerPreferenceController.java:195-201 | a result reaches the caller exactly when a delegate is set, unchanged |
| CredentialManager.TogglePackageNameEnabled | src/com/android/settings/applications/credentials/CredentialManagerPreferenceController.java:346-354 | enabling succeeds exactly while fewer than five are enabled and then adds the package; a refusal changes nothing; the cap of five is kept |
| CredentialManager.TogglePackageNameDisabled | src/com/android/settings/applications/credentials/CredentialManagerPreferenceController.java:362-365 | the package is no longer enabled and every other package keeps its state |
| CredentialManager.EnabledSettings | src/com/android/settings/applications/credentials/CredentialManagerPreferenceController.java:378-389 | at most one entry per service; exactly the flattened components of the services whose package is enabled, in service order (EnabledSettingsAppend) |
| CredentialManager.EnabledSettingsAppend | src/com/android/settings/applications/credentials/CredentialManagerPreferenceController.java:381-386 | the entries for a concatenation of services are those of each part, concatenated |
| CredentialManager.EnabledPackagesOf | src/com/android/settings/applications/credentials/CredentialManagerPreferenceController.java:252-257 | the enabled set is exactly the packages of the services flagged enabled |
| CredentialManager.HandleIntent | src/com/android/settings/applications/credentials/CredentialManagerPreferenceController.java:203-229 | the pending request is consumed; the dialog is shown exactly when it has a non-empty app label, for its package |
| CredentialManager.SetAvailableServices | src/com/android/settings/applications/credentials/CredentialManagerPreferenceController.java:244-262 | installs the service list, recomputes the enabled set from it, checks exactly the preferences of enabled packages and handles any pending request |
| CredentialManager.AvailabilityStatus | src/com/android/settings/applications/credentials/CredentialManagerPreferenceController.java:264-267 | conditionally unavailable exactly when there are no services |
| CredentialManager.ServicesOfPackage | src/com/android/settings/applications/credentials/CredentialManagerPreferenceController.java:172-178 | at most one entry per service; exactly the services of the package, in service order (ServicesOfPackageAppend) |
| CredentialManager.ServicesOfPackageAppend | src/com/android/settings/applications/credentials/CredentialManagerPreferenceController.java:172-178 | the matches in a concatenation of services are those of each part, concatenated |
| CredentialManager.VerifyReceivedIntent | src/com/android/settings/applications/credentials/CredentialManagerPreferenceController.java:144-188 | a null intent or foreign action is ignored; a provider action without a package leaves the state alone; one naming a package replaces the pending list by exactly that package's services, in service order, and is accepted exactly when there is one; otherwise the caller gets CANCELED |
| CredentialManager.CompleteEnableProviderDialogBox | src/com/android/settings/applications/credentials/CredentialManagerPreferenceController.java:491-516 | positive with room enables the package, checks its preference and returns OK; positive when full and negative return CANCELED and change nothing |
| CredentialManager.SwitchesKeepAtMostFive | src/com/android/settings/applications/credentials/CredentialManagerPreferenceController.java:346-365 | no toggle and no dialog answer takes the enabled set past five |
| CredentialManager.SystemListIsNotCapped | src/com/android/settings/applications/credentials/CredentialManagerPreferenceController.java:252-257 | the set the system reports is not capped: n distinct enabled services give n enabled packages |
| CredentialManager.AcceptedIntentShowsDialog | src/com/android/settings/applications/credentials/CredentialManagerPreferenceController.java:144-188 | once an accepted request meets the service list, the dialog is shown for the requested package exactly when it has a label, and nothing stays pending |
| BatteryChart.BuildUsageTimeInfo | src/com/android/settings/fuelgauge/batteryusage/BatteryChartPreferenceControllerV2.java:572-587 | under one minute gives the "less than a minute" text, otherwise the time itself, in the foreground or background form asked for |
| BatteryChart.Contains | src/com/android/settings/fuelgauge/batteryusage/BatteryChartPreferenceControllerV2.java:634-643 | false for a null target or list, otherwise membership |
| BatteryChart.IsValidToShowSummary | src/com/android/settings/fuelgauge/batteryusage/BatteryChartPreferenceControllerV2.java:590-592 | a summary may show unless the package is listed in the hide-summary list; a null package or list hides nothing |
| BatteryChart.IsValidToShowEntry | src/com/android/settings/fuelgauge/batteryusage/BatteryChartPreferenceControllerV2.java:595-597 | an entry may show unless the package is listed in the hide-entry list; a null package or list hides nothing |
| BatteryChart.PreferenceSummary | src/com/android/settings/fuelgauge/batteryusage/BatteryChartPreferenceControllerV2.java:541-570 | no summary for a hidden package or zero total; background only when foreground is zero; with foreground time the first line is the total time, in the foreground form; two lines exactly when both parts are positive and the total reaches a minute, the second being the background time |
| BatteryChart.FirstLineIsTotal | src/com/android/settings/fuelgauge/batteryusage/BatteryChartPreferenceControllerV2.java:559-568 | the first line, when it shows a time, is the total of foreground and background |
| BatteryChart.ValidateUsageTime | src/com/android/settings/fuelgauge/batteryusage/BatteryChartPreferenceControllerV2.java:646-657 | valid exactly when foreground, background and total are each at most two hours |
| BatteryChart.ValidUsageTimeIsTotal | src/com/android/settings/fuelgauge/batteryusage/BatteryChartPreferenceControllerV2.java:646-657 | for non-negative times only the total matters |
| BatteryChart.GetInt | src/com/android/settings/fuelgauge/batteryusage/BatteryChartPreferenceControllerV2.java:155-160 | a stored int is read back, anything else gives the default |
| BatteryChart.GetBoolean | src/com/android/settings/fuelgauge/batteryusage/BatteryChartPreferenceControllerV2.java:155-160 | a stored boolean is read back, anything else gives the default |
| BatteryChart.OnSaveInstanceState | src/com/android/settings/fuelgauge/batteryusage/BatteryChartPreferenceControllerV2.java:180-189 | adds the three chart keys and keeps every other entry of the bundle |
| BatteryChart.OnCreate | src/com/android/settings/fuelgauge/batteryusage/BatteryChartPreferenceControllerV2.java:151-163 | without a saved bundle, or with an empty one, the current selection stays |
| BatteryChart.SaveRestoreRoundTrip | src/com/android/settings/fuelgauge/batteryusage/BatteryChartPreferenceControllerV2.java:151-189 | restoring what was saved gives back the daily index, hourly index and expanded flag |
| BatteryChart.RefreshUi | src/com/android/settings/fuelgauge/batteryusage/BatteryChartPreferenceControllerV2.java:336-377 | false when the map or a chart view is missing; one day of data selects day 0 and hides the daily chart; the hourly chart shows exactly when one day is selected; it fails exactly on an out-of-range daily index |
| BatteryChart.OneDayRefreshShowsHours | src/com/android/settings/fuelgauge/batteryusage/BatteryChartPreferenceControllerV2.java:348-351 | with one day of data the refresh selects day 0 and shows only the hourly chart |
| BatteryHistEntry.OrDefault | src/com/android/settings/fuelgauge/BatteryHistEntry.java:167-251 | a present column gives its value, a missing one the default |
| BatteryHistEntry.Build | src/com/android/settings/fuelgauge/BatteryHistEntry.java:71-89 | the entry is valid exactly when every column is present; each field is its column's value or its default; no key is cached yet |
| BatteryHistEntry.FromContentValues | src/com/android/settings/fuelgauge/BatteryHistEntry.java:71-89 | missing content values give an invalid, all-default entry |
| BatteryHistEntry.FromCursor | src/com/android/settings/fuelgauge/BatteryHistEntry.java:91-109 | the hidden flag is the stored integer 1; valid exactly when every column is present |
| BatteryHistEntry.IsUserEntry | src/com/android/settings/fuelgauge/BatteryHistEntry.java:117-119 | a user entry, with distinct consumer types, is neither an app nor a system entry |
| BatteryHistEntry.IsAppEntry | src/com/android/settings/fuelgauge/BatteryHistEntry.java:122-124 | an app entry, with distinct consumer types, is neither a user nor a system entry |
| BatteryHistEntry.IsSystemEntry | src/com/android/settings/fuelgauge/BatteryHistEntry.java:127-129 | a system entry, with distinct consumer types, is neither an app nor a user entry |
| BatteryHistEntry.EntryKindsExclusive | src/com/android/settings/fuelgauge/BatteryHistEntry.java:117-129 | an entry is at most one of app, user and system, and the kind depends only on the consumer type |
| BatteryHistEntry.DecimalRoundTrip | src/com/android/settings/fuelgauge/BatteryHistEntry.java:136 | the decimal text of a number parses back to the number |
| BatteryHistEntry.DecimalStringInjective | src/com/android/settings/fuelgauge/BatteryHistEntry.java:136 | different numbers have different decimal texts |
| BatteryHistEntry.ComputeKey | src/com/android/settings/fuelgauge/BatteryHistEntry.java:132-147 | an entry has a key exactly when it is an app, user or system entry |
| BatteryHistEntry.KeyStartsWithKind | src/com/android/settings/fuelgauge/BatteryHistEntry.java:134-144 | an app key starts with a digit or minus sign, a system key with S and a user key with U |
| BatteryHistEntry.KeysIdentifyConsumers | src/com/android/settings/fuelgauge/BatteryHistEntry.java:132-147 | two keys are equal exactly when both entries are of the same kind with the same uid, drain type or user id |
| BatteryHistEntry.GetKey | src/com/android/settings/fuelgauge/BatteryHistEntry.java:132-147 | returns the entry's key and caches it, and the cache stays consistent |
| BatteryHistEntry.KeyIsCachedOnce | src/com/android/settings/fuelgauge/BatteryHistEntry.java:133 | once computed, asking again returns the cached key and changes nothing |
| FingerprintEnroll.JavaDiv | src/com/android/settings/biometrics/fingerprint/FingerprintEnrollEnrolling.java:390 | for a non-negative dividend and positive divisor, Java's division is exact floor division |
| FingerprintEnroll.GetProgress | src/com/android/settings/biometrics/fingerprint/FingerprintEnrollEnrolling.java:385-391 | no progress while the step count is unknown |
| FingerprintEnroll.ProgressIsExact | src/com/android/settings/biometrics/fingerprint/FingerprintEnrollEnrolling.java:385-391 | Java's 32-bit computation equals the mathematical 10000·max(0, steps+1−remaining)/(steps+1) |
| FingerprintEnroll.ProgressInRange | src/com/android/settings/biometrics/fingerprint/FingerprintEnrollEnrolling.java:389-390 | progress lies in [0, 10000] and is 10000 exactly when nothing remains |
| FingerprintEnroll.ProgressMonotone | src/com/android/settings/biometrics/fingerprint/FingerprintEnrollEnrolling.java:389-390 | more steps remaining never shows more progress |
| FingerprintEnroll.ProgressBounds | src/com/android/settings/biometrics/fingerprint/FingerprintEnrollEnrolling.java:389-390 | the range and monotonicity facts together |
| FingerprintEnroll.FinishesExactlyWhenNothingRemains | src/com/android/settings/biometrics/fingerprint/FingerprintEnrollEnrolling.java:385-391 | the bar is full exactly when no step remains |
| FingerprintEnroll.IsCenterEnrollmentComplete | src/com/android/settings/biometrics/fingerprint/FingerprintEnrollEnrolling.java:326-332 | never without a sidecar or with an unknown step count; otherwise exactly when at least two steps are done |
| FingerprintEnroll.OnTouch | src/com/android/settings/biometrics/fingerprint/FingerprintEnrollEnrolling.java:178-193 | a touch shows the dialog exactly on the third count, which resets the counter; lifting cancels the pending dialog; a long press shows it exactly when one is pending |
| FingerprintEnroll.ThirdTapShowsDialog | src/com/android/settings/biometrics/fingerprint/FingerprintEnrollEnrolling.java:393-396 | from a fresh state, the first two taps show nothing and the third shows the dialog and resets the counter |
| ZenCountdown.DefaultBucketIndex | src/com/android/settings/notification/EnableZenModeDialog.java:65 | the default bucket is the 60-minute one |
| ZenCountdown.Step | src/com/android/settings/notification/EnableZenModeDialog.java:438-442 | one bucket up or down, clamped to the bucket list |
| ZenCountdown.OnClickTimeButton | src/com/android/settings/notification/EnableZenModeDialog.java:412-443 | from a known index, one clamped step; from an unknown index, up picks the first bucket ending after the current end time and down the last ending before it, else the default; the minutes are the chosen bucket's |
| ZenCountdown.ButtonState | src/com/android/settings/notification/EnableZenModeDialog.java:376-385 | with a known index, minus is enabled exactly above the first bucket and plus exactly below the last |
| ZenCountdown.EnabledIffStepMoves | src/com/android/settings/notification/EnableZenModeDialog.java:376-378 | a button is enabled exactly when its step would change the bucket |
| ZenCountdown.StepIsMonotone | src/com/android/settings/notification/EnableZenModeDialog.java:438-442 | stepping up never shortens the duration and stepping down never lengthens it |
| ZenCountdown.RealConditionId | src/com/android/settings/notification/EnableZenModeDialog.java:271-277 | the forever condition has no id; any other condition keeps its own |
| CallsSmsSummary.PreferredStatus | src/com/android/settings/network/NetworkProviderCallsSmsController.kt:148-166 | out of service beats everything (unavailable with several SIMs, temporarily unavailable with one); then calls and SMS, calls, SMS; no status exactly when in service and preferred for neither |
| CallsSmsSummary.GetSummary | src/com/android/settings/network/NetworkProviderCallsSmsController.kt:114-146 | no SIM exactly for no subscriptions; just the display name exactly for one in-service subscription; otherwise one entry per subscription, in order, with its name and status |
| CallsSmsSummary.JoinedStatuses | src/com/android/settings/network/NetworkProviderCallsSmsController.kt:128-166 | in the joined form an entry has no status exactly when it is in service and preferred for neither; a lone SIM out of service is temporarily unavailable |
| CallsSmsSummary.RenderEntry | src/com/android/settings/network/NetworkProviderCallsSmsController.kt:138-144 | "name" without a status, "name (status)" with one |
| CallsSmsSummary.Render | src/com/android/settings/network/NetworkProviderCallsSmsController.kt:119-146 | the no-SIM text for no SIM, the name alone for a single SIM, the lone entry for a one-entry list; longer lists by RenderJoinedCons and RenderJoinedSplit |
| CallsSmsSummary.RenderJoinedCons | src/com/android/settings/network/NetworkProviderCallsSmsController.kt:128-145 | a list of two or more entries shows the first entry, ", ", then the rest as a list |
| CallsSmsSummary.RenderJoinedSplit | src/com/android/settings/network/NetworkProviderCallsSmsController.kt:128-145 | when no entry text holds a comma, splitting the shown list at its commas gives back the entry texts, each after the first with its leading space |
| CallsSmsSummary.JoinCommaIsJoin | src/com/android/settings/network/NetworkProviderCallsSmsController.kt:128 | joining with ", " is joining with "," after putting a space in front of every part but the first |
| CallsSmsSummary.JoinCommaSplit | src/com/android/settings/network/NetworkProviderCallsSmsController.kt:128 | the text joined with ", " splits back at its commas into the parts, when no part holds a comma |
| TetherSummary.TetheringType | src/com/android/settings/network/AllInOneTetherPreferenceController.java:199-206 | each interface sets exactly its own bit, and no other bit is set |
| TetherSummary.GetSummary | src/com/android/settings/network/AllInOneTetherPreferenceController.java:126-153 | "off" exactly when unchecked; the placeholder for an empty mask |
| TetherSummary.SummaryNamesActiveInterfaces | src/com/android/settings/network/AllInOneTetherPreferenceController.java:126-153 | the summary names exactly the active interfaces, and is the placeholder exactly when none is |
| TetherSummary.SummaryIsInjective | src/com/android/settings/network/AllInOneTetherPreferenceController.java:126-153 | different interface combinations get different summaries |
| TetherSummary.AvailabilityStatus | src/com/android/settings/network/AllInOneTetherPreferenceController.java:116-123 | available exactly when tethering is supported and the feature flag is on |
| NetworkScan.CreateRequest | src/com/android/settings/network/telephony/NetworkScanHelper.java:93-139 | GERAN, UTRAN and EUTRAN are each scanned exactly when the 3GPP mask is zero or has that generation's bit; NGRAN never; in that order; with the fixed one-shot timing parameters |
| NetworkScan.UnknownPreferenceScansAll | src/com/android/settings/network/telephony/NetworkScanHelper.java:101-115 | with no 3GPP preference all three networks are scanned |
| NetworkScan.NarrowerPreferenceScansLess | src/com/android/settings/network/telephony/NetworkScanHelper.java:94-115 | a narrower non-empty preference never scans a network the wider one does not |
| NetworkScan.StartNetworkScan | src/com/android/settings/network/telephony/NetworkScanHelper.java:150-161 | nothing happens while a scan is running; otherwise the request is sent and an error is reported exactly when no scan handle comes back |
| NetworkScan.StopNetworkQuery | src/com/android/settings/network/telephony/NetworkScanHelper.java:169-174 | stops the running scan, if any, and clears it |
| NetworkScan.StartAndStopAreIdempotent | src/com/android/settings/network/telephony/NetworkScanHelper.java:150-174 | a second start while a scan runs does nothing, and a second stop stops nothing |
| NetworkScan.RefusedScanIsRetried | src/com/android/settings/network/telephony/NetworkScanHelper.java:150-161 | after a refused scan the next start sends a request again |
| FacePreview.WrapLong | src/com/android/settings/biometrics/face/FaceEnrollPreviewFragment.java:337-345 | the 64-bit value, equal to the input whenever that fits |
| FacePreview.CompareByArea | src/com/android/settings/biometrics/face/FaceEnrollPreviewFragment.java:337-345 | the comparison is a sign: -1, 0 or 1 |
| FacePreview.ProductBounds | src/com/android/settings/biometrics/face/FaceEnrollPreviewFragment.java:341-344 | the product of two ints fits well inside a long |
| FacePreview.CompareByAreaIsExact | src/com/android/settings/biometrics/face/FaceEnrollPreviewFragment.java:337-345 | the long arithmetic cannot overflow, so the comparison is the exact comparison of the areas |
| FacePreview.MinByArea | src/com/android/settings/biometrics/face/FaceEnrollPreviewFragment.java:284-286 | an element of the list with no smaller area in it |
| FacePreview.MaxByArea | src/com/android/settings/biometrics/face/FaceEnrollPreviewFragment.java:287-288 | an element of the list with no larger area in it |
| FacePreview.Partition | src/com/android/settings/biometrics/face/FaceEnrollPreviewFragment.java:270-280 | only square options within the maximum are considered, split exactly into those covering the view and those that do not |
| FacePreview.ChooseOptimalSize | src/com/android/settings/biometrics/face/FaceEnrollPreviewFragment.java:263-291 | the smallest usable size covering the view; failing that the largest usable one; failing that the first offered; an error exactly when nothing is offered |
| AspectRatio.SelectedUserMinAspectRatio | src/com/android/settings/applications/appcompat/UserAspectRatioDetails.java:148-165 | any key other than the six specific buttons means unset |
| AspectRatio.SelectedKey | src/com/android/settings/applications/appcompat/UserAspectRatioDetails.java:168-185 | always one of the button keys; any value without its own button selects the app default |
| AspectRatio.KeysAndRatiosCorrespond | src/com/android/settings/applications/appcompat/UserAspectRatioDetails.java:148-185 | on the seven buttons the two maps are mutually inverse |
| AspectRatio.KeyRoundTrip | src/com/android/settings/applications/appcompat/UserAspectRatioDetails.java:148-185 | key to value to key gives the key back, for every button key |
| AspectRatio.RatioRoundTrip | src/com/android/settings/applications/appcompat/UserAspectRatioDetails.java:148-185 | value to key to value gives the value back for the seven button values, and unset for every other value |
| AspectRatio.UpdateAllPreferences | src/com/android/settings/applications/appcompat/UserAspectRatioDetails.java:241-245 | exactly the buttons with the selected key are checked; keys and order are kept |
| AspectRatio.InitButtons | src/com/android/settings/applications/appcompat/UserAspectRatioDetails.java:217-223 | a button is added, unchecked, exactly when its key is in the layout and the device offers its ratio |
| AspectRatio.AddButtons | src/com/android/settings/applications/appcompat/UserAspectRatioDetails.java:226-239 | only offered keys get buttons, and every offered key gets one |
| AspectRatio.AddButtonsAppend | src/com/android/settings/applications/appcompat/UserAspectRatioDetails.java:217-239 | buttons keep the order of their keys: the buttons added for two runs of keys are those of the first run followed by those of the second |
| AspectRatio.OnCreateSelection | src/com/android/settings/applications/appcompat/UserAspectRatioDetails.java:79-91 | the selected key stands for the stored value, or unset when the value has no button; the default when it cannot be read |
| AspectRatio.OnRadioButtonClicked | src/com/android/settings/applications/appcompat/UserAspectRatioDetails.java:95-117 | clicking the selected button does nothing; otherwise the clicked key's value is written, and the selection moves only when the write succeeds |
| AspectRatio.ClickChecksOnlyTheClickedButton | src/com/android/settings/applications/appcompat/UserAspectRatioDetails.java:95-108 | after a successful click on another button, exactly the buttons with that key are checked |
| AspectRatio.RefreshUi | src/com/android/settings/applications/appcompat/UserAspectRatioDetails.java:126-132 | false without package or application info, which changes nothing; otherwise the buttons follow the selection |
| TextReadingPreview.PagerIndex | src/com/android/settings/accessibility/TextReadingPreviewController.java:110-122 | for a display progress within the display count, the pager index divides back into the font progress with the display progress as remainder |
| TextReadingPreview.GridPosition | src/com/android/settings/accessibility/TextReadingPreviewController.java:119 | the pager index of an in-range pair is in range and within its font's row |
| TextReadingPreview.PagerIndexInjective | src/com/android/settings/accessibility/TextReadingPreviewController.java:110-121 | different font and display progress pairs never share a pager index |
| TextReadingPreview.Row | src/com/android/settings/accessibility/TextReadingPreviewController.java:182-190 | one configuration per density, all with the row's font scale |
| TextReadingPreview.Grid | src/com/android/settings/accessibility/TextReadingPreviewController.java:182-190 | fonts times densities configurations |
| TextReadingPreview.GridIndex | src/com/android/settings/accessibility/TextReadingPreviewController.java:176-193 | the grid entry at the pager index of (i, j) has font i and density j |
| TextReadingPreview.CreateConfig | src/com/android/settings/accessibility/TextReadingPreviewController.java:176-193 | fonts times densities configurations; the one at the pager index of (i, j) is the original with font i and density j |
| TextReadingPreview.CommitDelay | src/com/android/settings/accessibility/TextReadingPreviewController.java:150-153 | the requested delay is either kept or extended by the whole 800 ms minimum interval, and kept exactly when the last commit is at least 800 ms old |
| TextReadingPreview.CommitsAreSpacedOut | src/com/android/settings/accessibility/TextReadingPreviewController.java:150-157 | a posted commit is never due within 800 ms of the last one, nor sooner than asked |
| TextReadingPreview.CommitFrame | src/com/android/settings/accessibility/TextReadingPreviewController.java:160-174 | a progress is committed exactly when it differs from the last committed one; the frame's progress and time become the last committed state, so each committed value is the new last one |
| TextReadingPreview.CommitFrameIsIdempotent | src/com/android/settings/accessibility/TextReadingPreviewController.java:160-174 | a second frame with the same progress commits nothing |
| BatteryHistEntry.NegativeRoundTrip | src/com/android/settings/fuelgauge/BatteryHistEntry.java:136 | the decimal text of a negative number parses back to it |
| EuiccSettings.InEsimSupportedCountries | src/com/android/settings/mobilenetwork/MobileNetworkUtils.java:142-154 | an unknown country is supported; a known one needs a non-empty list and is then one of its entries, ignoring case |
| EuiccSettings.ShowEuiccSettings | src/com/android/settings/mobilenetwork/MobileNetworkUtils.java:131-167 | never with the eUICC disabled; with it enabled, shown in developer mode, once provisioned, or for a device not ignored with the UI on by default and a supported country, and in no other case |
| EuiccSettings.SupportedCountryMatch | src/com/android/settings/mobilenetwork/MobileNetworkUtils.java:146-153 | for a list of comma-free codes, a known country is supported exactly when it equals one of them, ignoring case |
| EuiccSettings.IgnoredDeviceMatch | src/com/android/settings/mobilenetwork/MobileNetworkUtils.java:155-157 | for a list of comma-free CIDs, a device is ignored exactly when it has one of them |
| ContextualCards.SortCards | src/com/android/settings/homepage/contextualcards/ContextualCardManager.java:145-150 | a permutation of the cards ordered by ranking score, highest first; cards with equal scores keep their order |
| ContextualCards.UpdatedTypes | src/com/android/settings/homepage/contextualcards/ContextualCardManager.java:154 | exactly the card types that came with an update |
| ContextualCards.NewCards | src/com/android/settings/homepage/contextualcards/ContextualCardManager.java:180-181 | exactly the cards of all updates |
| ContextualCards.CardsToKeepOnUpdate | src/com/android/settings/homepage/contextualcards/ContextualCardManager.java:163-176 | an empty update keeps exactly the conditional, header and footer cards, otherwise exactly the cards of types not updated; each kept card as often as before, in the old order (CardsToKeepOnUpdateAppend) |
| ContextualCards.CardsToKeepOnUpdateAppend | src/com/android/settings/homepage/contextualcards/ContextualCardManager.java:163-176 | the cards kept from a concatenation are those kept from each part, concatenated |
| ContextualCards.SuggestionViewType | src/com/android/settings/homepage/contextualcards/ContextualCardManager.java:269-286 | pairs of adjacent suggestion cards become half width, nothing else changes; pairs do not overlap, no two adjacent suggestions stay unpaired, and a card starts a pair exactly when it and the next are suggestions and it is not already the second card of a pair (left-to-right greedy) |
| ContextualCards.GreedyPairingUnique | src/com/android/settings/homepage/contextualcards/ContextualCardManager.java:269-286 | the greedy pairing is determined by the categories alone: two pairings that both satisfy it are equal |
| ContextualCards.DeferredSetupViewType | src/com/android/settings/homepage/contextualcards/ContextualCardManager.java:288-302 | only the first deferred-setup card gets the deferred view type |
| ContextualCards.CardsWithViewType | src/com/android/settings/homepage/contextualcards/ContextualCardManager.java:252-259 | each card keeps everything but its view type, which becomes half width when the greedy pairing pairs it, else the deferred-setup view for the first deferred-setup card, else stays as it was; an empty list comes back unchanged |
| ContextualCards.OneDeferredSetupView | src/com/android/settings/homepage/contextualcards/ContextualCardManager.java:288-302 | at most one card is given the deferred-setup view |
| ContextualCards.OnContextualCardUpdated | src/com/android/settings/homepage/contextualcards/ContextualCardManager.java:153-186 | card k of the result is card k of the kept and new cards sorted by score, with the view type the view-type passes give it; updated types come only from the update; an empty update leaves only conditional cards |
| ContextualCards.CardsToKeep | src/com/android/settings/homepage/contextualcards/ContextualCardManager.java:304-318 | keeps exactly the cards named in the saved list, or else those on screen, each as often as loaded and in load order (CardsToKeepAppend), then clears the saved list |
| ContextualCards.CardsToKeepAppend | src/com/android/settings/homepage/contextualcards/ContextualCardManager.java:304-318 | the cards kept from a concatenation are those kept from each part, concatenated |
| StorageItems.CategorySize | src/com/android/settings/deviceinfo/storage/StorageItemPreferenceController.java:431-613 | the user's share plus the profile's when there is one; trash is 0; documents are what the total leaves after audio, video, images and apps |
| StorageItems.Lookup | src/com/android/settings/deviceinfo/storage/StorageItemPreferenceController.java:355-357 | the user's result, present exactly when the user has one |
| StorageItems.SystemSize | src/com/android/settings/deviceinfo/storage/StorageItemPreferenceController.java:368-386 | the larger of 1 GiB and the used space no user accounts for |
| StorageItems.OnLoadFinished | src/com/android/settings/deviceinfo/storage/StorageItemPreferenceController.java:353-389 | every category gets its size and the system row the system size; nothing without the user's result |
| StorageItems.ShareSumIsAttributed | src/com/android/settings/deviceinfo/storage/StorageItemPreferenceController.java:372-381 | a user's category shares add up to what is attributed to that user |
| StorageItems.RowsAccountForUsedSpace | src/com/android/settings/deviceinfo/storage/StorageItemPreferenceController.java:353-386 | for one user and an optional profile the rows add up to at least the used space, and exactly to it when the unattributed space reaches 1 GiB |
| StorageItems.CategoryVisibility | src/com/android/settings/deviceinfo/storage/StorageItemPreferenceController.java:240-266 | public storage shows exactly for a valid public volume, the private categories exactly for a valid private one, documents also need shared storage; never both kinds; trash is hidden |
| StorageItems.IsValidPrivateVolume | src/com/android/settings/deviceinfo/storage/StorageItemPreferenceController.java:225-230 | valid exactly for a present private volume that is mounted, read-only or not; an unmounted, checking, ejecting or removed one is not |
| StorageItems.IsValidPublicVolume | src/com/android/settings/deviceinfo/storage/StorageItemPreferenceController.java:232-238 | valid exactly for a present public or stub volume that is mounted, read-only or not; private, emulated and other volumes never are |
| StorageItems.VolumeKindsExclusive | src/com/android/settings/deviceinfo/storage/StorageItemPreferenceController.java:225-238 | no volume is both a valid private and a valid public volume |
| StorageItems.SortBySize | src/com/android/settings/deviceinfo/storage/StorageItemPreferenceController.java:294-296 | a permutation of the rows in ascending size; rows of equal size keep their order |
| StorageItems.NumberRows | src/com/android/settings/deviceinfo/storage/StorageItemPreferenceController.java:297-301 | orders count down one by one from 200, so a larger size never gets a larger order |
| StorageItems.CategoryOrder | src/com/android/settings/deviceinfo/storage/StorageItemPreferenceController.java:273-301 | the persisted row list (first built in the fixed category order) re-sorted: the same rows, ascending by size, rows of equal size in their previous order, orders counting down from 200 so larger sizes come first |
| StorageItems.CategoryOrderSettles | src/com/android/settings/deviceinfo/storage/StorageItemPreferenceController.java:294-301 | with unchanged sizes a second call leaves every row where the first call put it |
| StorageItems.TotalValues | src/com/android/settings/deviceinfo/storage/StorageItemPreferenceController.java:615-629 | 0 without the user's map, otherwise the sum over the keys present |
| StorageItems.AbsentKeysAddNothing | src/com/android/settings/deviceinfo/storage/StorageItemPreferenceController.java:620-624 | a key missing from the map adds nothing, wherever it is in the list |
| StorageItems.SumPresentAppend | src/com/android/settings/deviceinfo/storage/StorageItemPreferenceController.java:620-624 | summing over two key lists in a row adds their sums |
| Common.SplitJoin | src/com/android/settings/accessibility/ToggleScreenMagnificationPreferenceFragment.java:564-592 | splitting joined colon-free, non-empty-ended tokens gives them back |
| Common.JoinSplit | src/com/android/settings/accessibility/ToggleScreenMagnificationPreferenceFragment.java:564-592 | joining the tokens of a text that does not end in the separator gives the text back |
| Common.SplitKeepJoin | src/com/android/settings/mobilenetwork/MobileNetworkUtils.java:146-157 | splitting joined separator-free tokens, empty ones included, gives them back |
| Common.JoinSplitKeep | src/com/android/settings/mobilenetwork/MobileNetworkUtils.java:146-157 | joining what the empty-keeping split gives restores any text |
| Common.InsertByWithKey | src/com/android/settings/homepage/contextualcards/ContextualCardManager.java:145-150 | an inserted element goes ahead of every element with the same key |
| Common.SortBy | src/com/android/settings/homepage/contextualcards/ContextualCardManager.java:145-150 | a permutation in ascending key order in which elements with equal keys keep their input order |
| Common.SortByOfSorted | src/com/android/settings/deviceinfo/storage/StorageItemPreferenceController.java:294-296 | sorting a list already in key order leaves it unchanged |

## Left out

- Fragments, activities, dialogs, preferences and view updates are left out. The model keeps the values they compute; string resources are datatype constructors.
- System services and I/O are parameters: `WifiManager`, `PackageManager`, `SubscriptionManager`, `TelephonyManager`, `CredentialManager`, `ContentResolver` settings, system properties, and the storage loaders.
- Concurrency is left out: the `Handler` and `Choreographer` posts of the text preview, the scan callbacks, and the asynchronous commit of enabled credential providers.
- Floating point is left out. Font scales are a type parameter. Card ranking scores and battery power values are integers or a type parameter. The camera transform of the face preview is not modelled.
- Platform constants that the source only reads are parameters or enumerations: `MINUTE_BUCKETS`, the radio-access-family bitmasks, the battery consumer types, card types and the forever condition id. `TrafficStats` is not part of this model; its `GB_IN_BYTES` is taken as 2^30.
- The camera session code of the face preview, and the QR camera, are left out as hardware.
- getBlockedEffectsSummary (`ZenModeSummaryHelper.java:131-142`) is left out. It maps two policy flags to one of three strings, with no rule beyond that.
- CredentialManager: the error dialog and the enable confirmation fragment are left out. Only the choice they report back is modelled.
- EuiccSettings.InEsimSupportedCountries: Java's locale-dependent `toLowerCase` is modelled as ASCII lower-casing.
- StorageItems.CategorySize: sizes are unbounded integers; Java `long` overflow is not modelled.
- StorageItems.SystemSize: the same; `long` overflow is not modelled.
- StorageItems.OnLoadFinished: a missing result for the current user gives `None`, where the source dereferences null.
- BatteryChart.ValidateUsageTime: times are unbounded integers; `long` overflow of the total is not modelled.
- BatteryHistEntry.Build: a column that is present but holds null (an unboxing failure) is not modelled.
- FingerprintEnroll.ProgressIsExact: it holds for step counts up to 214747 only; beyond that 10000·(steps+1) overflows a Java int. The 32-bit computation itself is modelled for every input.
- FingerprintEnroll.GetProgress: its own contract only states the unknown-step case; the arithmetic is stated by ProgressIsExact.
- FacePreview.MinByArea: it states minimality only. That `Collections.min` returns the first minimal element is not stated.
- FacePreview.MaxByArea: it states maximality only; which maximal element is returned is not stated.
- CallsSmsSummary.JoinComma: its own contract states only the empty and one-part cases; the joined text is characterised by JoinCommaIsJoin and JoinCommaSplit.
- AddAppNetworks.ConfigToSave: the source quotes the SSID on the shared configuration object in place, so the list item's own configuration changes too; the model returns a new configuration and does not model that aliasing.
- AddAppNetworks.CompareCandidate: a keyless PSK or SAE proposal crashes the source with a null dereference. The model reports this as `None`, and FilterSavedNetworks reports it as `crashed`.

## Findings

| source | as written | input that shows it | evidently intended | confidence | as-written member | corrected member |
|---|---|---|---|---|---|---|
| src/com/android/settings/wifi/dpp/WifiDppUtils.java:144-152 | a leading quote moves the start to 1 and a trailing quote moves the end to length−1 independently, so a lone `"` calls `substring(1, 0)`, which throws | the one-character text `"` | the empty text, as for `""` | not executed | WifiDpp.RemoveFirstAndLastDoubleQuotesAsWritten, WifiDpp.LoneQuoteThrows | WifiDpp.RemoveFirstAndLastDoubleQuotes |

=== FILE: add_app_networks.dfy ===
/** The decision logic of the screen through which an app proposes up to five
    Wi-Fi networks: SSID quoting, security classification, matching the
    proposals against the saved networks, and stepping through the saves. */
module AddAppNetworks {
  import opened Common
  import opened WifiConfig

  const MaxSpecificNetworksCount: nat := 5

  /** Per-network result codes handed back to the calling app. */
  const ResultNetworkInitial: int := -1
  const ResultNetworkSuccess: int := 0
  const ResultNetworkAddError: int := 1
  const ResultNetworkAlreadyExists: int := 2

  predicate IsQuoted(s: string) {
    |s| >= 2 && s[0] == '"' && s[|s| - 1] == '"'
  }

  /** SSID as stored by the framework: empty for null or empty input,
      unchanged when already quoted, otherwise wrapped in double quotes. */
  function AddQuotationIfNeeded(input: Option<string>): (r: string)
    ensures IsEmpty(input) <==> r == ""
    ensures r == "" || IsQuoted(r)
    ensures input.Some? && IsQuoted(input.value) ==> r == input.value
    ensures input.Some? && |input.value| > 0 && !IsQuoted(input.value) ==>
      |r| == |input.value| + 2 && r[1..|r| - 1] == input.value
  {
    if IsEmpty(input) then ""
    else if IsQuoted(input.value) then input.value
    else "\"" + input.value + "\""
  }

  /** SSID as displayed: empty for null or empty input, with one quote
      stripped from each end when both ends are quotes, otherwise as is. */
  function RemoveDoubleQuotes(s: Option<string>): (r: string)
    ensures IsEmpty(s) ==> r == ""
    ensures s.Some? && IsQuoted(s.value) ==> r == s.value[1..|s.value| - 1]
    ensures s.Some? && !IsQuoted(s.value) ==> r == s.value
  {
    if IsEmpty(s) then ""
    else
      var n := |s.value|;
      if n > 1 && s.value[0] == '"' && s.value[n - 1] == '"' then s.value[1..n - 1]
      else s.value
  }

  /** Quoting is idempotent: a stored SSID is never quoted twice. */
  lemma AddQuotationIdempotent(input: Option<string>)
    ensures AddQuotationIfNeeded(Some(AddQuotationIfNeeded(input))) == AddQuotationIfNeeded(input)
  {
  }

  /** The name displayed for a proposal is the name displayed for the SSID
      the framework stores for it; for an unquoted non-empty SSID that is the
      SSID itself. */
  lemma RemoveUndoesAdd(input: Option<string>)
    ensures RemoveDoubleQuotes(Some(AddQuotationIfNeeded(input))) == RemoveDoubleQuotes(input)
    ensures input.Some? && |input.value| > 0 && !IsQuoted(input.value) ==>
      RemoveDoubleQuotes(Some(AddQuotationIfNeeded(input))) == input.value
  {
  }

  /** Security class: SAE first, then OWE counts as no password, then either
      PSK flavour, then WEP exactly when a first WEP key is set. */
  function SecurityType(c: Config): (r: Security)
    ensures r == SaeType <==> Sae in c.keyMgmt
    ensures r == WpaPskType <==> Sae !in c.keyMgmt && Owe !in c.keyMgmt && (WpaPsk in c.keyMgmt || Wpa2Psk in c.keyMgmt)
    ensures r == Wep ==> c.wepKey0.Some?
  {
    if Sae in c.keyMgmt then SaeType
    else if Owe in c.keyMgmt then NoPassword
    else if WpaPsk in c.keyMgmt || Wpa2Psk in c.keyMgmt then WpaPskType
    else if c.wepKey0.None? then NoPassword
    else Wep
  }

  /** The request is refused outright when the list is missing, empty, or
      longer than five. */
  predicate RequestCancelled(networks: Option<seq<Config>>) {
    networks.None? || |networks.value| == 0 || |networks.value| > MaxSpecificNetworksCount
  }

  function InitializeResultCodes(n: nat): (r: seq<int>)
    ensures |r| == n
    ensures forall i :: 0 <= i < n ==> r[i] == ResultNetworkInitial
  {
    seq(n, _ => ResultNetworkInitial)
  }

  /** A saved network is a candidate when its SSID equals the proposal's
      quoted SSID and both have the same security class. */
  predicate SameCandidate(proposal: Config, saved: Config) {
    saved.ssid == Some(AddQuotationIfNeeded(proposal.ssid))
    && SecurityType(proposal) == SecurityType(saved)
  }

  /** Compares a candidate's credentials: nothing for an open network, the
      first WEP key for WEP, the pre-shared key for PSK and SAE. None stands
      for the NullPointerException raised by a proposal without a pre-shared
      key. */
  function CompareCandidate(proposal: Config, saved: Config): (r: Option<bool>)
    requires SameCandidate(proposal, saved)
    ensures r.None? <==> SecurityType(proposal) in {WpaPskType, SaeType} && proposal.preSharedKey.None?
  {
    match SecurityType(proposal)
    case NoPassword => Some(true)
    case Wep => Some(proposal.wepKey0 == saved.wepKey0)
    case _ =>
      if proposal.preSharedKey.None? then None
      else Some(proposal.preSharedKey == saved.preSharedKey)
  }

  /** The inner loop over every saved network (it does not stop at the
      first match). */
  function FoundInSaved(proposal: Config, saved: seq<Config>): (r: Option<bool>)
  {
    if |saved| == 0 then Some(false)
    else
      var here := if SameCandidate(proposal, saved[0]) then CompareCandidate(proposal, saved[0]) else Some(false);
      var rest := FoundInSaved(proposal, saved[1..]);
      if here.None? || rest.None? then None else Some(here.value || rest.value)
  }

  /** The declarative reading of a saved match. */
  predicate SavedMatch(proposal: Config, saved: Config) {
    SameCandidate(proposal, saved)
    && match SecurityType(proposal)
       case NoPassword => true
       case Wep => proposal.wepKey0 == saved.wepKey0
       case _ => proposal.preSharedKey.Some? && proposal.preSharedKey == saved.preSharedKey
  }

  /** Some saved network matches the proposal. */
  predicate IsSaved(proposal: Config, saved: seq<Config>) {
    exists j :: 0 <= j < |saved| && SavedMatch(proposal, saved[j])
  }

  /** The inner loop fails exactly when a PSK or SAE proposal without a key
      meets a candidate, and otherwise finds a match exactly when one of the
      saved networks matches. */
  lemma {:induction false} FoundInSavedMeaning(proposal: Config, saved: seq<Config>)
    ensures FoundInSaved(proposal, saved).None? <==>
      SecurityType(proposal) in {WpaPskType, SaeType} && proposal.preSharedKey.None?
      && exists j :: 0 <= j < |saved| && SameCandidate(proposal, saved[j])
    ensures FoundInSaved(proposal, saved) == Some(true) <==>
      IsSaved(proposal, saved)
    decreases |saved|
  {
    if |saved| > 0 {
      FoundInSavedMeaning(proposal, saved[1..]);
      forall j | 0 <= j < |saved[1..]|
        ensures saved[1..][j] == saved[j + 1]
      {
      }
      if IsSaved(proposal, saved) {
        var j :| 0 <= j < |saved| && SavedMatch(proposal, saved[j]);
        if j > 0 {
          assert SavedMatch(proposal, saved[1..][j - 1]);
        }
      }
      if exists j :: 0 <= j < |saved| && SameCandidate(proposal, saved[j]) {
        var j :| 0 <= j < |saved| && SameCandidate(proposal, saved[j]);
        if j > 0 {
          assert SameCandidate(proposal, saved[1..][j - 1]);
        }
      }
    }
  }

  lemma FoundInSavedMeaningAll(request: seq<Config>, saved: seq<Config>)
    ensures forall p :: 0 <= p < |request| ==>
      (FoundInSaved(request[p], saved) == Some(true) <==>
       IsSaved(request[p], saved))
  {
    forall p | 0 <= p < |request|
      ensures FoundInSaved(request[p], saved) == Some(true) <==>
        IsSaved(request[p], saved)
    {
      FoundInSavedMeaning(request[p], saved);
    }
  }

  /** A proposal the user still has to confirm: display name, configuration
      and position in the request. */
  datatype UiItem = UiItem(displayedSsid: string, config: Config, index: nat)

  /** filterSavedNetworks over a freshly initialised result array: a
      proposal that matches a saved network is marked ALREADY_EXISTS, every
      other one is listed for the UI with its position. `crashed` reports the
      NullPointerException of the inner loop, which ends the scan. */
  method FilterSavedNetworks(request: seq<Config>, saved: seq<Config>)
    returns (crashed: bool, ui: seq<UiItem>, codes: seq<int>)
    ensures crashed <==> exists p :: 0 <= p < |request| && FoundInSaved(request[p], saved).None?
    ensures |codes| == |request|
    ensures !crashed ==> forall p :: 0 <= p < |request| ==>
      (codes[p] == ResultNetworkAlreadyExists <==> IsSaved(request[p], saved))
    ensures !crashed ==> forall p :: 0 <= p < |request| ==>
      codes[p] == ResultNetworkAlreadyExists || codes[p] == ResultNetworkInitial
    ensures !crashed ==> forall p :: 0 <= p < |request| && codes[p] == ResultNetworkInitial ==>
      exists k :: 0 <= k < |ui| && ui[k].index == p
    ensures !crashed ==> forall k :: 0 <= k < |ui| ==>
      ui[k].index < |request|
      && ui[k].config == request[ui[k].index]
      && ui[k].displayedSsid == RemoveDoubleQuotes(request[ui[k].index].ssid)
      && codes[ui[k].index] == ResultNetworkInitial
    ensures !crashed ==> forall k, l :: 0 <= k < l < |ui| ==> ui[k].index < ui[l].index
  {
    codes := InitializeResultCodes(|request|);
    ui := [];
    var pos := 0;
    while pos < |request|
      invariant 0 <= pos <= |request|
      invariant |codes| == |request|
      invariant forall q :: pos <= q < |request| ==> codes[q] == ResultNetworkInitial
      invariant forall q :: 0 <= q < pos ==> FoundInSaved(request[q], saved).Some?
      invariant forall q :: 0 <= q < pos ==>
        (codes[q] == ResultNetworkAlreadyExists <==> FoundInSaved(request[q], saved) == Some(true))
      invariant forall q :: 0 <= q < pos ==>
        codes[q] == ResultNetworkAlreadyExists || codes[q] == ResultNetworkInitial
      invariant forall q :: 0 <= q < pos && codes[q] == ResultNetworkInitial ==>
        exists k :: 0 <= k < |ui| && ui[k].index == q
      invariant forall k :: 0 <= k < |ui| ==>
        ui[k].index < pos
        && ui[k].config == request[ui[k].index]
        && ui[k].displayedSsid == RemoveDoubleQuotes(request[ui[k].index].ssid)
        && codes[ui[k].index] == ResultNetworkInitial
      invariant forall k, l :: 0 <= k < l < |ui| ==> ui[k].index < ui[l].index
    {
      var found := FoundInSaved(request[pos], saved);
      if found.None? {
        crashed := true;
        return;
      }
      if found.value {
        codes := codes[pos := ResultNetworkAlreadyExists];
      } else {
        var item := UiItem(RemoveDoubleQuotes(request[pos].ssid), request[pos], pos);
        assert (ui + [item])[|ui|] == item;
        assert forall k :: 0 <= k < |ui| ==> (ui + [item])[k] == ui[k];
        ui := ui + [item];
      }
      pos := pos + 1;
    }
    crashed := false;
    FoundInSavedMeaningAll(request, saved);
  }

  /** What createContent does with a request. */
  datatype Outcome =
    | Cancelled
    | FinishedOk(codes: seq<int>)
    | Crashed
    | Confirm(single: bool, ui: seq<UiItem>, codes: seq<int>)

  method CreateContent(request: Option<seq<Config>>, saved: seq<Config>) returns (r: Outcome)
    ensures r.Cancelled? <==> RequestCancelled(request)
    ensures r.FinishedOk? ==>
      |r.codes| == |request.value| && forall p :: 0 <= p < |r.codes| ==> r.codes[p] == ResultNetworkAlreadyExists
    ensures r.Confirm? ==>
      |r.ui| > 0 && (r.single <==> |request.value| == 1) && |r.codes| == |request.value|
    ensures !RequestCancelled(request) ==>
      (r.Crashed? <==> exists p :: 0 <= p < |request.value| && FoundInSaved(request.value[p], saved).None?)
    // The whole request is already saved: nothing to confirm.
    ensures r.FinishedOk? <==>
      !RequestCancelled(request) && !r.Crashed?
      && forall p :: 0 <= p < |request.value| ==> IsSaved(request.value[p], saved)
    // The confirm list holds the proposals not yet saved, each at its
    // request position, in request order.
    ensures r.Confirm? ==> forall k :: 0 <= k < |r.ui| ==>
      r.ui[k].index < |request.value| && r.ui[k].config == request.value[r.ui[k].index]
      && r.codes[r.ui[k].index] == ResultNetworkInitial
      && !IsSaved(request.value[r.ui[k].index], saved)
    ensures r.Confirm? ==> forall p :: 0 <= p < |request.value| ==>
      ((exists k :: 0 <= k < |r.ui| && r.ui[k].index == p)
       <==> !IsSaved(request.value[p], saved))
    ensures r.Confirm? ==> forall k, l :: 0 <= k < l < |r.ui| ==> r.ui[k].index < r.ui[l].index
  {
    if RequestCancelled(request) {
      return Cancelled;
    }
    var crashed, ui, codes := FilterSavedNetworks(request.value, saved);
    if crashed {
      r := Crashed;
    } else if |ui| == 0 {
      forall p | 0 <= p < |request.value|
        ensures IsSaved(request.value[p], saved)
      {
        assert codes[p] != ResultNetworkInitial;
      }
      r := FinishedOk(codes);
    } else {
      assert !IsSaved(request.value[ui[0].index], saved) by {
        assert codes[ui[0].index] == ResultNetworkInitial;
      }
      assert !forall p :: 0 <= p < |request.value| ==> IsSaved(request.value[p], saved);
      forall p | 0 <= p < |request.value|
        ensures (exists k :: 0 <= k < |ui| && ui[k].index == p)
          <==> !IsSaved(request.value[p], saved)
      {
        if exists k :: 0 <= k < |ui| && ui[k].index == p {
          var k :| 0 <= k < |ui| && ui[k].index == p;
          assert codes[p] == ResultNetworkInitial;
        }
      }
      r := Confirm(|request.value| == 1, ui, codes);
    }
  }

  /** State of the save loop: which UI entry is being saved, the result
      codes so far and whether any save succeeded. */
  datatype SaveState = SaveState(
    ui: seq<UiItem>, single: bool, savingIndex: nat, codes: seq<int>, anySuccess: bool)

  ghost predicate SaveValid(s: SaveState) {
    s.savingIndex < |s.ui|
    && forall k :: 0 <= k < |s.ui| ==> s.ui[k].index < |s.codes|
  }

  datatype Next = SaveNext(index: nat) | ShowSaved | ShowSaveFailed

  /** The save listener: record this network's code, then either save the
      next one (only in multi-network mode and while one is left) or show
      the overall outcome. */
  function OnSaveResult(s: SaveState, success: bool): (r: (SaveState, Next))
    requires SaveValid(s)
    ensures SaveValid(r.0) && |r.0.codes| == |s.codes| && r.0.ui == s.ui
    ensures r.0.codes[s.ui[s.savingIndex].index] == (if success then ResultNetworkSuccess else ResultNetworkAddError)
    ensures forall i :: 0 <= i < |s.codes| && i != s.ui[s.savingIndex].index ==> r.0.codes[i] == s.codes[i]
    ensures r.1.SaveNext? <==> !s.single && s.savingIndex < |s.ui| - 1
    ensures r.1.SaveNext? ==> r.1.index == s.savingIndex + 1 == r.0.savingIndex
    ensures r.1.ShowSaved? <==> !r.1.SaveNext? && (s.anySuccess || success)
  {
    var codes := s.codes[s.ui[s.savingIndex].index :=
      if success then ResultNetworkSuccess else ResultNetworkAddError];
    var any := s.anySuccess || success;
    if !s.single && s.savingIndex < |s.ui| - 1 then
      (s.(savingIndex := s.savingIndex + 1, codes := codes, anySuccess := any), SaveNext(s.savingIndex + 1))
    else
      (s.(codes := codes, anySuccess := any), if any then ShowSaved else ShowSaveFailed)
  }

  /** saveNetwork hands the framework the configuration with its SSID quoted. */
  function ConfigToSave(item: UiItem): (r: Config)
    ensures r.ssid.Some? && (r.ssid.value == "" || IsQuoted(r.ssid.value))
    ensures r.(ssid := item.config.ssid) == item.config
  {
    item.config.(ssid := Some(AddQuotationIfNeeded(item.config.ssid)))
  }
}

=== FILE: aspect_ratio.dfy ===
/** The per-app aspect-ratio screen: the radio-button keys and the user
    minimum aspect-ratio values they stand for, the selection it loads and
    changes, and which button is checked. */
module AspectRatio {
  import opened Common

  const KeyDefault: string := "app_default_pref"
  const KeyFullscreen: string := "fullscreen_pref"
  const KeyHalfScreen: string := "half_screen_pref"
  const KeyDisplaySize: string := "display_size_pref"
  const Key16By9: string := "16_9_pref"
  const Key4By3: string := "4_3_pref"
  const Key3By2: string := "3_2_pref"

  /** PackageManager's user minimum aspect-ratio values; any other value,
      the app-default one included, is `OtherRatio`. */
  datatype Ratio = Unset | Fullscreen | SplitScreen | DisplaySize | Ratio3By2 | Ratio4By3 | Ratio16By9 | OtherRatio(value: int)

  /** The keys of the radio buttons, in the order the screen adds them. */
  const ButtonKeys: seq<string> := [KeyDefault, KeyFullscreen, KeyDisplaySize, KeyHalfScreen, Key16By9, Key4By3, Key3By2]

  /** The ratio each button stands for, in the same order. */
  const ButtonRatios: seq<Ratio> := [Unset, Fullscreen, DisplaySize, SplitScreen, Ratio16By9, Ratio4By3, Ratio3By2]

  /** getSelectedUserMinAspectRatio: the value a key stands for; any key
      that is not one of the six specific buttons means unset. */
  function SelectedUserMinAspectRatio(key: string): (r: Ratio)
    ensures key !in ButtonKeys[1..] ==> r == Unset
    ensures !r.OtherRatio?
  {
    if key == KeyFullscreen then Fullscreen
    else if key == KeyHalfScreen then SplitScreen
    else if key == KeyDisplaySize then DisplaySize
    else if key == Key3By2 then Ratio3By2
    else if key == Key4By3 then Ratio4By3
    else if key == Key16By9 then Ratio16By9
    else Unset
  }

  /** getSelectedKey: the button for a value; any value that is not one of
      the six specific ratios selects the app-default button. */
  function SelectedKey(ratio: Ratio): (r: string)
    ensures r in ButtonKeys
    ensures ratio !in ButtonRatios[1..] ==> r == KeyDefault
  {
    match ratio
    case Fullscreen => KeyFullscreen
    case SplitScreen => KeyHalfScreen
    case DisplaySize => KeyDisplaySize
    case Ratio3By2 => Key3By2
    case Ratio4By3 => Key4By3
    case Ratio16By9 => Key16By9
    case _ => KeyDefault
  }

  /** The two maps are inverse on the screen's seven buttons: each button's
      key and ratio correspond, in both directions. */
  lemma KeysAndRatiosCorrespond(i: int)
    requires 0 <= i < |ButtonKeys|
    ensures SelectedUserMinAspectRatio(ButtonKeys[i]) == ButtonRatios[i]
    ensures SelectedKey(ButtonRatios[i]) == ButtonKeys[i]
  {
    KeysDiffer();
    if i == 0 {
      assert ButtonKeys[0] == KeyDefault;
    } else if i == 1 {
      assert ButtonKeys[1] == KeyFullscreen;
    } else if i == 2 {
      assert ButtonKeys[2] == KeyDisplaySize;
    } else if i == 3 {
      assert ButtonKeys[3] == KeyHalfScreen;
    } else if i == 4 {
      assert ButtonKeys[4] == Key16By9;
    } else if i == 5 {
      assert ButtonKeys[5] == Key4By3;
    } else {
      assert ButtonKeys[6] == Key3By2;
    }
  }

  /** The seven keys already differ in their first character. */
  lemma KeysDiffer()
    ensures KeyDefault[0] == 'a' && KeyFullscreen[0] == 'f' && KeyHalfScreen[0] == 'h'
      && KeyDisplaySize[0] == 'd' && Key16By9[0] == '1' && Key4By3[0] == '4' && Key3By2[0] == '3'
  {
  }

  /** Reading a key back from the ratio it is saved as gives the key again,
      for every key a button can have. */
  lemma KeyRoundTrip(key: string)
    requires key in ButtonKeys
    ensures SelectedKey(SelectedUserMinAspectRatio(key)) == key
  {
    var i :| 0 <= i < |ButtonKeys| && ButtonKeys[i] == key;
    KeysAndRatiosCorrespond(i);
  }

  /** Saving the ratio of the key chosen for a stored ratio gives the stored
      ratio back, except that every ratio without its own button collapses
      to unset. */
  lemma RatioRoundTrip(ratio: Ratio)
    ensures SelectedUserMinAspectRatio(SelectedKey(ratio)) == (if ratio in ButtonRatios then ratio else Unset)
  {
  }

  /** A radio button on the screen. */
  datatype Button = Button(key: string, checked: bool)

  /** The screen: the selected key and the buttons that were added. */
  datatype Screen = Screen(selectedKey: string, buttons: seq<Button>)

  /** updateAllPreferences: exactly the buttons whose key is the selected
      one are checked; keys and order are kept. */
  function UpdateAllPreferences(buttons: seq<Button>, selectedKey: string): (r: seq<Button>)
    ensures |r| == |buttons|
    ensures forall i :: 0 <= i < |r| ==> r[i].key == buttons[i].key && (r[i].checked <==> buttons[i].key == selectedKey)
  {
    seq(|buttons|, i requires 0 <= i < |buttons| => Button(buttons[i].key, buttons[i].key == selectedKey))
  }

  /** initPreferences: a button for each of the seven keys, in order, that
      the layout has and whose ratio the device offers for the app. */
  function InitButtons(inLayout: string -> bool, hasOption: Ratio -> bool): (r: seq<Button>)
    ensures forall b :: b in r ==> !b.checked
    ensures forall i :: 0 <= i < |ButtonKeys| ==>
      (Button(ButtonKeys[i], false) in r <==> inLayout(ButtonKeys[i]) && hasOption(ButtonRatios[i]))
  {
    AddButtons(ButtonKeys, ButtonRatios, inLayout, hasOption)
  }

  function AddButtons(keys: seq<string>, ratios: seq<Ratio>, inLayout: string -> bool, hasOption: Ratio -> bool): (r: seq<Button>)
    requires |keys| == |ratios|
    ensures forall b :: b in r ==> !b.checked && b.key in keys
    ensures forall i :: 0 <= i < |keys| && inLayout(keys[i]) && hasOption(ratios[i]) ==> Button(keys[i], false) in r
    ensures forall b :: b in r ==> exists i :: 0 <= i < |keys| && b.key == keys[i] && inLayout(keys[i]) && hasOption(ratios[i])
  {
    if |keys| == 0 then []
    else
      var rest := AddButtons(keys[1..], ratios[1..], inLayout, hasOption);
      assert forall i :: 1 <= i < |keys| ==> keys[i] == keys[1..][i - 1] && ratios[i] == ratios[1..][i - 1];
      if inLayout(keys[0]) && hasOption(ratios[0]) then [Button(keys[0], false)] + rest else rest
  }

  /** The buttons keep the order of their keys: the buttons added for a
      concatenation are those added for each part, concatenated. */
  lemma {:induction false} AddButtonsAppend(keys1: seq<string>, ratios1: seq<Ratio>, keys2: seq<string>, ratios2: seq<Ratio>,
                                            inLayout: string -> bool, hasOption: Ratio -> bool)
    requires |keys1| == |ratios1| && |keys2| == |ratios2|
    ensures AddButtons(keys1 + keys2, ratios1 + ratios2, inLayout, hasOption)
      == AddButtons(keys1, ratios1, inLayout, hasOption) + AddButtons(keys2, ratios2, inLayout, hasOption)
  {
    if |keys1| == 0 {
      assert keys1 + keys2 == keys2 && ratios1 + ratios2 == ratios2;
    } else {
      assert (keys1 + keys2)[1..] == keys1[1..] + keys2;
      assert (ratios1 + ratios2)[1..] == ratios1[1..] + ratios2;
      AddButtonsAppend(keys1[1..], ratios1[1..], keys2, ratios2, inLayout, hasOption);
    }
  }

  /** onCreate: the stored ratio picks the selected key; when reading it
      fails (`None`) the app-default key stays selected. */
  function OnCreateSelection(stored: Option<Ratio>): (r: string)
    ensures stored.None? ==> r == KeyDefault
    ensures stored.Some? ==> SelectedUserMinAspectRatio(r) == (if stored.value in ButtonRatios then stored.value else Unset)
  {
    RatioRoundTrip(if stored.Some? then stored.value else Unset);
    if stored.Some? then SelectedKey(stored.value) else KeyDefault
  }

  /** What a click did besides changing the screen: the ratio written, and
      whether the app was asked to stop. */
  datatype ClickEffect = NoEffect | Wrote(ratio: Ratio, succeeded: bool)

  /** onRadioButtonClicked: clicking the selected button does nothing;
      otherwise the clicked key's ratio is written, and only when the write
      succeeds does the selection move and the buttons follow it. */
  function OnRadioButtonClicked(s: Screen, clickedKey: string, writeSucceeds: bool): (r: (Screen, ClickEffect))
    ensures clickedKey == s.selectedKey ==> r == (s, NoEffect)
    ensures clickedKey != s.selectedKey ==> r.1 == Wrote(SelectedUserMinAspectRatio(clickedKey), writeSucceeds)
    ensures clickedKey != s.selectedKey && !writeSucceeds ==> r.0 == s
    ensures clickedKey != s.selectedKey && writeSucceeds ==>
      r.0.selectedKey == clickedKey && r.0.buttons == UpdateAllPreferences(s.buttons, clickedKey)
  {
    if clickedKey == s.selectedKey then (s, NoEffect)
    else
      var ratio := SelectedUserMinAspectRatio(clickedKey);
      if !writeSucceeds then (s, Wrote(ratio, false))
      else (Screen(clickedKey, UpdateAllPreferences(s.buttons, clickedKey)), Wrote(ratio, true))
  }

  /** After a successful click on another button that button is the only
      checked one. */
  lemma ClickChecksOnlyTheClickedButton(s: Screen, clickedKey: string, i: int)
    requires clickedKey != s.selectedKey
    requires 0 <= i < |s.buttons|
    ensures var b := OnRadioButtonClicked(s, clickedKey, true).0.buttons[i];
      b.checked <==> s.buttons[i].key == clickedKey
  {
  }

  /** refreshUi: false without package or application info; otherwise the
      buttons follow the selected key. */
  function RefreshUi(s: Screen, hasPackageInfo: bool, hasApplicationInfo: bool): (r: (Screen, bool))
    ensures r.1 <==> hasPackageInfo && hasApplicationInfo
    ensures !r.1 ==> r.0 == s
    ensures r.1 ==> r.0.selectedKey == s.selectedKey && |r.0.buttons| == |s.buttons|
    ensures r.1 ==> forall i :: 0 <= i < |s.buttons| ==> r.0.buttons[i].checked == (s.buttons[i].key == s.selectedKey)
  {
    if !hasPackageInfo || !hasApplicationInfo then (s, false)
    else (s.(buttons := UpdateAllPreferences(s.buttons, s.selectedKey)), true)
  }
}

=== FILE: battery_chart.dfy ===
/** The battery-usage chart controller: the summary line under each app,
    the usage-time sanity check, the hidden-package lists, the saved chart
    selection, and the chart visibility decided on refresh. */
module BatteryChart {
  import opened Common

  const MinuteInMillis: int := 60000
  const HourInMillis: int := 3600000
  /** VALID_USAGE_TIME_DURATION: two hours. */
  const ValidUsageTimeDuration: int := 2 * HourInMillis
  /** BatteryChartViewModel.SELECTED_INDEX_ALL. */
  const SelectedIndexAll: int := -1

  /** One line built by buildUsageTimeInfo: the "less than a minute" text,
      or a formatted elapsed time; either for the total or for background. */
  datatype UsageText = LessThanOneMinute(background: bool) | ForTime(millis: int, background: bool)

  /** A preference summary: none, one line, or total and background lines. */
  datatype Summary = NoSummary | OneLine(line: UsageText) | TwoLines(total: UsageText, background: UsageText)

  function BuildUsageTimeInfo(millis: int, isBackground: bool): (r: UsageText)
    ensures r.background == isBackground
    ensures r.LessThanOneMinute? <==> millis < MinuteInMillis
    ensures r.ForTime? ==> r.millis == millis
  {
    if millis < MinuteInMillis then LessThanOneMinute(isBackground) else ForTime(millis, isBackground)
  }

  /** contains: a non-null target equal to one of the non-null names;
      TextUtils.equals treats a null name as different from any target. */
  function Contains(target: Option<string>, names: Option<seq<Option<string>>>): (r: bool)
    ensures r <==> target.Some? && names.Some? && Some(target.value) in names.value
  {
    if target.None? || names.None? then false
    else exists i :: 0 <= i < |names.value| && names.value[i] == target
  }

  /** isValidToShowSummary: a summary is shown unless the package is on
      the hide-summary list; a null package or list hides nothing. */
  function IsValidToShowSummary(packageName: Option<string>, hideSummary: Option<seq<Option<string>>>): (r: bool)
    ensures packageName.None? || hideSummary.None? ==> r
    ensures r <==> !(packageName.Some? && hideSummary.Some? && packageName in hideSummary.value)
  {
    !Contains(packageName, hideSummary)
  }

  /** isValidToShowEntry: the same test against the hide-entry list. */
  function IsValidToShowEntry(packageName: Option<string>, hideEntry: Option<seq<Option<string>>>): (r: bool)
    ensures packageName.None? || hideEntry.None? ==> r
    ensures r <==> !(packageName.Some? && hideEntry.Some? && packageName in hideEntry.value)
  {
    !Contains(packageName, hideEntry)
  }

  /** setPreferenceSummary for an entry with the given foreground and
      background usage times (non-negative milliseconds). */
  function PreferenceSummary(foreground: nat, background: nat, packageName: Option<string>,
                             hideSummary: Option<seq<Option<string>>>): (r: Summary)
    ensures !IsValidToShowSummary(packageName, hideSummary) ==> r == NoSummary
    ensures r == NoSummary <==> !IsValidToShowSummary(packageName, hideSummary) || foreground + background == 0
    ensures r.TwoLines? <==>
      (IsValidToShowSummary(packageName, hideSummary) && foreground > 0 && background > 0
       && foreground + background >= MinuteInMillis)
    ensures foreground == 0 && background > 0 && IsValidToShowSummary(packageName, hideSummary) ==>
      r == OneLine(BuildUsageTimeInfo(background, true))
    ensures r.TwoLines? ==> r.background == BuildUsageTimeInfo(background, true) && r.total.ForTime?
    // With foreground time, the first line is the total usage time.
    ensures IsValidToShowSummary(packageName, hideSummary) && foreground > 0 ==>
      (r.OneLine? ==> r.line == BuildUsageTimeInfo(foreground + background, false))
      && (r.TwoLines? ==> r.total == BuildUsageTimeInfo(foreground + background, false))
    ensures IsValidToShowSummary(packageName, hideSummary) && foreground > 0 ==> r.OneLine? || r.TwoLines?
  {
    var total := foreground + background;
    if !IsValidToShowSummary(packageName, hideSummary) then NoSummary
    else if total == 0 then NoSummary
    else if foreground == 0 && background != 0 then OneLine(BuildUsageTimeInfo(background, true))
    else if total < MinuteInMillis then OneLine(BuildUsageTimeInfo(total, false))
    else if background > 0 then TwoLines(BuildUsageTimeInfo(total, false), BuildUsageTimeInfo(background, true))
    else OneLine(BuildUsageTimeInfo(total, false))
  }

  /** The time the first line reports, when it states one. */
  function FirstLineMillis(s: Summary): Option<int> {
    match s
    case NoSummary => None
    case OneLine(ForTime(ms, _)) => Some(ms)
    case TwoLines(ForTime(ms, _), _) => Some(ms)
    case _ => None
  }

  /** Whenever a time is shown first, it is the total usage time: the
      background-only line is used exactly when the foreground time is 0. */
  lemma FirstLineIsTotal(foreground: nat, background: nat, packageName: Option<string>,
                         hideSummary: Option<seq<Option<string>>>)
    ensures var s := PreferenceSummary(foreground, background, packageName, hideSummary);
      FirstLineMillis(s).Some? ==> FirstLineMillis(s).value == foreground + background
    ensures var s := PreferenceSummary(foreground, background, packageName, hideSummary);
      s != NoSummary && foreground + background >= MinuteInMillis ==> FirstLineMillis(s) == Some(foreground + background)
  {
  }

  /** validateUsageTime: no part above two hours (times as longs). */
  function ValidateUsageTime(foreground: int, background: int): (r: bool)
    ensures r <==>
      (foreground <= ValidUsageTimeDuration && background <= ValidUsageTimeDuration
       && foreground + background <= ValidUsageTimeDuration)
  {
    var total := foreground + background;
    !(foreground > ValidUsageTimeDuration || background > ValidUsageTimeDuration || total > ValidUsageTimeDuration)
  }

  /** For non-negative times only the total matters. */
  lemma ValidUsageTimeIsTotal(foreground: nat, background: nat)
    ensures ValidateUsageTime(foreground, background) <==> foreground + background <= ValidUsageTimeDuration
  {
  }

  /** The chart selection the controller saves across recreation. */
  datatype Selection = Selection(dailyIndex: int, hourlyIndex: int, isExpanded: bool)

  /** The initial selection: all days, all hours, collapsed. */
  const InitialSelection := Selection(SelectedIndexAll, SelectedIndexAll, false)

  datatype BundleValue = IntValue(i: int) | BoolValue(b: bool)
  type Bundle = map<string, BundleValue>

  const KeyExpandSystemInfo := "expand_system_info"
  const KeyDailyChartIndex := "daily_chart_index"
  const KeyHourlyChartIndex := "hourly_chart_index"

  function GetInt(b: Bundle, key: string, default: int): (r: int)
    ensures key in b && b[key].IntValue? ==> r == b[key].i
    ensures !(key in b && b[key].IntValue?) ==> r == default
  {
    if key in b && b[key].IntValue? then b[key].i else default
  }

  function GetBoolean(b: Bundle, key: string, default: bool): (r: bool)
    ensures key in b && b[key].BoolValue? ==> r == b[key].b
    ensures !(key in b && b[key].BoolValue?) ==> r == default
  {
    if key in b && b[key].BoolValue? then b[key].b else default
  }

  /** onSaveInstanceState: writes the three keys; a null bundle is left alone. */
  function OnSaveInstanceState(s: Selection, bundle: Option<Bundle>): (r: Option<Bundle>)
    ensures bundle.None? ==> r.None?
    ensures bundle.Some? ==> r.Some? && r.value.Keys == bundle.value.Keys + {KeyDailyChartIndex, KeyHourlyChartIndex, KeyExpandSystemInfo}
    ensures bundle.Some? ==> forall k :: k in bundle.value && k !in {KeyDailyChartIndex, KeyHourlyChartIndex, KeyExpandSystemInfo} ==>
      r.value[k] == bundle.value[k]
  {
    if bundle.None? then None
    else Some(bundle.value[KeyDailyChartIndex := IntValue(s.dailyIndex)]
                          [KeyHourlyChartIndex := IntValue(s.hourlyIndex)]
                          [KeyExpandSystemInfo := BoolValue(s.isExpanded)])
  }

  /** onCreate: each field is read back, falling back to its current value. */
  function OnCreate(current: Selection, saved: Option<Bundle>): (r: Selection)
    ensures saved.None? ==> r == current
    ensures saved.Some? && saved.value == map[] ==> r == current
  {
    if saved.None? then current
    else Selection(
      GetInt(saved.value, KeyDailyChartIndex, current.dailyIndex),
      GetInt(saved.value, KeyHourlyChartIndex, current.hourlyIndex),
      GetBoolean(saved.value, KeyExpandSystemInfo, current.isExpanded))
  }

  /** Saving then restoring gives back the saved selection, whatever the
      recreated controller held and whatever else the bundle carried. */
  lemma SaveRestoreRoundTrip(s: Selection, recreated: Selection, bundle: Bundle)
    ensures OnCreate(recreated, OnSaveInstanceState(s, Some(bundle))) == s
  {
  }

  /** What refreshUi sees: the indexed usage map, the two chart views and
      the view models (the number of hourly models stands for the list). */
  datatype ChartInputs = ChartInputs(
    hasIndexedMap: bool,
    hasDailyView: bool,
    hasHourlyView: bool,
    hasDailyModel: bool,
    hourlyModelCount: Option<nat>)

  /** What refreshUi leaves on screen. */
  datatype ChartView = ChartView(dailyVisible: bool, hourlyVisible: bool)

  datatype RefreshError = IndexOutOfBounds

  /** refreshUi: whether the list is refreshed, the selection afterwards and
      the chart visibility (None when no view was touched). Selecting the
      hourly model of a day that has none throws. */
  function RefreshUi(s: Selection, inputs: ChartInputs): (r: Result<(bool, Selection, Option<ChartView>), RefreshError>)
    ensures !inputs.hasIndexedMap || !inputs.hasDailyView || !inputs.hasHourlyView ==>
      r == Success((false, s, None))
    ensures (inputs.hasIndexedMap && inputs.hasDailyView && inputs.hasHourlyView
             && (!inputs.hasDailyModel || inputs.hourlyModelCount.None?)) ==>
      r.Success? && !r.value.0 && r.value.1 == s && r.value.2.Some? && !r.value.2.value.dailyVisible
    ensures r.Success? && r.value.0 && inputs.hourlyModelCount == Some(1) ==> r.value.1.dailyIndex == 0
    ensures r.Success? && r.value.0 ==> r.value.1.hourlyIndex == s.hourlyIndex && r.value.1.isExpanded == s.isExpanded
    ensures r.Success? && r.value.0 ==>
      (r.value.2.Some?
       && (r.value.2.value.dailyVisible <==> inputs.hourlyModelCount != Some(1))
       && (r.value.2.value.hourlyVisible <==> r.value.1.dailyIndex != SelectedIndexAll))
    ensures r.Failure? <==>
      (inputs.hasIndexedMap && inputs.hasDailyView && inputs.hasHourlyView && inputs.hasDailyModel
       && inputs.hourlyModelCount.Some? && inputs.hourlyModelCount != Some(1)
       && s.dailyIndex != SelectedIndexAll && !(0 <= s.dailyIndex < inputs.hourlyModelCount.value))
  {
    if !inputs.hasIndexedMap || !inputs.hasDailyView || !inputs.hasHourlyView then Success((false, s, None))
    else if !inputs.hasDailyModel || inputs.hourlyModelCount.None? then
      Success((false, s, Some(ChartView(false, false))))
    else
      var count := inputs.hourlyModelCount.value;
      var oneDay := count == 1;
      var s1 := if oneDay then s.(dailyIndex := 0) else s;
      if s1.dailyIndex == SelectedIndexAll then Success((true, s1, Some(ChartView(!oneDay, false))))
      else if !(0 <= s1.dailyIndex < count) then Failure(IndexOutOfBounds)
      else Success((true, s1, Some(ChartView(!oneDay, true))))
  }

  /** With one day of data the refresh never throws and shows that day's
      hours. */
  lemma OneDayRefreshShowsHours(s: Selection, inputs: ChartInputs)
    requires inputs.hasIndexedMap && inputs.hasDailyView && inputs.hasHourlyView && inputs.hasDailyModel
    requires inputs.hourlyModelCount == Some(1)
    ensures var r := RefreshUi(s, inputs);
      r.Success? && r.value.0 && r.value.1.dailyIndex == 0 && r.value.2 == Some(ChartView(false, true))
  {
  }
}

=== FILE: battery_hist_entry.dfy ===
/** A battery-usage history record read back from storage: which fields it
    found, whether it is valid, which kind of consumer it describes, and the
    key that identifies that consumer across records. */
module BatteryHistEntry {
  import opened Common

  /** A stored column: absent (the key or column does not exist) or
      present with its value. */
  datatype Column<+T> = Absent | Present(value: T)

  /** The stored record: one column per field. `H` is how the hidden flag
      is stored (a boolean in content values, an int in a cursor) and `D`
      stands for the power figures, which are doubles. */
  datatype Row<+H, +D> = Row(
    uid: Column<int>, userId: Column<int>, appLabel: Column<Option<string>>,
    packageName: Column<Option<string>>, isHidden: Column<H>, timestamp: Column<int>,
    zoneId: Column<Option<string>>, totalPower: Column<D>, consumePower: Column<D>,
    percentOfTotal: Column<D>, foregroundUsageTimeInMs: Column<int>,
    backgroundUsageTimeInMs: Column<int>, drainType: Column<int>, consumerType: Column<int>,
    batteryLevel: Column<int>, batteryStatus: Column<int>, batteryHealth: Column<int>)

  /** The entry: the field values, the validity flag and the cached key
      (`None` until getKey first finds one). */
  datatype Entry<+D> = Entry(
    uid: int, userId: int, appLabel: Option<string>, packageName: Option<string>,
    isHidden: bool, timestamp: int, zoneId: Option<string>, totalPower: D,
    consumePower: D, percentOfTotal: D, foregroundUsageTimeInMs: int,
    backgroundUsageTimeInMs: int, drainType: int, consumerType: int, batteryLevel: int,
    batteryStatus: int, batteryHealth: int, isValidEntry: bool, cachedKey: Option<string>)

  /** The getters: the column's value, or the type's default when it is
      missing. */
  function OrDefault<T>(c: Column<T>, default: T): (r: T)
    ensures c.Present? ==> r == c.value
    ensures c.Absent? ==> r == default
  {
    if c.Present? then c.value else default
  }

  /** Every column of the record is there. */
  predicate AllPresent<H, D>(row: Row<H, D>) {
    row.uid.Present? && row.userId.Present? && row.appLabel.Present?
    && row.packageName.Present? && row.isHidden.Present? && row.timestamp.Present?
    && row.zoneId.Present? && row.totalPower.Present? && row.consumePower.Present?
    && row.percentOfTotal.Present? && row.foregroundUsageTimeInMs.Present?
    && row.backgroundUsageTimeInMs.Present? && row.drainType.Present?
    && row.consumerType.Present? && row.batteryLevel.Present?
    && row.batteryStatus.Present? && row.batteryHealth.Present?
  }

  /** The shared body of both constructors; `hidden` reads the stored
      hidden flag and `zero` is the double 0. Each missing field clears the
      validity flag. */
  function Build<H, D>(row: Row<H, D>, hidden: H -> bool, zero: D): (r: Entry<D>)
    ensures r.isValidEntry <==> AllPresent(row)
    ensures r.cachedKey.None?
    ensures r.uid == OrDefault(row.uid, 0) && r.userId == OrDefault(row.userId, 0)
    ensures r.appLabel == OrDefault(row.appLabel, None) && r.packageName == OrDefault(row.packageName, None)
    ensures r.isHidden == (row.isHidden.Present? && hidden(row.isHidden.value))
    ensures r.timestamp == OrDefault(row.timestamp, 0) && r.zoneId == OrDefault(row.zoneId, None)
    ensures r.totalPower == OrDefault(row.totalPower, zero) && r.consumePower == OrDefault(row.consumePower, zero)
    ensures r.percentOfTotal == OrDefault(row.percentOfTotal, zero)
    ensures r.foregroundUsageTimeInMs == OrDefault(row.foregroundUsageTimeInMs, 0)
    ensures r.backgroundUsageTimeInMs == OrDefault(row.backgroundUsageTimeInMs, 0)
    ensures r.drainType == OrDefault(row.drainType, 0) && r.consumerType == OrDefault(row.consumerType, 0)
    ensures r.batteryLevel == OrDefault(row.batteryLevel, 0) && r.batteryStatus == OrDefault(row.batteryStatus, 0)
    ensures r.batteryHealth == OrDefault(row.batteryHealth, 0)
  {
    Entry(
      OrDefault(row.uid, 0), OrDefault(row.userId, 0), OrDefault(row.appLabel, None),
      OrDefault(row.packageName, None), row.isHidden.Present? && hidden(row.isHidden.value),
      OrDefault(row.timestamp, 0), OrDefault(row.zoneId, None), OrDefault(row.totalPower, zero),
      OrDefault(row.consumePower, zero), OrDefault(row.percentOfTotal, zero),
      OrDefault(row.foregroundUsageTimeInMs, 0), OrDefault(row.backgroundUsageTimeInMs, 0),
      OrDefault(row.drainType, 0), OrDefault(row.consumerType, 0), OrDefault(row.batteryLevel, 0),
      OrDefault(row.batteryStatus, 0), OrDefault(row.batteryHealth, 0),
      AllPresent(row), None)
  }

  /** The content-values constructor: null content values have no keys at
      all, and the hidden flag is stored as a boolean. */
  function FromContentValues<D>(values: Option<Row<bool, D>>, zero: D): (r: Entry<D>)
    ensures values.None? ==> !r.isValidEntry && r.uid == 0 && r.appLabel.None? && !r.isHidden
    ensures values.Some? ==> r == Build(values.value, b => b, zero)
  {
    var row := values.GetOr(Row(Absent, Absent, Absent, Absent, Absent, Absent, Absent, Absent,
      Absent, Absent, Absent, Absent, Absent, Absent, Absent, Absent, Absent));
    Build(row, b => b, zero)
  }

  /** The cursor constructor: the hidden flag is an int column, and only 1
      means hidden. */
  function FromCursor<D>(row: Row<int, D>, zero: D): (r: Entry<D>)
    ensures r.isHidden <==> row.isHidden == Present(1)
    ensures r.isValidEntry <==> AllPresent(row)
  {
    Build(row, i => i == 1, zero)
  }

  /** ConvertUtils' consumer types; their values belong to that class and
      are given here. */
  datatype ConsumerTypes = ConsumerTypes(uidBattery: int, userBattery: int, systemBattery: int)

  predicate Distinct(ct: ConsumerTypes) {
    ct.uidBattery != ct.userBattery && ct.uidBattery != ct.systemBattery
    && ct.userBattery != ct.systemBattery
  }

  function IsAppEntry<D>(e: Entry<D>, ct: ConsumerTypes): (r: bool)
    // With distinct consumer types, this kind excludes the other two.
    ensures r && Distinct(ct) ==> e.consumerType != ct.userBattery && e.consumerType != ct.systemBattery
  {
    e.consumerType == ct.uidBattery
  }

  function IsUserEntry<D>(e: Entry<D>, ct: ConsumerTypes): (r: bool)
    // With distinct consumer types, this kind excludes the other two.
    ensures r && Distinct(ct) ==> e.consumerType != ct.uidBattery && e.consumerType != ct.systemBattery
  {
    e.consumerType == ct.userBattery
  }

  function IsSystemEntry<D>(e: Entry<D>, ct: ConsumerTypes): (r: bool)
    // With distinct consumer types, this kind excludes the other two.
    ensures r && Distinct(ct) ==> e.consumerType != ct.uidBattery && e.consumerType != ct.userBattery
  {
    e.consumerType == ct.systemBattery
  }

  /** The three kinds of entry exclude each other, and which one an entry is
      depends on its consumer type alone. */
  lemma EntryKindsExclusive<D>(e: Entry<D>, other: Entry<D>, ct: ConsumerTypes)
    requires Distinct(ct)
    ensures !(IsAppEntry(e, ct) && IsUserEntry(e, ct))
    ensures !(IsAppEntry(e, ct) && IsSystemEntry(e, ct))
    ensures !(IsUserEntry(e, ct) && IsSystemEntry(e, ct))
    ensures e.consumerType == other.consumerType ==>
      (IsAppEntry(e, ct) <==> IsAppEntry(other, ct)) && (IsUserEntry(e, ct) <==> IsUserEntry(other, ct))
      && (IsSystemEntry(e, ct) <==> IsSystemEntry(other, ct))
  {
  }

  /** Long.toString / Integer.toString: decimal digits, with a leading '-'
      for a negative value. */
  function DecimalString(n: int): (r: string)
    ensures |r| > 0
    ensures n >= 0 ==> AllDigits(r)
    ensures n < 0 ==> r[0] == '-' && AllDigits(r[1..])
  {
    if n < 0 then "-" + Digits(0 - n) else Digits(n)
  }

  function Digits(n: nat): (r: string)
    ensures |r| > 0 && AllDigits(r)
  {
    if n < 10 then [DigitChar(n)] else Digits(n / 10) + [DigitChar(n % 10)]
  }

  function DigitChar(d: nat): (c: char)
    requires d < 10
    ensures '0' <= c <= '9'
  {
    "0123456789"[d]
  }

  predicate AllDigits(s: string) {
    forall i :: 0 <= i < |s| ==> '0' <= s[i] <= '9'
  }

  /** Reads decimal digits back: the reference the key formatting is
      checked against. */
  function ParseDigits(s: string): (n: nat)
    requires |s| > 0 && AllDigits(s)
  {
    var d := (s[|s| - 1] as int) - ('0' as int);
    if |s| == 1 then d else ParseDigits(s[..|s| - 1]) * 10 + d
  }

  /** Parsing the digits of n gives n back. */
  lemma {:induction false} ParseDigitsOfDigits(n: nat)
    ensures ParseDigits(Digits(n)) == n
  {
    if n >= 10 {
      var s := Digits(n);
      assert s[..|s| - 1] == Digits(n / 10);
      ParseDigitsOfDigits(n / 10);
      assert s[|s| - 1] == DigitChar(n % 10);
      DigitValue(n % 10);
    } else {
      DigitValue(n);
    }
  }

  lemma DigitValue(d: nat)
    requires d < 10
    ensures (DigitChar(d) as int) - ('0' as int) == d
  {
    assert "0123456789"[0] == '0' && "0123456789"[1] == '1' && "0123456789"[2] == '2'
      && "0123456789"[3] == '3' && "0123456789"[4] == '4' && "0123456789"[5] == '5'
      && "0123456789"[6] == '6' && "0123456789"[7] == '7' && "0123456789"[8] == '8'
      && "0123456789"[9] == '9';
  }

  /** After the sign, a negative number's string is its magnitude's
      digits. */
  lemma NegativeDigits(n: int)
    requires n < 0
    ensures DecimalString(n)[1..] == Digits(0 - n)
  {
    assert ("-" + Digits(0 - n))[1..] == Digits(0 - n);
  }

  /** A decimal string: digits, after an optional '-'. */
  predicate IsDecimal(s: string) {
    |s| > 0 && (if s[0] == '-' then |s| > 1 && AllDigits(s[1..]) else AllDigits(s))
  }

  /** Reads a decimal string back. */
  function ParseDecimal(s: string): int
    requires IsDecimal(s)
  {
    if s[0] == '-' then 0 - ParseDigits(s[1..]) else ParseDigits(s)
  }

  /** Parsing the decimal string of n gives n back. */
  lemma DecimalRoundTrip(n: int)
    ensures IsDecimal(DecimalString(n)) && ParseDecimal(DecimalString(n)) == n
  {
    if n < 0 {
      NegativeRoundTrip(n);
    } else {
      var digits := Digits(n);
      assert DecimalString(n) == digits && '0' <= digits[0] <= '9';
      ParseDigitsOfDigits(n);
    }
  }

  lemma NegativeRoundTrip(n: int)
    requires n < 0
    ensures IsDecimal(DecimalString(n)) && ParseDecimal(DecimalString(n)) == n
  {
    var s := DecimalString(n);
    var m: nat := 0 - n;
    var digits := Digits(m);
    assert s[0] == '-' && s[1..] == digits by {
      NegativeDigits(n);
    }
    assert ParseDigits(digits) == m by {
      ParseDigitsOfDigits(m);
    }
    assert ParseDecimal(s) == 0 - ParseDigits(s[1..]);
  }

  /** Different numbers have different decimal strings. */
  lemma DecimalStringInjective(m: int, n: int)
    requires DecimalString(m) == DecimalString(n)
    ensures m == n
  {
    DecimalRoundTrip(m);
    DecimalRoundTrip(n);
  }

  /** The key getKey computes: the uid for an app, "S|" and the drain type
      for a system consumer, "U|" and the user id for a user, and null for
      any other consumer type. */
  function ComputeKey<D>(e: Entry<D>, ct: ConsumerTypes): (r: Option<string>)
    ensures r.Some? <==> IsAppEntry(e, ct) || IsUserEntry(e, ct) || IsSystemEntry(e, ct)
  {
    if e.consumerType == ct.uidBattery then Some(DecimalString(e.uid))
    else if e.consumerType == ct.systemBattery then Some("S|" + DecimalString(e.drainType))
    else if e.consumerType == ct.userBattery then Some("U|" + DecimalString(e.userId))
    else None
  }

  /** The first character of a key tells the kind of consumer: a sign or a
      digit for an app, 'S' for a system consumer, 'U' for a user. */
  lemma KeyStartsWithKind<D>(e: Entry<D>, ct: ConsumerTypes)
    requires ComputeKey(e, ct).Some?
    ensures var c := ComputeKey(e, ct).value[0];
      if IsAppEntry(e, ct) then c == '-' || '0' <= c <= '9'
      else if IsSystemEntry(e, ct) then c == 'S'
      else c == 'U'
  {
  }

  /** Keys tell consumers apart: two entries with keys share a key exactly
      when they are the same kind of consumer with the same identifier. */
  lemma {:induction false} KeysIdentifyConsumers<D>(a: Entry<D>, b: Entry<D>, ct: ConsumerTypes)
    requires Distinct(ct)
    requires ComputeKey(a, ct).Some? && ComputeKey(b, ct).Some?
    ensures ComputeKey(a, ct) == ComputeKey(b, ct) <==>
      (IsAppEntry(a, ct) && IsAppEntry(b, ct) && a.uid == b.uid)
      || (IsSystemEntry(a, ct) && IsSystemEntry(b, ct) && a.drainType == b.drainType)
      || (IsUserEntry(a, ct) && IsUserEntry(b, ct) && a.userId == b.userId)
  {
    var ka, kb := ComputeKey(a, ct).value, ComputeKey(b, ct).value;
    KeyStartsWithKind(a, ct);
    KeyStartsWithKind(b, ct);
    if ka == kb {
      if IsAppEntry(a, ct) && IsAppEntry(b, ct) {
        DecimalStringInjective(a.uid, b.uid);
      } else if IsSystemEntry(a, ct) && IsSystemEntry(b, ct) {
        assert ka[2..] == DecimalString(a.drainType) && kb[2..] == DecimalString(b.drainType);
        DecimalStringInjective(a.drainType, b.drainType);
      } else if IsUserEntry(a, ct) && IsUserEntry(b, ct) {
        assert ka[2..] == DecimalString(a.userId) && kb[2..] == DecimalString(b.userId);
        DecimalStringInjective(a.userId, b.userId);
      }
    }
  }

  /** The key cache holds nothing or the key the entry's fields give. */
  predicate CacheConsistent<D>(e: Entry<D>, ct: ConsumerTypes) {
    e.cachedKey.None? || e.cachedKey == ComputeKey(e, ct)
  }

  /** getKey: the cached key when there is one; otherwise the computed key,
      which is then cached (a null key stays uncached). */
  function GetKey<D>(e: Entry<D>, ct: ConsumerTypes): (r: (Entry<D>, Option<string>))
    requires CacheConsistent(e, ct)
    ensures r.1 == ComputeKey(e, ct)
    ensures CacheConsistent(r.0, ct)
    ensures r.0 == e.(cachedKey := r.1)
  {
    if e.cachedKey.Some? then (e, e.cachedKey) else (e.(cachedKey := ComputeKey(e, ct)), ComputeKey(e, ct))
  }

  /** A fresh entry's cache is consistent, and once getKey has run a second
      call answers from the cache and changes nothing. */
  lemma KeyIsCachedOnce<D>(e: Entry<D>, ct: ConsumerTypes)
    requires e.cachedKey.None?
    ensures CacheConsistent(e, ct)
    ensures var (e1, k1) := GetKey(e, ct);
      k1.Some? ==> e1.cachedKey == k1 && GetKey(e1, ct) == (e1, k1)
  {
  }
}

=== FILE: calls_sms_summary.dfy ===
/** The summary line of the "Calls & SMS" entry: which SIMs are active,
    which one is preferred for calls and for SMS, and which are out of
    service. */
module CallsSmsSummary {
  import opened Common

  /** An active subscription: its id, its own display name, the unique name
      Settings shows for it, and whether it is in service. */
  datatype Subscription = Subscription(subId: int, displayName: string, uniqueName: string, inService: bool)

  /** The status texts an entry may carry. */
  datatype Status = Unavailable | TempUnavailable | CallsAndSmsPreferred | CallsPreferred | SmsPreferred

  /** One entry of the list: a name and an optional status. */
  datatype Entry = Entry(name: string, status: Option<Status>)

  /** The summary: the no-SIM text, a lone SIM's name, or one entry per SIM. */
  datatype Summary = NoSim | Single(name: string) | Joined(entries: seq<Entry>)

  /** getPreferredStatus: out of service first (unavailable when there are
      several SIMs, temporarily unavailable for a lone one), then both
      preferences, calls, SMS, and no status. */
  function PreferredStatus(inService: bool, subsSize: int, isCallPreferred: bool, isSmsPreferred: bool): (r: Option<Status>)
    ensures !inService ==> r == Some(if subsSize > 1 then Unavailable else TempUnavailable)
    ensures inService ==> r != Some(Unavailable) && r != Some(TempUnavailable)
    ensures inService && isCallPreferred && isSmsPreferred ==> r == Some(CallsAndSmsPreferred)
    ensures inService && isCallPreferred && !isSmsPreferred ==> r == Some(CallsPreferred)
    ensures inService && !isCallPreferred && isSmsPreferred ==> r == Some(SmsPreferred)
    ensures r.None? <==> inService && !isCallPreferred && !isSmsPreferred
  {
    if !inService then Some(if subsSize > 1 then Unavailable else TempUnavailable)
    else if isCallPreferred && isSmsPreferred then Some(CallsAndSmsPreferred)
    else if isCallPreferred then Some(CallsPreferred)
    else if isSmsPreferred then Some(SmsPreferred)
    else None
  }

  function EntryFor(s: Subscription, subsSize: int, defaultVoiceId: int, defaultSmsId: int): Entry {
    Entry(s.uniqueName, PreferredStatus(s.inService, subsSize, s.subId == defaultVoiceId, s.subId == defaultSmsId))
  }

  /** getSummary. */
  function GetSummary(subs: seq<Subscription>, defaultVoiceId: int, defaultSmsId: int): (r: Summary)
    ensures r == NoSim <==> |subs| == 0
    ensures r.Single? <==> |subs| == 1 && subs[0].inService
    ensures r.Single? ==> r.name == subs[0].displayName
    ensures r.Joined? ==> |r.entries| == |subs|
    ensures r.Joined? ==> forall i :: 0 <= i < |subs| ==>
      r.entries[i].name == subs[i].uniqueName
      && r.entries[i].status == PreferredStatus(subs[i].inService, |subs|, subs[i].subId == defaultVoiceId, subs[i].subId == defaultSmsId)
  {
    if |subs| == 0 then NoSim
    else if |subs| == 1 && subs[0].inService then Single(subs[0].displayName)
    else Joined(seq(|subs|, i requires 0 <= i < |subs| => EntryFor(subs[i], |subs|, defaultVoiceId, defaultSmsId)))
  }

  /** In the list form an entry shows no status exactly when its SIM is in
      service and preferred for neither calls nor SMS, and a lone SIM in the
      list is always the temporarily unavailable one. */
  lemma JoinedStatuses(subs: seq<Subscription>, defaultVoiceId: int, defaultSmsId: int, i: int)
    requires 0 <= i < |subs|
    requires GetSummary(subs, defaultVoiceId, defaultSmsId).Joined?
    ensures var e := GetSummary(subs, defaultVoiceId, defaultSmsId).entries[i];
      e.status.None? <==> subs[i].inService && subs[i].subId != defaultVoiceId && subs[i].subId != defaultSmsId
    ensures |subs| == 1 ==> GetSummary(subs, defaultVoiceId, defaultSmsId).entries[0].status == Some(TempUnavailable)
    ensures |subs| > 1 && !subs[i].inService ==>
      GetSummary(subs, defaultVoiceId, defaultSmsId).entries[i].status == Some(Unavailable)
  {
  }

  /** An entry as text: "name" or "name (status)". */
  function RenderEntry(e: Entry, statusText: Status -> string): (r: string)
    ensures e.status.None? ==> r == e.name
    ensures e.status.Some? ==> r == e.name + " (" + statusText(e.status.value) + ")"
  {
    match e.status
    case None => e.name
    case Some(st) => e.name + " (" + statusText(st) + ")"
  }

  /** joinToString's default: entries separated by ", ". */
  function JoinComma(parts: seq<string>): (r: string)
    ensures |parts| == 0 ==> r == ""
    ensures |parts| == 1 ==> r == parts[0]
  {
    if |parts| == 0 then ""
    else if |parts| == 1 then parts[0]
    else parts[0] + ", " + JoinComma(parts[1..])
  }

  /** Each part after the first with the space that follows its comma. */
  function Spaced(parts: seq<string>): (r: seq<string>)
    requires |parts| > 0
    ensures |r| == |parts| && r[0] == parts[0]
    ensures forall i :: 0 < i < |parts| ==> r[i] == " " + parts[i]
  {
    [parts[0]] + seq(|parts| - 1, i requires 0 <= i < |parts| - 1 => " " + parts[i + 1])
  }

  /** Joining with ", " is joining with ',' after putting a space in front
      of every part but the first. */
  lemma {:induction false} JoinCommaIsJoin(parts: seq<string>)
    requires |parts| > 0
    ensures JoinComma(parts) == Join(Spaced(parts), ',')
  {
    if |parts| > 1 {
      var rest := parts[1..];
      JoinCommaIsJoin(rest);
      var tail := Spaced(parts)[1..];
      assert Spaced(parts) == [parts[0]] + tail;
      JoinCons(parts[0], tail, ',');
      // The space in front of the rest's first part.
      assert [" " + rest[0]] + tail[1..] == tail;
      if |rest| > 1 {
        assert Spaced(rest) == [rest[0]] + tail[1..];
        JoinCons(rest[0], tail[1..], ',');
        JoinCons(" " + rest[0], tail[1..], ',');
      } else {
        assert tail == [" " + rest[0]];
      }
    }
  }

  /** The joined text splits back at its commas into the parts, each after
      the first with its leading space, when no part holds a comma. */
  lemma JoinCommaSplit(parts: seq<string>)
    requires |parts| > 0
    requires forall k :: 0 <= k < |parts| ==> NoSep(parts[k], ',')
    ensures SplitKeep(JoinComma(parts), ',') == Spaced(parts)
  {
    JoinCommaIsJoin(parts);
    var sp := Spaced(parts);
    forall k | 0 < k < |sp| ensures NoSep(sp[k], ',') {
      var t := " " + parts[k];
      assert sp[k] == t;
      forall j | 0 <= j < |t| ensures t[j] != ',' {
        if j > 0 {
          assert t[j] == parts[k][j - 1];
        }
      }
    }
    SplitKeepJoin(sp, ',');
  }

  /** The entries as text. */
  function RenderEntries(entries: seq<Entry>, statusText: Status -> string): seq<string> {
    seq(|entries|, i requires 0 <= i < |entries| => RenderEntry(entries[i], statusText))
  }

  /** The summary as the text shown: a list is its first entry, then ", "
      and the rest. */
  function Render(s: Summary, noSimText: string, statusText: Status -> string): (r: string)
    ensures s == NoSim ==> r == noSimText
    ensures s.Single? ==> r == s.name
    ensures s.Joined? && |s.entries| == 0 ==> r == ""
    ensures s.Joined? && |s.entries| == 1 ==> r == RenderEntry(s.entries[0], statusText)
  {
    match s
    case NoSim => noSimText
    case Single(name) => name
    case Joined(entries) => JoinComma(RenderEntries(entries, statusText))
  }

  /** A list of two or more entries shows its first entry, ", ", and the
      rest as a list. */
  lemma RenderJoinedCons(entries: seq<Entry>, noSimText: string, statusText: Status -> string)
    requires |entries| > 1
    ensures Render(Joined(entries), noSimText, statusText)
      == RenderEntry(entries[0], statusText) + ", " + Render(Joined(entries[1..]), noSimText, statusText)
  {
    assert RenderEntries(entries, statusText)[1..] == RenderEntries(entries[1..], statusText);
  }

  /** The shown list splits back at its commas into the entries' texts
      when no entry text holds a comma. */
  lemma RenderJoinedSplit(entries: seq<Entry>, noSimText: string, statusText: Status -> string)
    requires |entries| > 0
    requires forall k :: 0 <= k < |entries| ==> NoSep(RenderEntry(entries[k], statusText), ',')
    ensures SplitKeep(Render(Joined(entries), noSimText, statusText), ',') == Spaced(RenderEntries(entries, statusText))
  {
    JoinCommaSplit(RenderEntries(entries, statusText));
  }
}

=== FILE: common.dfy ===
/** Shared vocabulary of the Settings model: nullable values, error results,
    the two string splitters the app relies on, and a stable sort. */
module Common {

  /** A Java reference that may be null. */
  datatype Option<+T> = None | Some(value: T) {
    function GetOr(default: T): (r: T)
      ensures Some? ==> r == value
      ensures None? ==> r == default
    {
      match this
      case Some(v) => v
      case None => default
    }
  }

  /** TextUtils.isEmpty: null or of length 0. */
  predicate IsEmpty(s: Option<string>) {
    s.None? || |s.value| == 0
  }

  const IntMin: int := -0x8000_0000
  const IntMax: int := 0x7fff_ffff

  /** A Java int. */
  type Int32 = x: int | IntMin <= x <= IntMax

  /** The 32-bit two's-complement value of `x`. */
  function Wrap(x: int): (r: Int32)
    ensures IntMin <= x <= IntMax ==> r == x
    ensures (r - x) % 0x1_0000_0000 == 0
  {
    (x - IntMin) % 0x1_0000_0000 + IntMin
  }

  /** The outcome of a call that either returns or throws. */
  datatype Result<+T, +E> = Success(value: T) | Failure(error: E)

  /** Position of the first `c` in `s`, or |s| when there is none. */
  function IndexOf(s: string, c: char): (i: nat)
    ensures i <= |s|
    ensures i < |s| ==> s[i] == c
    ensures forall k :: 0 <= k < i ==> s[k] != c
  {
    if |s| == 0 then 0
    else if s[0] == c then 0
    else 1 + IndexOf(s[1..], c)
  }

  /** Android's SimpleStringSplitter: each token runs up to the next
      separator; the empty string has no tokens and a trailing separator
      does not start a further, empty, token. */
  function SplitTokens(s: string, sep: char): (r: seq<string>)
    decreases |s|
  {
    if |s| == 0 then []
    else
      var i := IndexOf(s, sep);
      if i == |s| then [s] else [s[..i]] + SplitTokens(s[i + 1..], sep)
  }

  /** TextUtils.split over a one-character expression: the empty string has
      no tokens, otherwise every separator closes a token, trailing empty
      tokens included. */
  function SplitAll(s: string, sep: char): (r: seq<string>)
  {
    if |s| == 0 then [] else SplitKeep(s, sep)
  }

  function SplitKeep(s: string, sep: char): (r: seq<string>)
    ensures |r| > 0
    decreases |s|
  {
    var i := IndexOf(s, sep);
    if i == |s| then [s] else [s[..i]] + SplitKeep(s[i + 1..], sep)
  }

  /** StringJoiner / String.join: the tokens with `sep` between neighbours. */
  function Join(tokens: seq<string>, sep: char): (r: string)
  {
    if |tokens| == 0 then ""
    else if |tokens| == 1 then tokens[0]
    else tokens[0] + [sep] + Join(tokens[1..], sep)
  }

  predicate NoSep(t: string, sep: char) {
    forall k :: 0 <= k < |t| ==> t[k] != sep
  }

  /** Every token the splitter yields is free of the separator. */
  lemma {:induction false} SplitTokensNoSep(s: string, sep: char)
    ensures forall t :: t in SplitTokens(s, sep) ==> NoSep(t, sep)
    decreases |s|
  {
    if |s| != 0 {
      var i := IndexOf(s, sep);
      if i < |s| {
        SplitTokensNoSep(s[i + 1..], sep);
      }
    }
  }

  /** Joining separator-free tokens and splitting again gives the tokens
      back, provided the last one is not empty (an empty last token is
      indistinguishable from a trailing separator). */
  lemma {:induction false} SplitJoin(tokens: seq<string>, sep: char)
    requires forall k :: 0 <= k < |tokens| ==> NoSep(tokens[k], sep)
    requires |tokens| > 0 ==> |tokens[|tokens| - 1]| > 0
    ensures SplitTokens(Join(tokens, sep), sep) == tokens
  {
    if |tokens| == 1 {
      var s := tokens[0];
      assert IndexOf(s, sep) == |s|;
    } else if |tokens| > 1 {
      var tail := tokens[1..];
      assert forall k :: 0 <= k < |tail| ==> tail[k] == tokens[k + 1];
      SplitJoin(tail, sep);
      assert [tokens[0]] + tail == tokens;
      JoinCons(tokens[0], tail, sep);
      SplitTokensCons(tokens[0], sep, Join(tail, sep));
    }
  }

  /** Joining a token in front of a non-empty list. */
  lemma JoinCons(t: string, tokens: seq<string>, sep: char)
    requires |tokens| > 0
    ensures Join([t] + tokens, sep) == t + [sep] + Join(tokens, sep)
  {
    assert ([t] + tokens)[1..] == tokens;
  }

  /** Splitting a separator-free token followed by a separator and more. */
  lemma SplitTokensCons(t: string, sep: char, u: string)
    requires NoSep(t, sep)
    ensures SplitTokens(t + [sep] + u, sep) == [t] + SplitTokens(u, sep)
  {
    var s := t + [sep] + u;
    IndexAfterPrefix(t, sep, u);
    assert s[..|t|] == t;
    assert s[|t| + 1..] == u;
  }

  /** The first separator of `t + [sep] + u` is the one appended, when `t`
      has none of its own. */
  lemma {:induction false} IndexAfterPrefix(t: string, sep: char, u: string)
    requires NoSep(t, sep)
    ensures IndexOf(t + [sep] + u, sep) == |t|
    decreases |t|
  {
    if |t| > 0 {
      var s := t + [sep] + u;
      assert s[0] == t[0];
      assert s[1..] == t[1..] + [sep] + u;
      IndexAfterPrefix(t[1..], sep, u);
    }
  }

  /** Splitting then joining gives back the text, unless it ends in a
      separator, which the splitter drops. */
  lemma {:induction false} JoinSplit(s: string, sep: char)
    requires |s| == 0 || s[|s| - 1] != sep
    ensures Join(SplitTokens(s, sep), sep) == s
    decreases |s|
  {
    if |s| != 0 {
      var i := IndexOf(s, sep);
      if i < |s| {
        JoinSplit(s[i + 1..], sep);
        JoinSplitStep(s, sep, i);
      } else {
        assert SplitTokens(s, sep) == [s];
      }
    }
  }

  /** One step of JoinSplit: the first token, then the rest as given. */
  lemma JoinSplitStep(s: string, sep: char, i: nat)
    requires |s| > 0 && s[|s| - 1] != sep
    requires i == IndexOf(s, sep) && i < |s|
    requires Join(SplitTokens(s[i + 1..], sep), sep) == s[i + 1..]
    ensures Join(SplitTokens(s, sep), sep) == s
  {
    var head, rest := s[..i], s[i + 1..];
    var toks := SplitTokens(rest, sep);
    assert i < |s| - 1;
    SplitTokensNonEmpty(rest, sep);
    assert SplitTokens(s, sep) == [head] + toks;
    JoinCons(head, toks, sep);
    assert head + [sep] + rest == s by {
      assert s[i] == sep;
    }
  }

  lemma SplitTokensNonEmpty(s: string, sep: char)
    requires |s| > 0
    ensures |SplitTokens(s, sep)| > 0
  {
  }

  /** The last token of `t + [sep] + n` is `n` when `n` is a non-empty
      separator-free word: whatever `t` holds, `n` comes out whole. */
  lemma {:induction false} SplitAppendLast(t: string, sep: char, n: string)
    requires |n| > 0 && NoSep(n, sep)
    ensures var r := SplitTokens(t + [sep] + n, sep); |r| > 0 && r[|r| - 1] == n
    decreases |t|
  {
    var s := t + [sep] + n;
    var i := IndexOf(s, sep);
    assert s[|t|] == sep;
    if i == |t| {
      assert NoSep(t, sep) by {
        assert forall k :: 0 <= k < |t| ==> t[k] == s[k];
      }
      assert SplitTokens(n, sep) == [n] by {
        assert IndexOf(n, sep) == |n|;
      }
      SplitTokensCons(t, sep, n);
    } else {
      var u := t[i + 1..] + [sep] + n;
      assert SplitTokens(s, sep) == [s[..i]] + SplitTokens(u, sep) by {
        assert s[i + 1..] == u;
      }
      SplitAppendLast(t[i + 1..], sep, n);
    }
  }

  /** TextUtils.split undoes String.join on any non-empty text. */
  lemma {:induction false} JoinSplitKeep(s: string, sep: char)
    ensures Join(SplitKeep(s, sep), sep) == s
    decreases |s|
  {
    var i := IndexOf(s, sep);
    if i < |s| {
      var head, rest := s[..i], s[i + 1..];
      var toks := SplitKeep(rest, sep);
      calc {
        Join(SplitKeep(s, sep), sep);
        Join([head] + toks, sep);
        { JoinCons(head, toks, sep); }
        head + [sep] + Join(toks, sep);
        { JoinSplitKeep(rest, sep); }
        head + [sep] + rest;
        { assert s[i] == sep; }
        s;
      }
    } else {
      assert SplitKeep(s, sep) == [s];
    }
  }

  /** TextUtils.split gives back any non-empty list of separator-free
      tokens it is handed joined, empty tokens included. */
  lemma {:induction false} SplitKeepJoin(tokens: seq<string>, sep: char)
    requires |tokens| > 0
    requires forall k :: 0 <= k < |tokens| ==> NoSep(tokens[k], sep)
    ensures SplitKeep(Join(tokens, sep), sep) == tokens
  {
    if |tokens| > 1 {
      var rest := tokens[1..];
      JoinCons(tokens[0], rest, sep);
      assert tokens == [tokens[0]] + rest;
      SplitKeepCons(tokens[0], sep, Join(rest, sep));
      SplitKeepJoin(rest, sep);
    }
  }

  /** TextUtils.split on a separator-free token followed by a separator and
      more. */
  lemma SplitKeepCons(t: string, sep: char, u: string)
    requires NoSep(t, sep)
    ensures SplitKeep(t + [sep] + u, sep) == [t] + SplitKeep(u, sep)
  {
    var s := t + [sep] + u;
    IndexAfterPrefix(t, sep, u);
    assert s[..|t|] == t;
    assert s[|t| + 1..] == u;
  }

  /** Java's toLowerCase restricted to ASCII letters. */
  function AsciiLower(s: string): (r: string)
    ensures |r| == |s|
    ensures forall k :: 0 <= k < |s| ==>
      r[k] == (if 'A' <= s[k] <= 'Z' then (s[k] as int + 32) as char else s[k])
  {
    if |s| == 0 then "" else [LowerChar(s[0])] + AsciiLower(s[1..])
  }

  function LowerChar(c: char): char {
    if 'A' <= c <= 'Z' then (c as int + 32) as char else c
  }

  /** Non-decreasing under `key`, stated on neighbours. */
  ghost predicate SortedBy<T>(s: seq<T>, key: T -> int) {
    forall i :: 0 < i < |s| ==> key(s[i - 1]) <= key(s[i])
  }

  /** Neighbour order gives order between any two positions. */
  lemma {:induction false} SortedByPairs<T>(s: seq<T>, key: T -> int, i: int, j: int)
    requires SortedBy(s, key)
    requires 0 <= i <= j < |s|
    ensures key(s[i]) <= key(s[j])
    decreases j - i
  {
    if i < j {
      SortedByPairs(s, key, i, j - 1);
    }
  }

  /** The elements of `s` whose key is `v`, in their order in `s`: the
      elements a stable sort must keep in their input order. */
  function WithKey<T>(s: seq<T>, key: T -> int, v: int): seq<T> {
    if |s| == 0 then []
    else (if key(s[0]) == v then [s[0]] else []) + WithKey(s[1..], key, v)
  }

  /** Places `x` before the first element whose key is not smaller, so it
      stays ahead of the elements it ties with. */
  function InsertBy<T>(x: T, s: seq<T>, key: T -> int): (r: seq<T>)
    requires SortedBy(s, key)
    ensures multiset(r) == multiset(s) + multiset{x}
    ensures SortedBy(r, key)
    ensures r[0] == x || (|s| > 0 && r[0] == s[0])
  {
    if |s| == 0 then [x]
    else if key(x) <= key(s[0]) then [x] + s
    else
      var t := InsertBy(x, s[1..], key);
      assert multiset(s) == multiset{s[0]} + multiset(s[1..]) by {
        assert s == [s[0]] + s[1..];
      }
      [s[0]] + t
  }

  /** The elements with key `v` of a list with a head: the head, when its
      key is `v`, then those of the tail. */
  lemma WithKeyCons<T>(h: T, t: seq<T>, key: T -> int, v: int)
    ensures WithKey([h] + t, key, v) == (if key(h) == v then [h] else []) + WithKey(t, key, v)
  {
    assert ([h] + t)[1..] == t;
  }

  /** Among the elements with key `v`, an inserted `x` with that key comes
      first: it goes ahead of every element it ties with. */
  lemma {:induction false} InsertByWithKey<T>(x: T, s: seq<T>, key: T -> int, v: int)
    requires SortedBy(s, key)
    ensures WithKey(InsertBy(x, s, key), key, v) == (if key(x) == v then [x] else []) + WithKey(s, key, v)
  {
    if |s| == 0 {
      WithKeyCons(x, s, key, v);
      assert [x] + s == [x];
    } else if key(x) <= key(s[0]) {
      WithKeyCons(x, s, key, v);
    } else {
      var t := InsertBy(x, s[1..], key);
      assert InsertBy(x, s, key) == [s[0]] + t;
      WithKeyCons(s[0], t, key, v);
      InsertByWithKey(x, s[1..], key, v);
      WithKeyCons(s[0], s[1..], key, v);
      assert [s[0]] + s[1..] == s;
    }
  }

  /** Stable insertion sort, ascending by `key` (Java's list and stream
      sorts are stable merge sorts, so elements with equal keys keep their
      input order). */
  function SortBy<T>(s: seq<T>, key: T -> int): (r: seq<T>)
    ensures multiset(r) == multiset(s)
    ensures SortedBy(r, key)
    ensures forall v :: WithKey(r, key, v) == WithKey(s, key, v)
  {
    if |s| == 0 then []
    else
      assert s == [s[0]] + s[1..];
      var t := SortBy(s[1..], key);
      forall v ensures WithKey(InsertBy(s[0], t, key), key, v) == WithKey(s, key, v) {
        InsertByWithKey(s[0], t, key, v);
      }
      InsertBy(s[0], t, key)
  }

  /** Sorting a list already in order leaves it as it is. */
  lemma {:induction false} SortByOfSorted<T>(s: seq<T>, key: T -> int)
    requires SortedBy(s, key)
    ensures SortBy(s, key) == s
  {
    if |s| > 0 {
      assert SortedBy(s[1..], key);
      SortByOfSorted(s[1..], key);
      assert s == [s[0]] + s[1..];
    }
  }
}

=== FILE: contextual_cards.dfy ===
/** The homepage's contextual cards: ranking, replacing cards when a loader
    reports new ones, the deferred-setup and half-width view types, and the
    cards kept across a screen rotation. */
module ContextualCards {
  import opened Common

  /** ContextualCard.CardType. */
  datatype CardType = DefaultCard | SliceCard | LegacySuggestion | Conditional | ConditionalHeader | ConditionalFooter

  /** The card categories the manager tests (the rest are `OtherCategory`). */
  datatype Category = SuggestionCategory | DeferredSetupCategory | OtherCategory

  /** View types: the card's own, half width, or the deferred-setup layout. */
  datatype ViewType = OwnView(id: int) | HalfWidth | DeferredSetupView

  /** A card: its name, type, category, ranking score (an integer stand-in
      for the double) and view type. */
  datatype Card = Card(name: string, cardType: CardType, category: Category, score: int, viewType: ViewType)

  function NegScore(c: Card): int { -c.score }

  /** sortCards: a permutation in descending ranking score; the stream
      sort is stable, so cards with equal scores keep their order. */
  function SortCards(cards: seq<Card>): (r: seq<Card>)
    ensures multiset(r) == multiset(cards)
    ensures forall i, j :: 0 <= i <= j < |r| ==> r[i].score >= r[j].score
    ensures forall v :: WithKey(r, NegScore, v) == WithKey(cards, NegScore, v)
  {
    var r := SortBy(cards, NegScore);
    forall i, j | 0 <= i <= j < |r| ensures r[i].score >= r[j].score {
      SortedByPairs(r, NegScore, i, j);
    }
    r
  }

  predicate IsConditionalType(t: CardType) {
    t == Conditional || t == ConditionalHeader || t == ConditionalFooter
  }

  /** The card types an update reports, i.e. the keys of the update map. */
  function UpdatedTypes(updates: seq<(CardType, seq<Card>)>): (r: set<CardType>)
    ensures forall t :: t in r <==> exists i :: 0 <= i < |updates| && updates[i].0 == t
  {
    set i | 0 <= i < |updates| :: updates[i].0
  }

  /** The update map's values, concatenated in iteration order. */
  function NewCards(updates: seq<(CardType, seq<Card>)>): (r: seq<Card>)
    ensures forall i, c :: 0 <= i < |updates| && c in updates[i].1 ==> c in r
    ensures forall c :: c in r ==> exists i :: 0 <= i < |updates| && c in updates[i].1
  {
    if |updates| == 0 then []
    else
      var rest := NewCards(updates[1..]);
      assert forall i :: 1 <= i < |updates| ==> updates[i] == updates[1..][i - 1];
      updates[0].1 + rest
  }

  /** The old cards an update keeps: only the conditional ones when the
      update is empty, otherwise those of types the update does not report. */
  function CardsToKeepOnUpdate(current: seq<Card>, updates: seq<(CardType, seq<Card>)>): (r: seq<Card>)
    ensures |updates| == 0 ==> forall c :: c in r <==> c in current && IsConditionalType(c.cardType)
    ensures |updates| > 0 ==> forall c :: c in r <==> c in current && c.cardType !in UpdatedTypes(updates)
    ensures forall c :: multiset(r)[c] == if KeptOnUpdate(c, updates) then multiset(current)[c] else 0
  {
    if |current| == 0 then []
    else
      var rest := CardsToKeepOnUpdate(current[1..], updates);
      var c := current[0];
      assert current == [c] + current[1..];
      if KeptOnUpdate(c, updates) then [c] + rest else rest
  }

  /** Whether an update keeps an old card. */
  predicate KeptOnUpdate(c: Card, updates: seq<(CardType, seq<Card>)>) {
    if |updates| == 0 then IsConditionalType(c.cardType) else c.cardType !in UpdatedTypes(updates)
  }

  /** The kept cards stay in their old order: keeping from a concatenation
      keeps from each part and concatenates. */
  lemma {:induction false} CardsToKeepOnUpdateAppend(a: seq<Card>, b: seq<Card>, updates: seq<(CardType, seq<Card>)>)
    ensures CardsToKeepOnUpdate(a + b, updates) == CardsToKeepOnUpdate(a, updates) + CardsToKeepOnUpdate(b, updates)
  {
    if |a| > 0 {
      assert (a + b)[1..] == a[1..] + b;
      CardsToKeepOnUpdateAppend(a[1..], b, updates);
    } else {
      assert a + b == b;
    }
  }

  /** The half-width pass (getCardsWithSuggestionViewType): walking left to
      right, two neighbouring suggestion cards are both made half width and
      the walk skips past them. `pairStart[k]` marks the first card of a
      pair. */
  method SuggestionViewType(cards: seq<Card>) returns (result: seq<Card>, pairStart: seq<bool>)
    ensures |result| == |cards| && |pairStart| == |cards|
    ensures forall k :: 0 <= k < |cards| ==>
      result[k] == (if Paired(pairStart, k) then cards[k].(viewType := HalfWidth) else cards[k])
    ensures forall k :: 0 <= k < |cards| && pairStart[k] ==>
      k + 1 < |cards| && !pairStart[k + 1]
      && cards[k].category == SuggestionCategory && cards[k + 1].category == SuggestionCategory
    ensures forall j ::
      (0 <= j < |cards| - 1 && cards[j].category == SuggestionCategory
       && cards[j + 1].category == SuggestionCategory) ==> Paired(pairStart, j) || Paired(pairStart, j + 1)
    ensures GreedyPairing(cards, pairStart)
  {
    var n := |cards|;
    pairStart := seq(n, _ => false);
    var index := 1;
    while index < n
      invariant 1 <= index <= n + 1
      invariant |pairStart| == n
      invariant forall k :: index - 2 <= k < n && 0 <= k ==> !pairStart[k]
      invariant forall k :: 0 <= k < n && pairStart[k] ==>
        k + 1 < n && k + 1 < index && !pairStart[k + 1]
        && cards[k].category == SuggestionCategory && cards[k + 1].category == SuggestionCategory
      invariant forall j ::
        (0 <= j && j + 1 < index - 1 && j + 1 < n && cards[j].category == SuggestionCategory
         && cards[j + 1].category == SuggestionCategory) ==> Paired(pairStart, j) || Paired(pairStart, j + 1)
      invariant (index >= 2 && index - 1 < n && cards[index - 2].category == SuggestionCategory
                 && cards[index - 1].category == SuggestionCategory) ==> Paired(pairStart, index - 2)
      invariant forall k :: 0 <= k < n && k < index - 1 ==> (pairStart[k] <==> StartsPair(cards, pairStart, k))
    {
      if cards[index].category == SuggestionCategory && cards[index - 1].category == SuggestionCategory {
        pairStart := pairStart[index - 1 := true];
        index := index + 2;
      } else {
        index := index + 1;
      }
    }
    // Both cards of every pair are made half width.
    result := seq(n, k requires 0 <= k < n => if Paired(pairStart, k) then cards[k].(viewType := HalfWidth) else cards[k]);
  }

  /** Card k starts a pair exactly when it and the next card are
      suggestions and card k is not already the second card of a pair. */
  predicate StartsPair(cards: seq<Card>, pairStart: seq<bool>, k: int)
    requires |pairStart| == |cards| && 0 <= k < |cards|
  {
    k + 1 < |cards| && cards[k].category == SuggestionCategory && cards[k + 1].category == SuggestionCategory
    && !(k > 0 && pairStart[k - 1])
  }

  /** The left-to-right greedy pairing of neighbouring suggestion cards. */
  predicate GreedyPairing(cards: seq<Card>, pairStart: seq<bool>) {
    |pairStart| == |cards| && forall k :: 0 <= k < |cards| ==> (pairStart[k] <==> StartsPair(cards, pairStart, k))
  }

  /** The greedy pairing is determined by the cards' categories alone, so
      the pass's result is unique. */
  lemma {:induction false} GreedyPairingUnique(cards: seq<Card>, p: seq<bool>, q: seq<bool>)
    requires GreedyPairing(cards, p) && GreedyPairing(cards, q)
    ensures p == q
  {
    forall k | 0 <= k < |cards| ensures p[k] == q[k] {
      GreedyPairingAgreesUpTo(cards, p, q, k);
    }
  }

  lemma {:induction false} GreedyPairingAgreesUpTo(cards: seq<Card>, p: seq<bool>, q: seq<bool>, k: nat)
    requires GreedyPairing(cards, p) && GreedyPairing(cards, q)
    requires k < |cards|
    ensures p[k] == q[k]
  {
    if k > 0 {
      GreedyPairingAgreesUpTo(cards, p, q, k - 1);
    }
    assert p[k] <==> StartsPair(cards, p, k);
    assert q[k] <==> StartsPair(cards, q, k);
  }

  /** Whether card `k` belongs to a pair. */
  predicate Paired(pairStart: seq<bool>, k: int)
    requires 0 <= k < |pairStart|
  {
    pairStart[k] || (k > 0 && pairStart[k - 1])
  }

  /** No card before position k is a deferred-setup card. */
  predicate NoDeferredBefore(cards: seq<Card>, k: int)
    requires 0 <= k <= |cards|
  {
    forall m :: 0 <= m < k ==> cards[m].category != DeferredSetupCategory
  }

  /** The deferred-setup pass: only the first deferred-setup card gets the
      deferred-setup view type. */
  function DeferredSetupViewType(cards: seq<Card>): (r: seq<Card>)
    ensures |r| == |cards|
    ensures forall k :: 0 <= k < |cards| ==>
      r[k] == (if cards[k].category == DeferredSetupCategory && NoDeferredBefore(cards, k)
               then cards[k].(viewType := DeferredSetupView) else cards[k])
  {
    if |cards| == 0 then []
    else if cards[0].category == DeferredSetupCategory then
      var r := [cards[0].(viewType := DeferredSetupView)] + cards[1..];
      assert forall k :: 0 < k < |cards| ==> !NoDeferredBefore(cards, k);
      r
    else
      var rest := DeferredSetupViewType(cards[1..]);
      var r := [cards[0]] + rest;
      assert forall k :: 0 < k < |cards| ==> (NoDeferredBefore(cards, k) <==> NoDeferredBefore(cards[1..], k - 1));
      r
  }

  /** getCardsWithViewType: the deferred-setup pass, then the half-width
      pass; an empty list is returned as it is. */
  method CardsWithViewType(cards: seq<Card>) returns (r: seq<Card>, pairStart: seq<bool>)
    ensures |r| == |cards|
    ensures GreedyPairing(cards, pairStart)
    ensures forall k :: 0 <= k < |cards| ==> r[k] == cards[k].(viewType := AssignedViewType(cards, pairStart, k))
  {
    if |cards| == 0 {
      return cards, [];
    }
    var deferred := DeferredSetupViewType(cards);
    r, pairStart := SuggestionViewType(deferred);
    assert forall k :: 0 <= k < |cards| ==> deferred[k].category == cards[k].category;
    assert forall k :: 0 <= k < |cards| ==> StartsPair(deferred, pairStart, k) == StartsPair(cards, pairStart, k);
  }

  /** The view type card k ends with: half width when paired, else the
      deferred-setup view for the first deferred-setup card, else its own. */
  function AssignedViewType(cards: seq<Card>, pairStart: seq<bool>, k: int): ViewType
    requires |pairStart| == |cards| && 0 <= k < |cards|
  {
    if Paired(pairStart, k) then HalfWidth
    else if cards[k].category == DeferredSetupCategory && NoDeferredBefore(cards, k) then DeferredSetupView
    else cards[k].viewType
  }

  /** At most one card is given the deferred-setup view. */
  lemma OneDeferredSetupView(cards: seq<Card>, pairStart: seq<bool>, i: int, j: int)
    requires GreedyPairing(cards, pairStart)
    requires 0 <= i < |cards| && 0 <= j < |cards|
    requires AssignedViewType(cards, pairStart, i) == DeferredSetupView
    requires AssignedViewType(cards, pairStart, j) == DeferredSetupView
    requires cards[i].viewType != DeferredSetupView && cards[j].viewType != DeferredSetupView
    ensures i == j
  {
  }

  /** onContextualCardUpdated: drop the cards the update replaces, add the
      reported ones, rank them and assign view types. `updates` lists the
      update map's entries in its iteration order; map keys are distinct. */
  method OnContextualCardUpdated(current: seq<Card>, updates: seq<(CardType, seq<Card>)>) returns (r: seq<Card>, pairStart: seq<bool>)
    ensures |r| == |CardsToKeepOnUpdate(current, updates)| + |NewCards(updates)|
    ensures var sorted := SortCards(CardsToKeepOnUpdate(current, updates) + NewCards(updates));
      |sorted| == |r| && GreedyPairing(sorted, pairStart)
      && forall k :: 0 <= k < |r| ==> r[k] == sorted[k].(viewType := AssignedViewType(sorted, pairStart, k))
    ensures forall i, j :: 0 <= i <= j < |r| ==> r[i].score >= r[j].score
    ensures forall k :: 0 <= k < |r| ==>
      (exists c :: c in CardsToKeepOnUpdate(current, updates) + NewCards(updates)
        && c.name == r[k].name && c.cardType == r[k].cardType && c.score == r[k].score)
    ensures |updates| > 0 ==> forall k :: 0 <= k < |r| && r[k].cardType in UpdatedTypes(updates) ==>
      exists c :: c in NewCards(updates) && c.name == r[k].name
    ensures |updates| == 0 ==> forall k :: 0 <= k < |r| ==> IsConditionalType(r[k].cardType)
  {
    var all := CardsToKeepOnUpdate(current, updates) + NewCards(updates);
    var sorted := SortCards(all);
    r, pairStart := CardsWithViewType(sorted);
    forall k | 0 <= k < |r|
      ensures exists c :: c in all && c.name == r[k].name && c.cardType == r[k].cardType && c.score == r[k].score
    {
      assert sorted[k] in multiset(sorted);
      assert sorted[k] in all;
    }
  }

  /** getCardsToKeep: after a rotation the cards whose names were saved, and
      the saved names are cleared; otherwise the cards already shown (cards
      are equal when their names are). */
  function CardsToKeep(cards: seq<Card>, savedNames: Option<seq<string>>, shown: seq<Card>): (r: (seq<Card>, Option<seq<string>>))
    ensures r.1.None?
    ensures savedNames.Some? ==> forall c :: c in r.0 <==> c in cards && c.name in savedNames.value
    ensures savedNames.None? ==> forall c :: c in r.0 <==> c in cards && exists s :: s in shown && s.name == c.name
    ensures forall c :: multiset(r.0)[c] == if KeptOnLoad(c, savedNames, shown) then multiset(cards)[c] else 0
  {
    if |cards| == 0 then ([], None)
    else
      var (rest, _) := CardsToKeep(cards[1..], savedNames, shown);
      var c := cards[0];
      assert cards == [c] + cards[1..];
      (if KeptOnLoad(c, savedNames, shown) then [c] + rest else rest, None)
  }

  /** Whether a loaded card is kept: its name was saved, or, with nothing
      saved, a card of that name is on screen. */
  predicate KeptOnLoad(c: Card, savedNames: Option<seq<string>>, shown: seq<Card>) {
    if savedNames.Some? then c.name in savedNames.value else exists s :: s in shown && s.name == c.name
  }

  /** The kept cards stay in load order: keeping from a concatenation keeps
      from each part and concatenates. */
  lemma {:induction false} CardsToKeepAppend(a: seq<Card>, b: seq<Card>, savedNames: Option<seq<string>>, shown: seq<Card>)
    ensures CardsToKeep(a + b, savedNames, shown).0 == CardsToKeep(a, savedNames, shown).0 + CardsToKeep(b, savedNames, shown).0
  {
    if |a| > 0 {
      assert (a + b)[1..] == a[1..] + b;
      CardsToKeepAppend(a[1..], b, savedNames, shown);
    } else {
      assert a + b == b;
    }
  }
}

=== FILE: credential_manager.dfy ===
/** The credential-provider list in Settings: which provider packages are
    enabled (at most five through the switches), the component names stored
    in the setting, and the "set provider" intent with its confirmation
    dialog. */
module CredentialManager {
  import opened Common

  const MaxSelectableProviders: nat := 5
  const PrimaryIntent: string := "android.settings.CREDENTIAL_PROVIDER"
  const AlternateIntent: string := "android.settings.SYNC_SETTINGS"

  /** A provider service: its package, class and the label loaded when the
      application has a non-localized label (None otherwise). */
  datatype ServiceInfo = ServiceInfo(packageName: string, className: string, appLabel: Option<string>)

  /** CredentialProviderInfo: a service and whether the system has it enabled. */
  datatype Provider = Provider(info: ServiceInfo, enabled: bool)

  /** Activity.RESULT_OK and RESULT_CANCELED. */
  datatype ActivityResult = ResultOk | ResultCanceled

  datatype Availability = Available | ConditionallyUnavailable

  datatype Button = Positive | Negative | Neutral

  /** An intent: its action and the scheme-specific part of its data URI. */
  datatype Uri = Uri(schemeSpecificPart: Option<string>)
  datatype Intent = Intent(action: Option<string>, data: Option<Uri>)

  /** The controller's state: the listed services, the enabled package
      names, the services of a pending "set provider" request, the switch
      of each package shown (checked or not), and whether a delegate is
      present to receive activity results. */
  datatype Controller = Controller(
    services: seq<Provider>,
    enabledPackages: set<string>,
    pending: seq<ServiceInfo>,
    prefs: map<string, bool>,
    hasDelegate: bool)

  /** A fresh controller. */
  function Initial(hasDelegate: bool): (c: Controller)
    ensures c.services == [] && c.enabledPackages == {} && c.pending == [] && c.prefs == map[]
  {
    Controller([], {}, [], map[], hasDelegate)
  }

  /** The result that reaches the activity: none without a delegate. */
  function Deliver(c: Controller, code: ActivityResult): (r: Option<ActivityResult>)
    ensures r.Some? <==> c.hasDelegate
    ensures r.Some? ==> r.value == code
  {
    if c.hasDelegate then Some(code) else None
  }

  /** togglePackageNameEnabled: refused once five packages are enabled (even
      for a package already among them). */
  function TogglePackageNameEnabled(c: Controller, packageName: string): (r: (Controller, bool))
    ensures r.1 <==> |c.enabledPackages| < MaxSelectableProviders
    ensures r.1 ==> r.0 == c.(enabledPackages := c.enabledPackages + {packageName})
    ensures !r.1 ==> r.0 == c
    ensures |c.enabledPackages| <= MaxSelectableProviders ==> |r.0.enabledPackages| <= MaxSelectableProviders
    ensures r.1 ==> packageName in r.0.enabledPackages
  {
    if |c.enabledPackages| >= MaxSelectableProviders then (c, false)
    else (c.(enabledPackages := c.enabledPackages + {packageName}), true)
  }

  /** togglePackageNameDisabled. */
  function TogglePackageNameDisabled(c: Controller, packageName: string): (r: Controller)
    ensures packageName !in r.enabledPackages
    ensures forall p :: p != packageName ==> (p in r.enabledPackages <==> p in c.enabledPackages)
    ensures r.services == c.services && r.pending == c.pending && r.prefs == c.prefs
    ensures |r.enabledPackages| <= |c.enabledPackages|
  {
    c.(enabledPackages := c.enabledPackages - {packageName})
  }

  /** ComponentName.flattenToString: package, '/', class. */
  function Flatten(info: ServiceInfo): string {
    info.packageName + "/" + info.className
  }

  /** getEnabledSettings: the flattened component of each service whose
      package is enabled, in service order. */
  function EnabledSettings(services: seq<Provider>, enabled: set<string>): (r: seq<string>)
    ensures |r| <= |services|
    ensures enabled == {} ==> r == []
    ensures forall x :: x in r <==>
      exists i :: 0 <= i < |services| && services[i].info.packageName in enabled && Flatten(services[i].info) == x
    ensures forall i :: 0 <= i < |services| && services[i].info.packageName in enabled ==> Flatten(services[i].info) in r
  {
    if |services| == 0 then []
    else
      var rest := EnabledSettings(services[1..], enabled);
      var head := if services[0].info.packageName in enabled then [Flatten(services[0].info)] else [];
      assert forall i :: 1 <= i < |services| ==> services[i] == services[1..][i - 1];
      forall x | x in rest
        ensures exists i :: 0 <= i < |services| && services[i].info.packageName in enabled && Flatten(services[i].info) == x
      {
        var j :| 0 <= j < |services| - 1 && services[1..][j].info.packageName in enabled && Flatten(services[1..][j].info) == x;
        assert services[j + 1] == services[1..][j];
      }
      head + rest
  }

  /** The entries keep the service order: the entries of a concatenation
      are those of its parts, concatenated. With the single-service case
      (at most one entry, present exactly when the package is enabled)
      this determines the list. */
  lemma {:induction false} EnabledSettingsAppend(a: seq<Provider>, b: seq<Provider>, enabled: set<string>)
    ensures EnabledSettings(a + b, enabled) == EnabledSettings(a, enabled) + EnabledSettings(b, enabled)
  {
    if |a| > 0 {
      assert (a + b)[1..] == a[1..] + b;
      EnabledSettingsAppend(a[1..], b, enabled);
    } else {
      assert a + b == b;
    }
  }

  /** The package names of the services the system reports enabled. */
  function EnabledPackagesOf(available: seq<Provider>): (r: set<string>)
    ensures forall p :: p in r <==> exists i :: 0 <= i < |available| && available[i].enabled && available[i].info.packageName == p
  {
    if |available| == 0 then {}
    else
      var rest := EnabledPackagesOf(available[1..]);
      assert forall i :: 1 <= i < |available| ==> available[i] == available[1..][i - 1];
      assert forall p :: p in rest ==> exists i :: 0 <= i < |available| && available[i].enabled && available[i].info.packageName == p
        by {
          forall p | p in rest
            ensures exists i :: 0 <= i < |available| && available[i].enabled && available[i].info.packageName == p
          {
            var j :| 0 <= j < |available| - 1 && available[1..][j].enabled && available[1..][j].info.packageName == p;
            assert available[j + 1] == available[1..][j];
          }
        }
      (if available[0].enabled then {available[0].info.packageName} else {}) + rest
  }

  /** handleIntent: the pending request is consumed; a confirmation dialog
      is shown for the first pending service when its label is non-empty. */
  function HandleIntent(c: Controller): (r: (Controller, Option<string>))
    ensures r.0 == c.(pending := [])
    ensures r.1.Some? <==> |c.pending| > 0 && !IsEmpty(c.pending[0].appLabel)
    ensures r.1.Some? ==> r.1.value == c.pending[0].packageName
  {
    if |c.pending| == 0 then (c.(pending := []), None)
    else
      var first := c.pending[0];
      if IsEmpty(first.appLabel) then (c.(pending := []), None)
      else (c.(pending := []), Some(first.packageName))
  }

  /** setAvailableServices: replace the service list, show any pending
      dialog (the package it asks about), take the enabled packages from
      the services, and check exactly the switches of enabled packages. */
  function SetAvailableServices(c: Controller, available: seq<Provider>): (r: (Controller, Option<string>))
    ensures r.0.services == available && r.0.pending == []
    ensures r.0.enabledPackages == EnabledPackagesOf(available)
    ensures forall p :: p in r.0.enabledPackages <==>
      exists i :: 0 <= i < |available| && available[i].enabled && available[i].info.packageName == p
    ensures r.0.prefs.Keys == c.prefs.Keys
    ensures forall p :: p in r.0.prefs ==> (r.0.prefs[p] <==> p in r.0.enabledPackages)
    ensures r.1 == HandleIntent(c).1
  {
    var (handled, dialog) := HandleIntent(c.(services := available));
    var enabled := EnabledPackagesOf(available);
    var prefs := map p | p in c.prefs :: p in enabled;
    (handled.(enabledPackages := enabled, prefs := prefs), dialog)
  }

  /** getAvailabilityStatus. */
  function AvailabilityStatus(c: Controller): (r: Availability)
    ensures r == ConditionallyUnavailable <==> |c.services| == 0
  {
    if |c.services| == 0 then ConditionallyUnavailable else Available
  }

  /** The services of `services` whose package is `packageName`, in order. */
  function ServicesOfPackage(services: seq<Provider>, packageName: string): (r: seq<ServiceInfo>)
    ensures forall x :: x in r ==> x.packageName == packageName
    ensures |r| > 0 <==> exists i :: 0 <= i < |services| && services[i].info.packageName == packageName
    ensures forall i :: 0 <= i < |services| && services[i].info.packageName == packageName ==> services[i].info in r
    ensures forall x :: x in r ==> exists i :: 0 <= i < |services| && services[i].info == x
    ensures |r| <= |services|
  {
    if |services| == 0 then []
    else
      var rest := ServicesOfPackage(services[1..], packageName);
      assert forall i :: 1 <= i < |services| ==> services[i] == services[1..][i - 1];
      (if services[0].info.packageName == packageName then [services[0].info] else []) + rest
  }

  /** The matching services keep their order: the matches in a
      concatenation are those of its parts, concatenated. */
  lemma {:induction false} ServicesOfPackageAppend(a: seq<Provider>, b: seq<Provider>, packageName: string)
    ensures ServicesOfPackage(a + b, packageName) == ServicesOfPackage(a, packageName) + ServicesOfPackage(b, packageName)
  {
    if |a| > 0 {
      assert (a + b)[1..] == a[1..] + b;
      ServicesOfPackageAppend(a[1..], b, packageName);
    } else {
      assert a + b == b;
    }
  }

  predicate IsProviderAction(action: string) {
    action == PrimaryIntent || action == AlternateIntent
  }

  /** verifyReceivedIntent: whether a "set provider" request for a listed
      package was accepted, the new state (the matching services become
      pending) and the activity result set on the way. */
  function VerifyReceivedIntent(c: Controller, intent: Option<Intent>): (r: (Controller, bool, Option<ActivityResult>))
    ensures intent.None? || intent.value.action.None? || !IsProviderAction(intent.value.action.value) ==>
      r == (c, false, None)
    ensures r.1 <==>
      (intent.Some? && intent.value.action.Some? && IsProviderAction(intent.value.action.value)
       && intent.value.data.Some? && intent.value.data.value.schemeSpecificPart.Some?
       && exists i :: 0 <= i < |c.services| && c.services[i].info.packageName == intent.value.data.value.schemeSpecificPart.value)
    ensures r.1 ==>
      (r.2.None? && |r.0.pending| > 0
       && forall x :: x in r.0.pending ==> x.packageName == intent.value.data.value.schemeSpecificPart.value)
    ensures !r.1 && intent.Some? && intent.value.action.Some? && IsProviderAction(intent.value.action.value) ==>
      r.2 == Deliver(c, ResultCanceled)
    // With a package named, the pending list is replaced by exactly that
    // package's services, in service order, whether or not there are any.
    ensures intent.Some? && intent.value.action.Some? && IsProviderAction(intent.value.action.value)
            && intent.value.data.Some? && intent.value.data.value.schemeSpecificPart.Some? ==>
      r.0.pending == ServicesOfPackage(c.services, intent.value.data.value.schemeSpecificPart.value)
    // Without one, a provider action leaves the pending list alone.
    ensures intent.Some? && intent.value.action.Some? && IsProviderAction(intent.value.action.value)
            && (intent.value.data.None? || intent.value.data.value.schemeSpecificPart.None?) ==>
      r.0 == c
    ensures r.0.services == c.services && r.0.enabledPackages == c.enabledPackages && r.0.prefs == c.prefs
  {
    if intent.None? || intent.value.action.None? then (c, false, None)
    else if !IsProviderAction(intent.value.action.value) then (c, false, None)
    else if intent.value.data.None? then (c, false, Deliver(c, ResultCanceled))
    else if intent.value.data.value.schemeSpecificPart.None? then (c, false, Deliver(c, ResultCanceled))
    else
      var pkg := intent.value.data.value.schemeSpecificPart.value;
      var pending := ServicesOfPackage(c.services, pkg);
      if |pending| > 0 then (c.(pending := pending), true, None)
      else (c.(pending := pending), false, Deliver(c, ResultCanceled))
  }

  /** completeEnableProviderDialogBox: the positive button enables the
      package when there is room (checking its switch if shown) and reports
      OK; a full list or any other button reports CANCELED. */
  function CompleteEnableProviderDialogBox(c: Controller, which: Button, packageName: string): (r: (Controller, Option<ActivityResult>))
    ensures which == Positive && |c.enabledPackages| < MaxSelectableProviders ==>
      r.1 == Deliver(c, ResultOk) && r.0.enabledPackages == c.enabledPackages + {packageName}
      && (packageName in c.prefs ==> r.0.prefs == c.prefs[packageName := true])
      && (packageName !in c.prefs ==> r.0.prefs == c.prefs)
    ensures which != Positive || |c.enabledPackages| >= MaxSelectableProviders ==>
      r == (c, Deliver(c, ResultCanceled))
    ensures |c.enabledPackages| <= MaxSelectableProviders ==> |r.0.enabledPackages| <= MaxSelectableProviders
  {
    if which == Positive then
      var (c', ok) := TogglePackageNameEnabled(c, packageName);
      if ok then
        var prefs := if packageName in c'.prefs then c'.prefs[packageName := true] else c'.prefs;
        (c'.(prefs := prefs), Deliver(c, ResultOk))
      else (c, Deliver(c, ResultCanceled))
    else (c, Deliver(c, ResultCanceled))
  }

  /** The switches and the dialog never take the enabled set above five. */
  lemma SwitchesKeepAtMostFive(c: Controller, packageName: string, which: Button)
    requires |c.enabledPackages| <= MaxSelectableProviders
    ensures |TogglePackageNameEnabled(c, packageName).0.enabledPackages| <= MaxSelectableProviders
    ensures |TogglePackageNameDisabled(c, packageName).enabledPackages| <= MaxSelectableProviders
    ensures |CompleteEnableProviderDialogBox(c, which, packageName).0.enabledPackages| <= MaxSelectableProviders
  {
  }

  /** The system's own list is not capped: n enabled services of distinct
      packages give n enabled packages, however large n is. */
  lemma {:induction false} SystemListIsNotCapped(available: seq<Provider>)
    requires forall i :: 0 <= i < |available| ==> available[i].enabled
    requires forall i, j :: 0 <= i < j < |available| ==> available[i].info.packageName != available[j].info.packageName
    ensures |EnabledPackagesOf(available)| == |available|
  {
    if |available| > 0 {
      var rest := available[1..];
      SystemListIsNotCapped(rest);
      assert forall j :: 0 <= j < |rest| ==> rest[j] == available[j + 1];
      assert available[0].info.packageName !in EnabledPackagesOf(rest);
    }
  }

  /** An accepted request leads to a confirmation dialog for the requested
      package once the services arrive, when the package's first service
      has a label. */
  lemma AcceptedIntentShowsDialog(c: Controller, intent: Option<Intent>, available: seq<Provider>)
    requires VerifyReceivedIntent(c, intent).1
    ensures var c1 := VerifyReceivedIntent(c, intent).0;
      var (c2, dialog) := SetAvailableServices(c1, available);
      c2.pending == []
      && (dialog.Some? <==> !IsEmpty(c1.pending[0].appLabel))
      && (dialog.Some? ==> dialog.value == intent.value.data.value.schemeSpecificPart.value)
  {
    var c1 := VerifyReceivedIntent(c, intent).0;
    assert c1.pending[0] in c1.pending;
  }
}

=== FILE: euicc_settings.dfy ===
/** MobileNetworkUtils.showEuiccSettings: whether the entry point to the
    eUICC (eSIM) settings is shown, from the device's eUICC state, the
    network country, the supported-country list and a few system
    properties. */
module EuiccSettings {
  import opened Common

  /** Everything the predicate reads. Settings and properties that may be
      unset are `Option`s; their defaults are applied by the predicate. */
  datatype Environment = Environment(
    euiccEnabled: bool,
    networkCountryIso: string,
    supportedCountries: Option<string>,
    cidIgnoreList: Option<string>,
    cid: Option<string>,
    enableEsimUiByDefault: Option<bool>,
    euiccProvisioned: Option<int>,
    developmentSettingsEnabled: Option<int>)

  /** Whether the current network country is one the eSIM UI supports: an
      unknown (empty) country always is; otherwise it must be one of the
      comma-separated supported countries, compared in lower case. */
  function InEsimSupportedCountries(networkCountryIso: string, supportedCountries: Option<string>): (r: bool)
    ensures |networkCountryIso| == 0 ==> r
    ensures |networkCountryIso| > 0 && IsEmpty(supportedCountries) ==> !r
    ensures r && |networkCountryIso| > 0 ==>
      AsciiLower(networkCountryIso) in SplitAll(AsciiLower(supportedCountries.value), ',')
  {
    var currentCountry := AsciiLower(networkCountryIso);
    if |currentCountry| == 0 then true
    else if !IsEmpty(supportedCountries) then
      currentCountry in SplitAll(AsciiLower(supportedCountries.value), ',')
    else false
  }

  /** Whether the device's CID is on the comma-separated ignore list; a
      device without a CID never is. */
  predicate EsimIgnoredDevice(cidIgnoreList: Option<string>, cid: Option<string>) {
    cid.Some? && cid.value in SplitAll(cidIgnoreList.GetOr(""), ',')
  }

  /** showEuiccSettings: never while the eUICC is disabled; otherwise in
      developer mode, once the eUICC was provisioned, or when the device is
      not ignored, the UI is on by default (the default is on) and the
      country is supported. */
  function ShowEuiccSettings(env: Environment): (r: bool)
    ensures !env.euiccEnabled ==> !r
    ensures env.euiccEnabled && env.developmentSettingsEnabled.GetOr(0) != 0 ==> r
    ensures env.euiccEnabled && env.euiccProvisioned.GetOr(0) != 0 ==> r
    ensures r && env.developmentSettingsEnabled.GetOr(0) == 0 && env.euiccProvisioned.GetOr(0) == 0 ==>
      !EsimIgnoredDevice(env.cidIgnoreList, env.cid) && env.enableEsimUiByDefault.GetOr(true)
      && InEsimSupportedCountries(env.networkCountryIso, env.supportedCountries)
    // A device not ignored, with the UI on by default, in a supported
    // country, shows the settings.
    ensures (env.euiccEnabled && !EsimIgnoredDevice(env.cidIgnoreList, env.cid)
             && env.enableEsimUiByDefault.GetOr(true)
             && InEsimSupportedCountries(env.networkCountryIso, env.supportedCountries)) ==> r
    ensures (env.euiccEnabled && !EsimIgnoredDevice(env.cidIgnoreList, env.cid)
             && env.enableEsimUiByDefault.None? && |env.networkCountryIso| == 0) ==> r
  {
    if !env.euiccEnabled then false
    else
      var inSupported := InEsimSupportedCountries(env.networkCountryIso, env.supportedCountries);
      var ignored := EsimIgnoredDevice(env.cidIgnoreList, env.cid);
      var byDefault := env.enableEsimUiByDefault.GetOr(true);
      var provisioned := env.euiccProvisioned.GetOr(0) != 0;
      var developerMode := env.developmentSettingsEnabled.GetOr(0) != 0;
      developerMode || provisioned || (!ignored && byDefault && inSupported)
  }

  /** Lower-casing a list joined with commas lower-cases each entry. */
  lemma {:induction false} LowerJoin(tokens: seq<string>)
    ensures AsciiLower(Join(tokens, ',')) == Join(LowerAll(tokens), ',')
  {
    if |tokens| > 1 {
      var rest := tokens[1..];
      assert LowerAll(tokens)[1..] == LowerAll(rest);
      LowerJoin(rest);
      LowerAppend(tokens[0] + [','], Join(rest, ','));
      LowerAppend(tokens[0], [',']);
    }
  }

  lemma LowerAppend(a: string, b: string)
    ensures AsciiLower(a + b) == AsciiLower(a) + AsciiLower(b)
  {
    assert forall k :: 0 <= k < |a + b| ==> (a + b)[k] == if k < |a| then a[k] else b[k - |a|];
  }

  function LowerAll(tokens: seq<string>): (r: seq<string>)
    ensures |r| == |tokens|
    ensures forall k :: 0 <= k < |tokens| ==> r[k] == AsciiLower(tokens[k])
  {
    seq(|tokens|, k requires 0 <= k < |tokens| => AsciiLower(tokens[k]))
  }

  /** For a supported-country list written as comma-free country codes
      joined with commas, a known country is supported exactly when it
      equals one of the codes, ignoring case. */
  lemma {:induction false} SupportedCountryMatch(networkCountryIso: string, countries: seq<string>)
    requires |networkCountryIso| > 0 && |countries| > 0
    requires forall k :: 0 <= k < |countries| ==> NoSep(countries[k], ',')
    ensures InEsimSupportedCountries(networkCountryIso, Some(Join(countries, ','))) <==>
      exists k :: 0 <= k < |countries| && AsciiLower(countries[k]) == AsciiLower(networkCountryIso)
  {
    var lowered := LowerAll(countries);
    LowerJoin(countries);
    forall k | 0 <= k < |lowered| ensures NoSep(lowered[k], ',') {
      assert NoSep(countries[k], ',');
    }
    var current := AsciiLower(networkCountryIso);
    if |Join(countries, ',')| > 0 {
      SplitKeepJoin(lowered, ',');
      assert SplitAll(AsciiLower(Join(countries, ',')), ',') == lowered;
    } else {
      JoinedEmpty(countries);
      assert AsciiLower(countries[0]) == "" != current;
    }
  }

  /** Only the list of one empty entry joins to the empty text. */
  lemma JoinedEmpty(tokens: seq<string>)
    requires |tokens| > 0 && |Join(tokens, ',')| == 0
    ensures tokens == [""]
  {
  }

  /** For an ignore list written as comma-free CIDs joined with commas, a
      device is ignored exactly when it has one of those CIDs. */
  lemma {:induction false} IgnoredDeviceMatch(cids: seq<string>, cid: Option<string>)
    requires |cids| > 0 && |Join(cids, ',')| > 0
    requires forall k :: 0 <= k < |cids| ==> NoSep(cids[k], ',')
    ensures EsimIgnoredDevice(Some(Join(cids, ',')), cid) <==> cid.Some? && cid.value in cids
  {
    SplitKeepJoin(cids, ',');
  }
}

=== FILE: face_preview.dfy ===
/** The face-enrolment camera preview: choosing the preview resolution from
    the sizes the camera offers, and the by-area comparison it uses. */
module FacePreview {
  import opened Common

  const LongMin: int := -0x8000_0000_0000_0000
  const LongMax: int := 0x7fff_ffff_ffff_ffff

  /** The 64-bit two's-complement value of `x`. */
  function WrapLong(x: int): (r: int)
    ensures LongMin <= r <= LongMax
    ensures LongMin <= x <= LongMax ==> r == x
  {
    (x - LongMin) % 0x1_0000_0000_0000_0000 + LongMin
  }

  function Signum(x: int): (r: int)
    ensures -1 <= r <= 1
  {
    if x > 0 then 1 else if x < 0 then -1 else 0
  }

  /** android.util.Size: a width and a height, both Java ints. */
  datatype Size = Size(width: Int32, height: Int32)

  function Area(s: Size): int {
    s.width * s.height
  }

  /** CompareSizesByArea.compare: the sign of the difference of the two
      areas, each product and the difference taken in Java longs. */
  function CompareByArea(lhs: Size, rhs: Size): (r: int)
    ensures -1 <= r <= 1
  {
    Signum(WrapLong(WrapLong(lhs.width * lhs.height) - WrapLong(rhs.width * rhs.height)))
  }

  lemma {:induction false} ProductBounds(a: Int32, b: Int32)
    ensures -0x4000_0000_0000_0000 + 0x8000_0000 <= a * b <= 0x4000_0000_0000_0000
  {
    var x: nat := if a < 0 then 0 - a as int else a as int;
    var y: nat := if b < 0 then 0 - b as int else b as int;
    ProductOfBounded(x, y, 0x8000_0000);
    if (a < 0) == (b < 0) {
      assert a * b == x * y by {
        if a < 0 {
          NegTimesNeg(x, y);
        }
      }
    } else if a < 0 {
      // A negative product has a positive factor, at most 2^31 - 1.
      assert a * b == -(x * y) by {
        NegTimes(x, y);
      }
      MulLe(x, y, 0x7fff_ffff);
      MulLeLeft(x, 0x8000_0000, 0x7fff_ffff);
    } else {
      assert a * b == -(y * x) by {
        NegTimes(y, x);
      }
      MulLe(y, x, 0x7fff_ffff);
      MulLeLeft(y, 0x8000_0000, 0x7fff_ffff);
    }
  }

  lemma NegTimesNeg(x: int, y: int)
    ensures (-x) * (-y) == x * y
  {
  }

  lemma NegTimes(x: int, y: int)
    ensures (-x) * y == -(x * y) && y * (-x) == -(x * y)
  {
  }

  lemma {:induction false} MulLe(x: nat, y: nat, c: nat)
    requires y <= c
    ensures x * y <= x * c
  {
    assert x * c - x * y == x * (c - y);
  }

  lemma {:induction false} MulLeLeft(x: nat, c: nat, k: nat)
    requires x <= c
    ensures x * k <= c * k
  {
    assert c * k - x * k == (c - x) * k;
  }

  lemma {:induction false} ProductOfBounded(x: nat, y: nat, c: nat)
    requires x <= c && y <= c
    ensures x * y <= c * c
  {
    MulLe(x, y, c);
    MulLeLeft(x, c, c);
  }

  /** The casts to long are enough: neither the products nor their
      difference overflow, so the comparison is the exact comparison of the
      areas. */
  lemma {:induction false} CompareByAreaIsExact(lhs: Size, rhs: Size)
    ensures CompareByArea(lhs, rhs) == Signum(Area(lhs) - Area(rhs))
  {
    ProductBounds(lhs.width, lhs.height);
    ProductBounds(rhs.width, rhs.height);
  }

  /** A resolution the preview may use: square and within the maximum. */
  predicate Usable(s: Size, maxWidth: int, maxHeight: int) {
    s.width <= maxWidth && s.height <= maxHeight && s.height == s.width
  }

  /** A usable resolution that covers the preview surface. */
  predicate BigEnough(s: Size, viewWidth: int, viewHeight: int) {
    s.width >= viewWidth && s.height >= viewHeight
  }

  /** Collections.min with the area comparator: the first element no later
      element is strictly smaller than. */
  function MinByArea(s: seq<Size>): (r: Size)
    requires |s| > 0
    ensures r in s
    ensures forall k :: 0 <= k < |s| ==> CompareByArea(r, s[k]) <= 0
  {
    if |s| == 1 then s[0]
    else
      var m := MinByArea(s[..|s| - 1]);
      var next := s[|s| - 1];
      assert forall k :: 0 <= k < |s| - 1 ==> s[k] == s[..|s| - 1][k];
      CompareByAreaIsExact(next, m);
      forall k | 0 <= k < |s| - 1 ensures Area(m) <= Area(s[k]) {
        CompareByAreaIsExact(m, s[k]);
      }
      var r := if CompareByArea(next, m) < 0 then next else m;
      forall k | 0 <= k < |s| ensures CompareByArea(r, s[k]) <= 0 {
        CompareByAreaIsExact(r, s[k]);
      }
      r
  }

  /** Collections.max with the area comparator: the first element no later
      element is strictly larger than. */
  function MaxByArea(s: seq<Size>): (r: Size)
    requires |s| > 0
    ensures r in s
    ensures forall k :: 0 <= k < |s| ==> CompareByArea(r, s[k]) >= 0
  {
    if |s| == 1 then s[0]
    else
      var m := MaxByArea(s[..|s| - 1]);
      var next := s[|s| - 1];
      assert forall k :: 0 <= k < |s| - 1 ==> s[k] == s[..|s| - 1][k];
      CompareByAreaIsExact(next, m);
      forall k | 0 <= k < |s| - 1 ensures Area(m) >= Area(s[k]) {
        CompareByAreaIsExact(m, s[k]);
      }
      var r := if CompareByArea(next, m) > 0 then next else m;
      forall k | 0 <= k < |s| ensures CompareByArea(r, s[k]) >= 0 {
        CompareByAreaIsExact(r, s[k]);
      }
      r
  }

  /** The usable choices that cover the surface, and those that do not, in
      the offered order. */
  function Partition(choices: seq<Size>, vw: int, vh: int, mw: int, mh: int): (r: (seq<Size>, seq<Size>))
    ensures forall s :: s in r.0 <==> s in choices && Usable(s, mw, mh) && BigEnough(s, vw, vh)
    ensures forall s :: s in r.1 <==> s in choices && Usable(s, mw, mh) && !BigEnough(s, vw, vh)
  {
    if |choices| == 0 then ([], [])
    else
      var (big, small) := Partition(choices[1..], vw, vh, mw, mh);
      var c := choices[0];
      assert choices == [c] + choices[1..];
      if !Usable(c, mw, mh) then (big, small)
      else if BigEnough(c, vw, vh) then ([c] + big, small)
      else (big, [c] + small)
  }

  /** The error when nothing is offered at all (`choices[0]` throws). */
  datatype ChooseError = NoChoices

  /** chooseOptimalSize: the smallest usable resolution that covers the
      surface; failing that the largest usable one; failing that the first
      one offered. */
  function ChooseOptimalSize(choices: seq<Size>, viewWidth: int, viewHeight: int, maxWidth: int, maxHeight: int)
    : (r: Result<Size, ChooseError>)
    ensures r.Failure? <==> |choices| == 0
    ensures r.Success? && (exists s :: s in choices && Usable(s, maxWidth, maxHeight) && BigEnough(s, viewWidth, viewHeight)) ==>
      r.value in choices && Usable(r.value, maxWidth, maxHeight) && BigEnough(r.value, viewWidth, viewHeight)
      && forall s :: s in choices && Usable(s, maxWidth, maxHeight) && BigEnough(s, viewWidth, viewHeight) ==>
        Area(r.value) <= Area(s)
    ensures (r.Success? && (forall s :: s in choices && Usable(s, maxWidth, maxHeight) ==> !BigEnough(s, viewWidth, viewHeight))
             && (exists s :: s in choices && Usable(s, maxWidth, maxHeight))) ==>
      r.value in choices && Usable(r.value, maxWidth, maxHeight)
      && forall s :: s in choices && Usable(s, maxWidth, maxHeight) ==> Area(r.value) >= Area(s)
    ensures r.Success? && (forall s :: s in choices ==> !Usable(s, maxWidth, maxHeight)) ==> r.value == choices[0]
  {
    var (big, small) := Partition(choices, viewWidth, viewHeight, maxWidth, maxHeight);
    if |big| > 0 then
      var m := MinByArea(big);
      forall s | s in big ensures Area(m) <= Area(s) {
        var k :| 0 <= k < |big| && big[k] == s;
        CompareByAreaIsExact(m, s);
      }
      Success(m)
    else if |small| > 0 then
      var m := MaxByArea(small);
      forall s | s in small ensures Area(m) >= Area(s) {
        var k :| 0 <= k < |small| && small[k] == s;
        CompareByAreaIsExact(m, s);
      }
      Success(m)
    else if |choices| == 0 then Failure(NoChoices)
    else Success(choices[0])
  }
}

=== FILE: fingerprint_enroll.dfy ===
/** The arithmetic of the fingerprint enrolment screen: the progress bar
    value from the enrolment steps, the "center touches done" test, and the
    counter of taps on the sensor icon that brings up the help dialog. All
    values are Java ints, so sums, products and quotients are computed in
    32-bit two's complement with division truncating toward zero. */
module FingerprintEnroll {
  import opened Common

  const ProgressBarMax: int := 10000
  const NumCenterTouches: int := 2
  const IconTouchCountShowUntilDialogShown: int := 3

  /** Java's `/` on ints: truncates toward zero, then wraps (only
      IntMin / -1 wraps). */
  function JavaDiv(a: Int32, b: Int32): (r: Int32)
    requires b != 0
    ensures a >= 0 && b > 0 ==> r == a / b
  {
    var q := if (a >= 0) == (b > 0) then Abs(a) / Abs(b) else -(Abs(a) / Abs(b));
    Wrap(q)
  }

  function Abs(x: int): nat {
    if x < 0 then -x else x
  }

  /** getProgress: the bar value, 0 while the step count is unknown (-1). */
  function GetProgress(steps: Int32, remaining: Int32): (r: Int32)
    ensures steps == -1 ==> r == 0
  {
    if steps == -1 then 0
    else
      var done := Wrap(steps + 1 - remaining);
      var progress := if done > 0 then done else 0;
      JavaDiv(Wrap(ProgressBarMax * progress), Wrap(steps + 1))
  }

  /** The same value in exact arithmetic. */
  function ExactProgress(steps: nat, remaining: nat): nat {
    ProgressBarMax * (if steps + 1 > remaining then steps + 1 - remaining else 0) / (steps + 1)
  }

  /** Largest step count for which 10000 * (steps + 1) stays below 2^31. */
  const MaxExactSteps: int := 214747

  /** For step counts up to 214747 nothing wraps, so the Java value is the
      exact one. */
  lemma {:induction false} ProgressIsExact(steps: Int32, remaining: Int32)
    requires 0 <= steps <= MaxExactSteps && 0 <= remaining
    ensures GetProgress(steps, remaining) == ExactProgress(steps, remaining)
  {
    var p := if steps + 1 > remaining then steps + 1 - remaining else 0;
    assert 0 <= p <= steps + 1;
    assert ProgressBarMax * p <= ProgressBarMax * (steps + 1) <= IntMax;
  }

  lemma {:induction false} DivMonotone(a: nat, b: nat, n: nat)
    requires a <= b && n > 0
    ensures a / n <= b / n
  {
    var qa: nat, qb: nat := a / n, b / n;
    if qa > qb {
      MulMonotone(n, qb + 1, qa);
    }
  }

  lemma {:induction false} MulMonotone(n: nat, x: nat, y: nat)
    requires x <= y
    ensures n * x <= n * y
  {
    if x < y {
      MulMonotone(n, x, y - 1);
      assert n * y == n * (y - 1) + n;
    }
  }

  /** The exact progress lies in [0, 10000], reaches 10000 exactly when
      nothing remains, and never grows as more remains. */
  lemma {:induction false} ProgressBounds(steps: nat, remaining: nat, more: nat)
    requires remaining <= more
    ensures 0 <= ExactProgress(steps, remaining) <= ProgressBarMax
    ensures ExactProgress(steps, remaining) == ProgressBarMax <==> remaining == 0
    ensures ExactProgress(steps, more) <= ExactProgress(steps, remaining)
  {
    ProgressInRange(steps, remaining);
    ProgressMonotone(steps, remaining, more);
  }

  /** The exact progress is within [0, 10000] and at 10000 exactly when
      nothing remains. */
  lemma {:induction false} ProgressInRange(steps: nat, remaining: nat)
    ensures 0 <= ExactProgress(steps, remaining) <= ProgressBarMax
    ensures ExactProgress(steps, remaining) == ProgressBarMax <==> remaining == 0
  {
    var n := steps + 1;
    var p := if n > remaining then n - remaining else 0;
    assert ExactProgress(steps, remaining) == ProgressBarMax * p / n;
    assert ProgressBarMax * p / n <= ProgressBarMax by {
      MulMonotone(ProgressBarMax, p, n);
      DivMonotone(ProgressBarMax * p, ProgressBarMax * n, n);
      MulDivCancel(ProgressBarMax, n);
    }
    if remaining > 0 {
      assert ProgressBarMax * p < ProgressBarMax * n by {
        MulMonotone(ProgressBarMax, p, n - 1);
        assert ProgressBarMax * (n - 1) == ProgressBarMax * n - ProgressBarMax;
      }
      LessThanMultipleDivides(ProgressBarMax * p, ProgressBarMax, n);
    } else {
      assert p == n;
      MulDivCancel(ProgressBarMax, n);
    }
  }

  /** Dividing a multiple of n by n gives the factor back. */
  lemma {:induction false} MulDivCancel(k: nat, n: nat)
    requires n > 0
    ensures k * n / n == k
  {
    var q: nat, r: nat := k * n / n, k * n % n;
    var next: nat := q + 1;
    assert k * n == n * q + r && r < n;
    if q < k {
      MulMonotone(n, next, k);
    } else if q > k {
      MulMonotone(n, k + 1, q);
    }
  }

  /** More remaining steps never mean more progress. */
  lemma {:induction false} ProgressMonotone(steps: nat, remaining: nat, more: nat)
    requires remaining <= more
    ensures ExactProgress(steps, more) <= ExactProgress(steps, remaining)
  {
    var n := steps + 1;
    var p := if n > remaining then n - remaining else 0;
    var q := if n > more then n - more else 0;
    assert ExactProgress(steps, remaining) == ProgressBarMax * p / n;
    assert ExactProgress(steps, more) == ProgressBarMax * q / n;
    MulMonotone(ProgressBarMax, q, p);
    DivMonotone(ProgressBarMax * q, ProgressBarMax * p, n);
  }

  lemma {:induction false} LessThanMultipleDivides(a: nat, k: nat, n: nat)
    requires n > 0 && a < k * n
    ensures a / n < k
  {
    var q: nat := a / n;
    if q >= k {
      MulMonotone(n, k, q);
    }
  }

  /** The screen moves on once the bar reaches its maximum, which happens
      exactly when no step remains. */
  lemma FinishesExactlyWhenNothingRemains(steps: Int32, remaining: Int32)
    requires 0 <= steps <= MaxExactSteps && 0 <= remaining
    ensures GetProgress(steps, remaining) >= ProgressBarMax <==> remaining == 0
  {
    ProgressIsExact(steps, remaining);
    ProgressBounds(steps, remaining, remaining);
  }

  /** isCenterEnrollmentComplete: the sidecar is present, the step count is
      known and at least two steps are done. */
  function IsCenterEnrollmentComplete(hasSidecar: bool, steps: Int32, remaining: Int32): (r: bool)
    ensures !hasSidecar || steps == -1 ==> !r
    ensures hasSidecar && steps != -1 && IntMin <= steps - remaining <= IntMax ==>
      (r <==> steps - remaining >= NumCenterTouches)
  {
    if !hasSidecar || steps == -1 then false
    else Wrap(steps - remaining) >= NumCenterTouches
  }

  /** The sensor-icon touch state: taps counted so far and whether the
      long-press dialog runnable is posted. */
  datatype TouchState = TouchState(count: int, dialogPosted: bool)

  /** Touch events: a finger down, a finger up or cancel, and the posted
      runnable firing after the finger stayed down 500 ms. */
  datatype TouchEvent = Down | UpOrCancel | HeldLong

  predicate ValidTouch(t: TouchState) {
    0 <= t.count < IconTouchCountShowUntilDialogShown
  }

  /** The touch listener and showIconTouchDialog: the third tap, or a long
      press, shows the dialog and resets the count. Returns whether the
      dialog was shown. */
  function OnTouch(t: TouchState, e: TouchEvent): (r: (TouchState, bool))
    requires ValidTouch(t)
    ensures ValidTouch(r.0)
    ensures r.1 ==> r.0.count == 0
    ensures e == Down ==> (r.1 <==> t.count + 1 == IconTouchCountShowUntilDialogShown)
    ensures e == Down && !r.1 ==> r.0 == TouchState(t.count + 1, true)
    ensures e == UpOrCancel ==> r == (t.(dialogPosted := false), false)
    ensures e == HeldLong ==> (r.1 <==> t.dialogPosted)
  {
    match e
    case Down =>
      if t.count + 1 == IconTouchCountShowUntilDialogShown then (t.(count := 0), true)
      else (TouchState(t.count + 1, true), false)
    case UpOrCancel => (t.(dialogPosted := false), false)
    case HeldLong =>
      if t.dialogPosted then (TouchState(0, false), true) else (t, false)
  }

  /** Three quick taps from rest show the dialog on the third and leave the
      count at 0. */
  lemma ThirdTapShowsDialog()
    ensures var t0 := TouchState(0, false);
      var a := OnTouch(t0, Down); var b := OnTouch(OnTouch(a.0, UpOrCancel).0, Down);
      var c := OnTouch(OnTouch(b.0, UpOrCancel).0, Down);
      !a.1 && !b.1 && c.1 && c.0.count == 0
  {
  }
}

=== FILE: magnification_shortcut.dfy ===
/** How the screen-magnification page turns its shortcuts on and off: the
    software and hardware shortcuts are ':'-separated lists of target names
    in secure settings, the triple-tap shortcut is an ON/OFF integer, and a
    bitmask of shortcut types ties the three together. */
module MagnificationShortcut {
  import opened Common

  const Separator: char := ':'

  /** A target name as stored in a shortcut setting: non-empty and free of
      the separator. The magnification controller's name
      (AccessibilityShortcutController.MAGNIFICATION_CONTROLLER_NAME) is
      passed in as such a name. */
  type TargetName = n: string | |n| > 0 && NoSep(n, ':') witness "m"

  /** UserShortcutType bits and the ON/OFF states of AccessibilityUtil. */
  const Default: bv32 := 0
  const Software: bv32 := 1
  const Hardware: bv32 := 2
  const TripleTap: bv32 := 4
  const On: int := 1
  const Off: int := 0

  datatype Kind = SoftwareKind | HardwareKind | TripleTapKind

  function Bit(k: Kind): (b: bv32)
    ensures b == Software || b == Hardware || b == TripleTap
  {
    match k
    case SoftwareKind => Software
    case HardwareKind => Hardware
    case TripleTapKind => TripleTap
  }

  /** The three secure settings involved; None is an unset setting. */
  datatype Secure = Secure(
    softwareTargets: Option<string>,
    hardwareTargets: Option<string>,
    magnificationEnabled: Option<int>)

  function Targets(s: Secure, k: Kind): Option<string>
    requires k != TripleTapKind
  {
    if k == SoftwareKind then s.softwareTargets else s.hardwareTargets
  }

  function WithTargets(s: Secure, k: Kind, t: string): (r: Secure)
    requires k != TripleTapKind
    ensures Targets(r, k) == Some(t)
    ensures r.magnificationEnabled == s.magnificationEnabled
    ensures k == SoftwareKind ==> r.hardwareTargets == s.hardwareTargets
    ensures k == HardwareKind ==> r.softwareTargets == s.softwareTargets
  {
    if k == SoftwareKind then s.(softwareTargets := Some(t)) else s.(hardwareTargets := Some(t))
  }

  /** What opt-in writes always splits into tokens that hold the controller. */
  lemma AppendedNameFound(t: Option<string>, name: TargetName)
    ensures IsEmpty(t) ==> name in SplitTokens(name, Separator)
    ensures !IsEmpty(t) ==> name in SplitTokens(t.value + [Separator] + name, Separator)
  {
    if IsEmpty(t) {
      assert IndexOf(name, Separator) == |name|;
      assert SplitTokens(name, Separator) == [name];
    } else {
      SplitAppendLast(t.value, Separator, name);
    }
  }

  /** hasMagnificationValueInSettings: triple tap reads the integer (OFF
      when unset); the others look for the controller among the tokens. */
  function HasValue(s: Secure, k: Kind, name: TargetName): (r: bool)
    // An unset triple-tap setting reads as OFF.
    ensures k == TripleTapKind ==> (r <==> s.magnificationEnabled == Some(On))
    // An unset or empty list holds no token.
    ensures k != TripleTapKind ==>
      (r <==> Targets(s, k).Some? && name in SplitTokens(Targets(s, k).value, Separator))
  {
    if k == TripleTapKind then s.magnificationEnabled.GetOr(Off) == On
    else
      var t := Targets(s, k);
      !IsEmpty(t) && name in SplitTokens(t.value, Separator)
  }

  /** optInMagnificationValueToSettings. */
  function OptIn(s: Secure, k: Kind, name: TargetName): (r: Secure)
    ensures HasValue(r, k, name)
    ensures k == TripleTapKind ==> r == s.(magnificationEnabled := Some(On))
    ensures k != TripleTapKind && HasValue(s, k, name) ==> r == s
    ensures k != TripleTapKind && !HasValue(s, k, name) ==>
      r == WithTargets(s, k, if IsEmpty(Targets(s, k)) then name
                             else Targets(s, k).value + [Separator] + name)
    ensures forall other :: other != k ==> HasValue(r, other, name) == HasValue(s, other, name)
  {
    if k == TripleTapKind then s.(magnificationEnabled := Some(On))
    else if HasValue(s, k, name) then s
    else
      var t := Targets(s, k);
      var joined := if IsEmpty(t) then name else t.value + [Separator] + name;
      AppendedNameFound(t, name);
      WithTargets(s, k, joined)
  }

  /** The tokens opt-out keeps: every non-empty token other than the
      controller, in order. */
  function KeptTokens(tokens: seq<string>, name: TargetName): (r: seq<string>)
    ensures forall x :: x in r <==> x in tokens && x != "" && x != name
    ensures forall i :: 0 <= i < |r| ==> |r[i]| > 0
    ensures forall x :: x != "" && x != name ==> multiset(r)[x] == multiset(tokens)[x]
  {
    if |tokens| == 0 then []
    else
      var rest := KeptTokens(tokens[1..], name);
      assert forall x :: x in tokens <==> x == tokens[0] || x in tokens[1..];
      assert tokens == [tokens[0]] + tokens[1..];
      if tokens[0] == "" || tokens[0] == name then rest else [tokens[0]] + rest
  }

  /** The kept tokens keep their order: the tokens kept from a
      concatenation are those kept from each part, concatenated. */
  lemma {:induction false} KeptTokensAppend(a: seq<string>, b: seq<string>, name: TargetName)
    ensures KeptTokens(a + b, name) == KeptTokens(a, name) + KeptTokens(b, name)
  {
    if |a| > 0 {
      assert (a + b)[1..] == a[1..] + b;
      KeptTokensAppend(a[1..], b, name);
    } else {
      assert a + b == b;
    }
  }

  /** optOutMagnificationValueFromSettings. */
  function OptOut(s: Secure, k: Kind, name: TargetName): (r: Secure)
    ensures !HasValue(r, k, name)
    ensures k == TripleTapKind ==> r == s.(magnificationEnabled := Some(Off))
    ensures k != TripleTapKind && IsEmpty(Targets(s, k)) ==> r == s
    ensures k != TripleTapKind && !IsEmpty(Targets(s, k)) ==>
      r == WithTargets(s, k, Join(KeptTokens(SplitTokens(Targets(s, k).value, Separator), name), Separator))
    ensures k != TripleTapKind && !IsEmpty(Targets(s, k)) ==>
      SplitTokens(Targets(r, k).value, Separator) == KeptTokens(SplitTokens(Targets(s, k).value, Separator), name)
    ensures forall other :: other != k ==> HasValue(r, other, name) == HasValue(s, other, name)
  {
    if k == TripleTapKind then s.(magnificationEnabled := Some(Off))
    else
      var t := Targets(s, k);
      if IsEmpty(t) then s
      else
        var tokens := SplitTokens(t.value, Separator);
        var kept := KeptTokens(tokens, name);
        SplitTokensNoSep(t.value, Separator);
        assert forall i :: 0 <= i < |kept| ==> kept[i] in tokens;
        SplitJoin(kept, Separator);
        WithTargets(s, k, Join(kept, Separator))
  }

  /** Opting in twice is the same as once. */
  lemma OptInIdempotent(s: Secure, k: Kind, name: TargetName)
    ensures OptIn(OptIn(s, k, name), k, name) == OptIn(s, k, name)
  {
  }

  function OptInAll(s: Secure, types: bv32, name: TargetName): (r: Secure)
    ensures forall k :: types & Bit(k) == Bit(k) ==> HasValue(r, k, name)
    ensures forall k :: types & Bit(k) != Bit(k) ==> HasValue(r, k, name) == HasValue(s, k, name)
  {
    OptInIf(OptInIf(OptInIf(s, types, SoftwareKind, name), types, HardwareKind, name), types, TripleTapKind, name)
  }

  /** One step of OptInAll: opt in kind k when the mask asks for it. */
  function OptInIf(s: Secure, types: bv32, k: Kind, name: TargetName): (r: Secure)
    ensures types & Bit(k) == Bit(k) ==> HasValue(r, k, name)
    ensures types & Bit(k) != Bit(k) ==> r == s
    ensures forall other :: other != k ==> HasValue(r, other, name) == HasValue(s, other, name)
  {
    if types & Bit(k) == Bit(k) then OptIn(s, k, name) else s
  }

  function OptOutAll(s: Secure, types: bv32, name: TargetName): (r: Secure)
    ensures forall k :: types & Bit(k) == Bit(k) ==> !HasValue(r, k, name)
    ensures forall k :: types & Bit(k) != Bit(k) ==> HasValue(r, k, name) == HasValue(s, k, name)
  {
    OptOutIf(OptOutIf(OptOutIf(s, types, SoftwareKind, name), types, HardwareKind, name), types, TripleTapKind, name)
  }

  /** One step of OptOutAll: opt out kind k when the mask asks for it. */
  function OptOutIf(s: Secure, types: bv32, k: Kind, name: TargetName): (r: Secure)
    ensures types & Bit(k) == Bit(k) ==> !HasValue(r, k, name)
    ensures types & Bit(k) != Bit(k) ==> r == s
    ensures forall other :: other != k ==> HasValue(r, other, name) == HasValue(s, other, name)
  {
    if types & Bit(k) == Bit(k) then OptOut(s, k, name) else s
  }

  /** hasMagnificationValuesInSettings: any requested type present. */
  function HasValues(s: Secure, types: bv32, name: TargetName): (r: bool)
    ensures r <==> exists k :: types & Bit(k) == Bit(k) && HasValue(s, k, name)
  {
    KindCases(s, types, name);
    (types & Software == Software && HasValue(s, SoftwareKind, name))
    || (types & Hardware == Hardware && HasValue(s, HardwareKind, name))
    || (types & TripleTap == TripleTap && HasValue(s, TripleTapKind, name))
  }

  /** A requested kind with a value is one of the three, checked in turn. */
  lemma KindCases(s: Secure, types: bv32, name: TargetName)
    ensures (exists k :: types & Bit(k) == Bit(k) && HasValue(s, k, name)) <==>
      (types & Software == Software && HasValue(s, SoftwareKind, name))
      || (types & Hardware == Hardware && HasValue(s, HardwareKind, name))
      || (types & TripleTap == TripleTap && HasValue(s, TripleTapKind, name))
  {
    if exists k :: types & Bit(k) == Bit(k) && HasValue(s, k, name) {
      var k :| types & Bit(k) == Bit(k) && HasValue(s, k, name);
      match k
      case SoftwareKind =>
      case HardwareKind =>
      case TripleTapKind =>
    }
    if types & Software == Software && HasValue(s, SoftwareKind, name) {
      assert Bit(SoftwareKind) == Software;
    } else if types & Hardware == Hardware && HasValue(s, HardwareKind, name) {
      assert Bit(HardwareKind) == Hardware;
    } else if types & TripleTap == TripleTap && HasValue(s, TripleTapKind, name) {
      assert Bit(TripleTapKind) == TripleTap;
    }
  }

  /** getUserShortcutTypeFromSettings: the bits of the types present. */
  function UserShortcutTypeFromSettings(s: Secure, name: TargetName): (r: bv32)
    ensures forall k :: (r & Bit(k) == Bit(k)) <==> HasValue(s, k, name)
    ensures r & !(Software | Hardware | TripleTap) == 0
  {
    var a := if HasValues(s, Software, name) then Software else Default;
    var b := if HasValues(s, Hardware, name) then a | Hardware else a;
    if HasValues(s, TripleTap, name) then b | TripleTap else b
  }

  /** updateUserShortcutType: the mask of the checked boxes. */
  function ShortcutTypeOfCheckBoxes(software: bool, hardware: bool, tripleTap: bool): (r: bv32)
    ensures (r & Software == Software) == software
    ensures (r & Hardware == Hardware) == hardware
    ensures (r & TripleTap == TripleTap) == tripleTap
    ensures r & !(Software | Hardware | TripleTap) == 0
  {
    (if software then Software else Default)
    | (if hardware then Hardware else Default)
    | (if tripleTap then TripleTap else Default)
  }

  /** callOnAlertDialogCheckboxClicked with the shortcut preference on:
      opt in the chosen types, then opt out all the others. */
  function ApplyDialogChoice(s: Secure, types: bv32, name: TargetName): (r: Secure)
    ensures forall k :: HasValue(r, k, name) <==> types & Bit(k) == Bit(k)
  {
    var r := OptOutAll(OptInAll(s, types, name), !types, name);
    assert forall k :: (!types & Bit(k) == Bit(k)) <==> !(types & Bit(k) == Bit(k));
    r
  }

  /** After the dialog is confirmed, reading the settings back gives the
      chosen types. */
  lemma DialogChoiceReadsBack(s: Secure, software: bool, hardware: bool, tripleTap: bool, name: TargetName)
    ensures var types := ShortcutTypeOfCheckBoxes(software, hardware, tripleTap);
      UserShortcutTypeFromSettings(ApplyDialogChoice(s, types, name), name) == types
  {
    var types := ShortcutTypeOfCheckBoxes(software, hardware, tripleTap);
    var r := UserShortcutTypeFromSettings(ApplyDialogChoice(s, types, name), name);
    assert r & Software == types & Software;
    assert r & Hardware == types & Hardware;
    assert r & TripleTap == types & TripleTap;
  }

  /** Enabled state of the three boxes. */
  datatype Boxes = Boxes(software: bool, hardware: bool, tripleTap: bool)

  /** updateAlertDialogEnableState: given which boxes are checked and the
      current enabled states, the new enabled states. */
  function UpdateAlertDialogEnableState(checked: Boxes, enabled: Boxes): (r: Boxes)
    // Exactly one box checked: that box is disabled, the others keep their state.
    ensures checked.software && !checked.hardware && !checked.tripleTap ==> r == enabled.(software := false)
    ensures !checked.software && checked.hardware && !checked.tripleTap ==> r == enabled.(hardware := false)
    ensures !checked.software && !checked.hardware && checked.tripleTap ==> r == enabled.(tripleTap := false)
    // None checked: the hardware box is disabled, the others keep their state.
    ensures !checked.software && !checked.hardware && !checked.tripleTap ==> r == enabled.(hardware := false)
    // Two or more checked: every box is enabled.
    ensures ((checked.software && checked.hardware) || (checked.software && checked.tripleTap)
             || (checked.hardware && checked.tripleTap)) ==> r == Boxes(true, true, true)
  {
    if !checked.software && !checked.tripleTap then enabled.(hardware := false)
    else if !checked.hardware && !checked.tripleTap then enabled.(software := false)
    else if !checked.software && !checked.hardware then enabled.(tripleTap := false)
    else Boxes(true, true, true)
  }

  /** No enabled box can be unchecked into an empty selection: whenever
      exactly one box is checked, that box is disabled. */
  lemma LastCheckedBoxLocked(checked: Boxes, enabled: Boxes)
    requires (if checked.software then 1 else 0) + (if checked.hardware then 1 else 0)
      + (if checked.tripleTap then 1 else 0) == 1
    ensures var r := UpdateAlertDialogEnableState(checked, enabled);
      (checked.software ==> !r.software) && (checked.hardware ==> !r.hardware)
      && (checked.tripleTap ==> !r.tripleTap)
  {
  }
}

=== FILE: network_scan.dfy ===
/** The manual network-selection scan: which radio access networks the scan
    request names, given the preferred network-type bitmask, the request's
    fixed timing parameters, and the helper's start/stop bookkeeping around
    the single scan it may have running. */
module NetworkScan {
  import opened Common

  /** RadioAccessSpecifier's access network types. */
  datatype AccessNetworkType = Geran | Utran | Eutran | Ngran

  /** The TelephonyManager bitmasks the request is built from: the 3GPP
      family and the 2G, 3G and 4G network classes. Their values belong to
      the platform and are given, not fixed here. */
  datatype NetworkClasses = NetworkClasses(family3gpp: bv64, class2g: bv64, class3g: bv64, class4g: bv64)

  datatype ScanType = OneShot | Periodic

  /** NetworkScanRequest as the helper builds it; no PLMN list is given. */
  datatype ScanRequest = ScanRequest(
    scanType: ScanType, specifiers: seq<AccessNetworkType>, periodicitySec: int,
    maxSearchTimeSec: int, incrementalResults: bool, incrementalPeriodicitySec: int)

  const SearchPeriodicitySec: int := 5
  const MaxSearchTimeSec: int := 300
  const IncrementalResults: bool := true
  const IncrementalResultsPeriodicitySec: int := 3

  /** The preferred bitmask restricted to the 3GPP family. */
  function ScanMask(preferred: bv64, nc: NetworkClasses): bv64 {
    preferred & nc.family3gpp
  }

  /** Whether a network class is scanned: always when the mask is unknown
      (0), otherwise when the mask has a bit of that class. */
  predicate Scans(mask: bv64, classBits: bv64) {
    mask == 0 || mask & classBits != 0
  }

  /** The position of an access network type in the request's order. */
  function Rank(t: AccessNetworkType): int {
    match t
    case Geran => 0
    case Utran => 1
    case Eutran => 2
    case Ngran => 3
  }

  /** createNetworkScanForPreferredAccessNetworks. */
  function CreateRequest(preferred: bv64, nc: NetworkClasses): (r: ScanRequest)
    ensures var mask := ScanMask(preferred, nc);
      (Geran in r.specifiers <==> Scans(mask, nc.class2g))
      && (Utran in r.specifiers <==> Scans(mask, nc.class3g))
      && (Eutran in r.specifiers <==> Scans(mask, nc.class4g))
    ensures Ngran !in r.specifiers
    ensures forall i, j :: 0 <= i < j < |r.specifiers| ==> Rank(r.specifiers[i]) < Rank(r.specifiers[j])
    ensures r.scanType == OneShot && r.periodicitySec == SearchPeriodicitySec
      && r.maxSearchTimeSec == MaxSearchTimeSec && r.incrementalResults == IncrementalResults
      && r.incrementalPeriodicitySec == IncrementalResultsPeriodicitySec
  {
    var mask := ScanMask(preferred, nc);
    var specifiers :=
      (if Scans(mask, nc.class2g) then [Geran] else [])
      + (if Scans(mask, nc.class3g) then [Utran] else [])
      + (if Scans(mask, nc.class4g) then [Eutran] else []);
    ScanRequest(OneShot, specifiers, SearchPeriodicitySec, MaxSearchTimeSec,
                IncrementalResults, IncrementalResultsPeriodicitySec)
  }

  /** With no usable 3GPP preference the scan covers 2G, 3G and 4G, in that
      order. */
  lemma UnknownPreferenceScansAll(preferred: bv64, nc: NetworkClasses)
    requires ScanMask(preferred, nc) == 0
    ensures CreateRequest(preferred, nc).specifiers == [Geran, Utran, Eutran]
  {
  }

  /** Narrowing a known preference never adds a network to the scan: every
      type scanned for the narrower mask is scanned for the wider one. */
  lemma NarrowerPreferenceScansLess(narrow: bv64, wide: bv64, nc: NetworkClasses)
    requires ScanMask(narrow, nc) != 0
    requires narrow & !wide == 0
    ensures forall t :: t in CreateRequest(narrow, nc).specifiers ==> t in CreateRequest(wide, nc).specifiers
  {
    var m, w := ScanMask(narrow, nc), ScanMask(wide, nc);
    MaskWithin(narrow, wide, nc.family3gpp);
    ScansCarryOver(m, w, nc.class2g);
    ScansCarryOver(m, w, nc.class3g);
    ScansCarryOver(m, w, nc.class4g);
  }

  lemma MaskWithin(narrow: bv64, wide: bv64, family: bv64)
    requires narrow & !wide == 0
    ensures (narrow & family) & !(wide & family) == 0
  {
  }

  /** A class a non-zero mask scans is scanned by any mask containing it. */
  lemma ScansCarryOver(m: bv64, w: bv64, bits: bv64)
    requires m != 0 && m & !w == 0
    ensures Scans(m, bits) ==> Scans(w, bits)
  {
    if m & bits != 0 {
      assert m & bits == m & w & bits;
    }
  }

  /** A running scan, as the token the telephony manager hands back. */
  datatype ScanHandle = ScanHandle(id: int)

  /** The helper's state: the scan it has running, if any. */
  datatype Helper = Helper(requester: Option<ScanHandle>)

  /** NetworkScan.ScanErrorCode, as far as the helper raises one itself. */
  datatype ScanError = RadioInterfaceError

  /** What a start produced: whether a request went to the telephony
      manager, and the error reported to the callback, if any. */
  datatype StartOutcome = StartOutcome(requested: Option<ScanRequest>, error: Option<ScanError>)

  /** startNetworkScan: nothing while a scan is running; otherwise a request
      built from the current preference, whose answer (`granted`, the
      telephony manager's return value) becomes the running scan, and a
      refused request is reported as a radio interface error. */
  function StartNetworkScan(h: Helper, preferred: bv64, nc: NetworkClasses, granted: Option<ScanHandle>): (r: (Helper, StartOutcome))
    ensures h.requester.Some? ==> r == (h, StartOutcome(None, None))
    ensures h.requester.None? ==> r.0.requester == granted
    ensures h.requester.None? ==> r.1.requested == Some(CreateRequest(preferred, nc))
    ensures h.requester.None? ==> (r.1.error.Some? <==> granted.None?)
  {
    if h.requester.Some? then (h, StartOutcome(None, None))
    else
      var request := CreateRequest(preferred, nc);
      (Helper(granted), StartOutcome(Some(request), if granted.None? then Some(RadioInterfaceError) else None))
  }

  /** stopNetworkQuery: stops the running scan, if any, and forgets it. The
      second component is the scan that was told to stop. */
  function StopNetworkQuery(h: Helper): (r: (Helper, Option<ScanHandle>))
    ensures r.0.requester.None?
    ensures r.1 == h.requester
  {
    (Helper(None), h.requester)
  }

  /** Starting again while a scan runs sends no second request; stopping
      twice stops the scan once. */
  lemma StartAndStopAreIdempotent(h: Helper, preferred: bv64, nc: NetworkClasses, g1: Option<ScanHandle>, g2: Option<ScanHandle>)
    requires g1.Some?
    ensures var first := StartNetworkScan(h, preferred, nc, g1).0;
      StartNetworkScan(first, preferred, nc, g2) == (first, StartOutcome(None, None))
    ensures StopNetworkQuery(StopNetworkQuery(h).0).1.None?
  {
  }

  /** A refused request leaves nothing running, so the next start asks the
      telephony manager again. */
  lemma RefusedScanIsRetried(h: Helper, preferred: bv64, nc: NetworkClasses, g: Option<ScanHandle>)
    requires h.requester.None?
    ensures var first := StartNetworkScan(h, preferred, nc, None).0;
      StartNetworkScan(first, preferred, nc, g).1.requested.Some?
  {
  }
}

=== FILE: storage_items.dfy ===
/** The storage screen's category rows: the size each category shows for a
    user (and the user's managed profile), the system size that takes up
    whatever the categories do not account for, which rows a volume shows,
    the rows' display order by size, and the media-size totals. Sizes are
    Java longs; they are modelled as unbounded integers. */
module StorageItems {
  import opened Common

  /** TrafficStats.GB_IN_BYTES (1024 * 1024 * 1024): the least system size
      shown. */
  const GbInBytes: int := 1024 * 1024 * 1024

  /** The order given to the smallest category; larger ones count down. */
  const LastCategoryOrder: int := 200

  /** StorageStatsSource.ExternalStorageStats, as far as the sizes use it. */
  datatype ExternalStats = ExternalStats(totalBytes: int, audioBytes: int, videoBytes: int, imageBytes: int, appBytes: int)

  /** StorageAsyncLoader.AppsStorageResult: one user's app sizes by kind and
      the user's shared-storage statistics. */
  datatype AppsResult = AppsResult(
    gamesSize: int, musicAppsSize: int, videoAppsSize: int, photosAppsSize: int, otherAppsSize: int,
    externalStats: ExternalStats)

  /** The category rows, in the order the controller lists them. */
  datatype Category = Images | Videos | Audios | Apps | Games | DocumentsAndOther | System | Trash

  const Categories: seq<Category> := [Images, Videos, Audios, Apps, Games, DocumentsAndOther, System, Trash]

  /** One user's share of a non-system category (trash is always 0). */
  function UserShare(c: Category, d: AppsResult): int
    requires c != System
  {
    var e := d.externalStats;
    match c
    case Images => d.photosAppsSize + e.imageBytes + e.videoBytes
    case Videos => d.videoAppsSize
    case Audios => d.musicAppsSize + e.audioBytes
    case Apps => d.otherAppsSize
    case Games => d.gamesSize
    case DocumentsAndOther => e.totalBytes - e.audioBytes - e.videoBytes - e.imageBytes - e.appBytes
    case Trash => 0
  }

  /** getImagesSize, getVideosSize, getAudiosSize, getAppsSize, getGamesSize,
      getDocumentsAndOtherSize and getTrashSize: the user's share plus the
      managed profile's when the profile has a result. */
  function CategorySize(c: Category, data: AppsResult, profile: Option<AppsResult>): (r: int)
    requires c != System
    ensures c == Trash ==> r == 0
    ensures profile.None? ==> r == UserShare(c, data)
    ensures profile.Some? ==> r == UserShare(c, data) + UserShare(c, profile.value)
    ensures c == DocumentsAndOther && profile.None? ==>
      r + data.externalStats.audioBytes + data.externalStats.videoBytes
        + data.externalStats.imageBytes + data.externalStats.appBytes == data.externalStats.totalBytes
  {
    if c == Trash then 0
    else if profile.Some? then UserShare(c, data) + UserShare(c, profile.value)
    else UserShare(c, data)
  }

  /** What the system-size computation attributes to one user: all app
      sizes plus the shared storage that is not app data. */
  function Attributed(d: AppsResult): int {
    d.gamesSize + d.musicAppsSize + d.videoAppsSize + d.photosAppsSize + d.otherAppsSize
    + d.externalStats.totalBytes - d.externalStats.appBytes
  }

  /** The loader's results: user id and result, in the sparse array's order. */
  type Results = seq<(int, AppsResult)>

  /** result.get(userId): the result recorded for a user, if any. */
  function Lookup(results: Results, user: int): (r: Option<AppsResult>)
    ensures r.Some? <==> exists i :: 0 <= i < |results| && results[i].0 == user
    ensures r.Some? ==> exists i :: 0 <= i < |results| && results[i] == (user, r.value)
  {
    if |results| == 0 then None
    else if results[0].0 == user then Some(results[0].1)
    else
      var r := Lookup(results[1..], user);
      assert forall i :: 1 <= i < |results| ==> results[i] == results[1..][i - 1];
      r
  }

  /** The attributed size summed over every user with a result. */
  function AttributedTotal(results: Results): int {
    if |results| == 0 then 0 else Attributed(results[0].1) + AttributedTotal(results[1..])
  }

  /** The system size: everything used that no user's categories account
      for, but never less than 1 GB. */
  function SystemSize(usedBytes: int, results: Results): (r: int)
    ensures r >= GbInBytes
    ensures r >= usedBytes - AttributedTotal(results)
    ensures r == GbInBytes || r == usedBytes - AttributedTotal(results)
  {
    var rest := usedBytes - AttributedTotal(results);
    if GbInBytes > rest then GbInBytes else rest
  }

  /** The sizes shown on the eight rows. */
  datatype Sizes = Sizes(images: int, videos: int, audios: int, apps: int, games: int,
                         documentsAndOther: int, system: int, trash: int)

  function SizeOf(s: Sizes, c: Category): int {
    match c
    case Images => s.images
    case Videos => s.videos
    case Audios => s.audios
    case Apps => s.apps
    case Games => s.games
    case DocumentsAndOther => s.documentsAndOther
    case System => s.system
    case Trash => s.trash
  }

  /** onLoadFinished: every row's size from the loader's results. The
      user's own result is dereferenced unconditionally, so a missing one is
      the null-pointer failure, `None`. */
  function OnLoadFinished(results: Results, userId: int, profileId: int, usedBytes: int): (r: Option<Sizes>)
    ensures r.None? <==> Lookup(results, userId).None?
    ensures r.Some? ==> forall c :: c != System ==>
      SizeOf(r.value, c) == CategorySize(c, Lookup(results, userId).value, Lookup(results, profileId))
    ensures r.Some? ==> r.value.system == SystemSize(usedBytes, results) && r.value.trash == 0
  {
    match Lookup(results, userId)
    case None => None
    case Some(data) =>
      var profile := Lookup(results, profileId);
      Some(Sizes(
        CategorySize(Images, data, profile), CategorySize(Videos, data, profile),
        CategorySize(Audios, data, profile), CategorySize(Apps, data, profile),
        CategorySize(Games, data, profile), CategorySize(DocumentsAndOther, data, profile),
        SystemSize(usedBytes, results), CategorySize(Trash, data, profile)))
  }

  /** A user's non-system rows add up to exactly what the system-size
      computation attributes to that user. */
  lemma ShareSumIsAttributed(d: AppsResult)
    ensures UserShare(Images, d) + UserShare(Videos, d) + UserShare(Audios, d) + UserShare(Apps, d)
      + UserShare(Games, d) + UserShare(DocumentsAndOther, d) + UserShare(Trash, d) == Attributed(d)
  {
  }

  function RowTotal(s: Sizes): int {
    s.images + s.videos + s.audios + s.apps + s.games + s.documentsAndOther + s.system + s.trash
  }

  /** When the loader reports only the user and the user's profile and the
      unattributed space is at least 1 GB, the eight rows add up to the used
      bytes exactly; otherwise the system row is the 1 GB floor and the rows
      add up to more. */
  lemma {:induction false} RowsAccountForUsedSpace(results: Results, userId: int, profileId: int, usedBytes: int)
    requires userId != profileId
    requires |results| == 1 || |results| == 2
    requires results[0].0 == userId
    requires |results| == 2 ==> results[1].0 == profileId
    ensures var r := OnLoadFinished(results, userId, profileId, usedBytes);
      r.Some? && RowTotal(r.value) >= usedBytes
      && (usedBytes - AttributedTotal(results) >= GbInBytes ==> RowTotal(r.value) == usedBytes)
  {
    var data := results[0].1;
    assert Lookup(results, userId) == Some(data);
    ShareSumIsAttributed(data);
    if |results| == 2 {
      assert Lookup(results, profileId) == Some(results[1].1);
      ShareSumIsAttributed(results[1].1);
      assert AttributedTotal(results) == Attributed(data) + Attributed(results[1].1) by {
        assert results[1..][0] == results[1];
        assert results[1..][1..] == [];
        assert AttributedTotal(results[1..]) == Attributed(results[1].1) + AttributedTotal(results[1..][1..]);
      }
    } else {
      assert Lookup(results, profileId) == None;
      assert AttributedTotal(results) == Attributed(data) by {
        assert results[1..] == [];
      }
    }
  }

  /** VolumeInfo's types and states, as far as the controller tests them. */
  datatype VolumeType = PrivateType | PublicType | StubType | EmulatedType | OtherType
  datatype VolumeState = Unmounted | Checking | Mounted | MountedReadOnly | Ejecting | Removed | BadRemoval
  datatype Volume = Volume(volumeType: VolumeType, state: VolumeState)

  predicate IsMounted(v: Volume) {
    v.state == Mounted || v.state == MountedReadOnly
  }

  /** isValidPrivateVolume: a mounted private volume. */
  function IsValidPrivateVolume(v: Option<Volume>): (r: bool)
    // Unmounted, checking, ejecting and removed volumes are never shown.
    ensures r <==> v.Some? && v.value.volumeType == PrivateType
                   && v.value.state !in {Unmounted, Checking, Ejecting, Removed, BadRemoval}
  {
    v.Some? && v.value.volumeType == PrivateType && IsMounted(v.value)
  }

  /** isValidPublicVolume: a mounted public or stub volume. */
  function IsValidPublicVolume(v: Option<Volume>): (r: bool)
    ensures r <==> v.Some? && v.value.volumeType !in {PrivateType, EmulatedType, OtherType}
                   && v.value.state !in {Unmounted, Checking, Ejecting, Removed, BadRemoval}
  {
    v.Some? && (v.value.volumeType == PublicType || v.value.volumeType == StubType) && IsMounted(v.value)
  }

  /** Which rows updateCategoryPreferencesVisibility shows. */
  datatype Visibility = Visibility(publicStorage: bool, privateCategories: bool, documentsAndOther: bool, trash: bool)

  /** The public row for a valid public volume, the private rows for a valid
      private one, the documents row only when the shared volume is also
      readable, and never the trash row. */
  function CategoryVisibility(v: Option<Volume>, sharedReadable: bool): (r: Visibility)
    ensures r.publicStorage <==> IsValidPublicVolume(v)
    ensures r.privateCategories <==> IsValidPrivateVolume(v)
    ensures r.documentsAndOther <==> IsValidPrivateVolume(v) && sharedReadable
    ensures !r.trash
    ensures !(r.publicStorage && r.privateCategories)
  {
    var priv := IsValidPrivateVolume(v);
    Visibility(IsValidPublicVolume(v), priv, priv && sharedReadable, false)
  }

  /** A volume is never valid both as private and as public storage. */
  lemma VolumeKindsExclusive(v: Option<Volume>)
    ensures !(IsValidPrivateVolume(v) && IsValidPublicVolume(v))
  {
  }

  /** Rows in ascending order of size. */
  predicate AscendingBySize(sizes: Sizes, rows: seq<Category>) {
    forall i, j :: 0 <= i <= j < |rows| ==> SizeOf(sizes, rows[i]) <= SizeOf(sizes, rows[j])
  }

  /** A row's size, as the sort key. */
  function SizeKey(sizes: Sizes): Category -> int {
    c => SizeOf(sizes, c)
  }

  /** Rows of equal size appear in `rows` in the order they had in
      `previous`. */
  ghost predicate TiesInOrder(sizes: Sizes, rows: seq<Category>, previous: seq<Category>) {
    forall v :: WithKey(rows, SizeKey(sizes), v) == WithKey(previous, SizeKey(sizes), v)
  }

  /** Rows stably sorted by size, ascending (Collections.sort with
      Comparator.comparingLong). */
  function SortBySize(sizes: Sizes, rows: seq<Category>): (r: seq<Category>)
    ensures multiset(r) == multiset(rows)
    ensures AscendingBySize(sizes, r)
    ensures TiesInOrder(sizes, r, rows)
  {
    var key := SizeKey(sizes);
    var sorted := SortBy(rows, key);
    forall i, j | 0 <= i <= j < |sorted| ensures key(sorted[i]) <= key(sorted[j]) {
      SortedByPairs(sorted, key, i, j);
    }
    sorted
  }

  /** The rows of an order assignment, in display order. */
  function RowsOf(r: seq<(Category, int)>): (rows: seq<Category>)
    ensures |rows| == |r|
    ensures forall i :: 0 <= i < |r| ==> rows[i] == r[i].0
  {
    seq(|r|, i requires 0 <= i < |r| => r[i].0)
  }

  /** Orders counting down from 200 along the list. */
  predicate CountsDown(r: seq<(Category, int)>) {
    forall i :: 0 <= i < |r| ==> r[i].1 == LastCategoryOrder - i
  }

  /** A row with a larger size never gets a larger order than a row with a
      smaller size, so the screen shows larger categories first. */
  predicate LargerFirst(sizes: Sizes, r: seq<(Category, int)>) {
    forall i, j :: 0 <= i < |r| && 0 <= j < |r| && SizeOf(sizes, r[i].0) < SizeOf(sizes, r[j].0) ==> r[i].1 > r[j].1
  }

  /** Numbering rows sorted by size 200, 199, ... puts larger rows first. */
  function NumberRows(sizes: Sizes, rows: seq<Category>): (r: seq<(Category, int)>)
    requires AscendingBySize(sizes, rows)
    ensures RowsOf(r) == rows
    ensures CountsDown(r)
    ensures LargerFirst(sizes, r)
  {
    var r := seq(|rows|, i requires 0 <= i < |rows| => (rows[i], LastCategoryOrder - i));
    assert RowsOf(r) == rows;
    r
  }

  /** updatePrivateStorageCategoryPreferencesOrder: the controller keeps
      its list of rows across calls (first filled in the order of
      `Categories`) and sorts it in place, stably by size, ascending, then
      numbers it 200, 199, ... in that order. `previous` is the list as the
      last call left it; the result pairs each row with its order, and its
      rows are the list the next call starts from. */
  function CategoryOrder(sizes: Sizes, previous: seq<Category>): (r: seq<(Category, int)>)
    ensures multiset(RowsOf(r)) == multiset(previous)
    ensures AscendingBySize(sizes, RowsOf(r))
    ensures TiesInOrder(sizes, RowsOf(r), previous)
    ensures CountsDown(r)
    ensures LargerFirst(sizes, r)
  {
    NumberRows(sizes, SortBySize(sizes, previous))
  }

  /** With the sizes unchanged, a second call leaves the rows where the
      first call put them. */
  lemma CategoryOrderSettles(sizes: Sizes, previous: seq<Category>)
    ensures var first := CategoryOrder(sizes, previous);
      CategoryOrder(sizes, RowsOf(first)) == first
  {
    var rows := RowsOf(CategoryOrder(sizes, previous));
    assert SortedBy(rows, SizeKey(sizes)) by {
      forall i | 0 < i < |rows| ensures SizeKey(sizes)(rows[i - 1]) <= SizeKey(sizes)(rows[i]) {
        assert SizeOf(sizes, rows[i - 1]) <= SizeOf(sizes, rows[i]);
      }
    }
    SortByOfSorted(rows, SizeKey(sizes));
  }

  /** The media sizes keyed by user, each a map from media key to bytes. */
  type MediaSize = map<int, map<string, int>>

  /** The sum of the values the map holds for `keys`; absent keys add 0. */
  function SumPresent(m: map<string, int>, keys: seq<string>): int {
    if |keys| == 0 then 0
    else SumPresent(m, keys[..|keys| - 1]) + (if keys[|keys| - 1] in m then m[keys[|keys| - 1]] else 0)
  }

  /** totalValues: the user's values for the keys present, 0 when the user
      has no map. */
  method TotalValues(mediaSize: MediaSize, userId: int, keys: seq<string>) returns (total: int)
    ensures userId !in mediaSize ==> total == 0
    ensures userId in mediaSize ==> total == SumPresent(mediaSize[userId], keys)
  {
    total := 0;
    if userId !in mediaSize {
      return;
    }
    var m := mediaSize[userId];
    var i := 0;
    while i < |keys|
      invariant 0 <= i <= |keys|
      invariant total == SumPresent(m, keys[..i])
    {
      assert keys[..i + 1][..i] == keys[..i];
      if keys[i] in m {
        total := total + m[keys[i]];
      }
      i := i + 1;
    }
    assert keys[..|keys|] == keys;
  }

  /** Keys the map does not hold contribute nothing: the total over a key
      list equals the total over the same list with absent keys removed. */
  lemma {:induction false} AbsentKeysAddNothing(m: map<string, int>, keys: seq<string>, extra: string)
    requires extra !in m
    ensures SumPresent(m, keys + [extra]) == SumPresent(m, keys)
    ensures SumPresent(m, [extra] + keys) == SumPresent(m, keys)
  {
    assert (keys + [extra])[..|keys|] == keys;
    if |keys| > 0 {
      var init := keys[..|keys| - 1];
      AbsentKeysAddNothing(m, init, extra);
      assert ([extra] + keys)[..|keys|] == [extra] + init;
    } else {
      assert [extra] + keys == [extra];
      assert [extra][..0] == [];
    }
  }

  /** Totals over concatenated key lists add up. */
  lemma {:induction false} SumPresentAppend(m: map<string, int>, a: seq<string>, b: seq<string>)
    ensures SumPresent(m, a + b) == SumPresent(m, a) + SumPresent(m, b)
  {
    if |b| == 0 {
      assert a + b == a;
    } else {
      var init := b[..|b| - 1];
      SumPresentAppend(m, a, init);
      assert (a + b)[..|a + b| - 1] == a + init;
    }
  }
}

=== FILE: tether_summary.dfy ===
/** The all-in-one tethering entry: the bitmask of tethering interfaces in
    use and the summary text chosen from it. */
module TetherSummary {

  const HotspotOnly: bv8 := 1
  const UsbOnly: bv8 := 2
  const BluetoothOnly: bv8 := 4

  /** The summary texts. */
  datatype Summary =
    | HotspotOnlySummary | UsbOnlySummary | BluetoothOnlySummary
    | HotspotAndUsb | HotspotAndBluetooth | UsbAndBluetooth | HotspotUsbAndBluetooth
    | Placeholder | Off

  datatype Availability = Available | ConditionallyUnavailable

  /** onTetherStateUpdated: the type is reset, then one bit per active
      interface is or-ed in. */
  function TetheringType(bluetooth: bool, wifi: bool, usb: bool): (r: bv8)
    ensures (r & HotspotOnly != 0) == wifi
    ensures (r & UsbOnly != 0) == usb
    ensures (r & BluetoothOnly != 0) == bluetooth
    ensures r & !(HotspotOnly | UsbOnly | BluetoothOnly) == 0
  {
    (0 as bv8)
    | (if bluetooth then BluetoothOnly else 0)
    | (if wifi then HotspotOnly else 0)
    | (if usb then UsbOnly else 0)
  }

  /** getSummary: off unless the switch is checked; otherwise the text for
      the exact combination, or the placeholder for none. */
  function GetSummary(checked: bool, tetheringType: bv8): (r: Summary)
    ensures !checked <==> r == Off
    ensures checked && tetheringType == 0 ==> r == Placeholder
  {
    if !checked then Off
    else if tetheringType == HotspotOnly then HotspotOnlySummary
    else if tetheringType == UsbOnly then UsbOnlySummary
    else if tetheringType == BluetoothOnly then BluetoothOnlySummary
    else if tetheringType == HotspotOnly | UsbOnly then HotspotAndUsb
    else if tetheringType == HotspotOnly | BluetoothOnly then HotspotAndBluetooth
    else if tetheringType == UsbOnly | BluetoothOnly then UsbAndBluetooth
    else if tetheringType == HotspotOnly | UsbOnly | BluetoothOnly then HotspotUsbAndBluetooth
    else Placeholder
  }

  /** The interfaces a summary text names: hotspot, USB, Bluetooth. */
  function Names(s: Summary): (bool, bool, bool) {
    match s
    case HotspotOnlySummary => (true, false, false)
    case UsbOnlySummary => (false, true, false)
    case BluetoothOnlySummary => (false, false, true)
    case HotspotAndUsb => (true, true, false)
    case HotspotAndBluetooth => (true, false, true)
    case UsbAndBluetooth => (false, true, true)
    case HotspotUsbAndBluetooth => (true, true, true)
    case _ => (false, false, false)
  }

  /** With the switch on, the summary names exactly the interfaces that
      are tethering, and the placeholder appears exactly when none is. */
  lemma SummaryNamesActiveInterfaces(bluetooth: bool, wifi: bool, usb: bool)
    ensures var s := GetSummary(true, TetheringType(bluetooth, wifi, usb));
      Names(s) == (wifi, usb, bluetooth) && (s == Placeholder <==> !wifi && !usb && !bluetooth)
  {
  }

  /** So different sets of active interfaces give different summaries. */
  lemma SummaryIsInjective(b1: bool, w1: bool, u1: bool, b2: bool, w2: bool, u2: bool)
    requires GetSummary(true, TetheringType(b1, w1, u1)) == GetSummary(true, TetheringType(b2, w2, u2))
    ensures b1 == b2 && w1 == w2 && u1 == u2
  {
    SummaryNamesActiveInterfaces(b1, w1, u1);
    SummaryNamesActiveInterfaces(b2, w2, u2);
  }

  /** getAvailabilityStatus: tethering must be available and the all-in-one
      feature flag on. */
  function AvailabilityStatus(tetherAvailable: bool, allInOneFlag: bool): (r: Availability)
    ensures r == Available <==> tetherAvailable && allInOneFlag
  {
    if !tetherAvailable || !allInOneFlag then ConditionallyUnavailable else Available
  }
}

=== FILE: text_reading_preview.dfy ===
/** The text-and-display preview of the accessibility "display size and
    text" screen: the grid of preview configurations (one per font size and
    display size), the pager index that picks one, and the delayed commit of
    the chosen sizes. Font scales are floats on the platform; the model
    keeps them as values of a type parameter. */
module TextReadingPreview {
  import opened Common

  const MinCommitIntervalMs: int := 800
  const ChangeBySeekBarDelayMs: int := 100
  const ChangeByButtonDelayMs: int := 300

  /** A preview configuration: the original configuration (`base`, kept
      whole) with its font scale and density replaced. */
  datatype Config<F> = Config(base: int, fontScale: F, densityDpi: int)

  /** notifyPreferenceChanged's pager index. */
  function PagerIndex(fontProgress: int, displayProgress: int, displayCount: int): (r: int)
    // The index decodes back into the font progress and the display progress.
    ensures 0 <= displayProgress < displayCount ==>
      r / displayCount == fontProgress && r % displayCount == displayProgress
  {
    if 0 <= displayProgress < displayCount then
      DivModUnique(fontProgress, displayProgress, displayCount);
      fontProgress * displayCount + displayProgress
    else
      fontProgress * displayCount + displayProgress
  }

  /** Euclidean division undoes q * d + m for a remainder 0 <= m < d. */
  lemma {:induction false} DivModUnique(q: int, m: int, d: int)
    requires 0 <= m < d
    ensures (q * d + m) / d == q && (q * d + m) % d == m
  {
    var x := q * d + m;
    var k := x / d - q;
    assert d * k == m - x % d by {
      assert x == d * (x / d) + x % d;
      assert d * (x / d) == d * k + d * q;
    }
    MulAwayFromZero(k, d);
  }

  /** A non-zero multiple of a positive d is at least d away from 0. */
  lemma {:induction false} MulAwayFromZero(k: int, d: nat)
    ensures k >= 1 ==> d * k >= d
    ensures k <= -1 ==> d * k <= 0 - d
  {
    if k >= 1 {
      MulLeft(1, k, d);
    } else if k <= -1 {
      MulLeft(1, -k, d);
      assert d * k == -((-k) * d);
    }
  }

  /** Row-major positions are distinct and in range: position (i, j) of an
      F-by-D grid lies below F * D and past every position of earlier rows. */
  lemma {:induction false} GridPosition(i: nat, j: nat, fontCount: nat, displayCount: nat)
    requires i < fontCount && j < displayCount
    ensures 0 <= PagerIndex(i, j, displayCount) < fontCount * displayCount
    ensures i * displayCount <= PagerIndex(i, j, displayCount) < (i + 1) * displayCount
  {
    assert (i + 1) * displayCount == i * displayCount + displayCount;
    MulLeft(i + 1, fontCount, displayCount);
  }

  lemma {:induction false} MulLeft(a: nat, b: nat, k: nat)
    requires a <= b
    ensures a * k <= b * k
  {
    assert b * k - a * k == (b - a) * k;
  }

  /** The pager index identifies the font and display progress: two
      different in-range pairs never share an index. */
  lemma {:induction false} PagerIndexInjective(f1: nat, d1: nat, f2: nat, d2: nat, fontCount: nat, displayCount: nat)
    requires f1 < fontCount && d1 < displayCount && f2 < fontCount && d2 < displayCount
    requires PagerIndex(f1, d1, displayCount) == PagerIndex(f2, d2, displayCount)
    ensures f1 == f2 && d1 == d2
  {
  }

  /** One row of the grid: the original configuration with the given font
      scale and each density in turn. */
  function Row<F>(orig: Config<F>, fontScale: F, densities: seq<int>): (r: seq<Config<F>>)
    ensures |r| == |densities|
    ensures forall j :: 0 <= j < |r| ==> r[j] == orig.(fontScale := fontScale, densityDpi := densities[j])
  {
    seq(|densities|, j requires 0 <= j < |densities| => orig.(fontScale := fontScale, densityDpi := densities[j]))
  }

  /** The grid of preview configurations, row by row: one row per font
      scale. */
  function Grid<F>(orig: Config<F>, fontScales: seq<F>, densities: seq<int>): (r: seq<Config<F>>)
    ensures |r| == |fontScales| * |densities|
  {
    if |fontScales| == 0 then []
    else
      var n := |fontScales| - 1;
      assert |fontScales| * |densities| == n * |densities| + |densities|;
      Grid(orig, fontScales[..n], densities) + Row(orig, fontScales[n], densities)
  }

  /** The grid entry the pager index of (i, j) selects has font scale i and
      density j. */
  lemma {:induction false} GridIndex<F>(orig: Config<F>, fontScales: seq<F>, densities: seq<int>, i: nat, j: nat)
    requires i < |fontScales| && j < |densities|
    ensures PagerIndex(i, j, |densities|) < |Grid(orig, fontScales, densities)|
      && Grid(orig, fontScales, densities)[PagerIndex(i, j, |densities|)]
         == orig.(fontScale := fontScales[i], densityDpi := densities[j])
  {
    var n := |fontScales| - 1;
    var g := Grid(orig, fontScales, densities);
    var prefix := Grid(orig, fontScales[..n], densities);
    assert g == prefix + Row(orig, fontScales[n], densities);
    GridPosition(i, j, |fontScales|, |densities|);
    if i == n {
      assert |prefix| == n * |densities|;
      assert g[PagerIndex(i, j, |densities|)] == Row(orig, fontScales[n], densities)[j];
    } else {
      GridIndex(orig, fontScales[..n], densities, i, j);
      assert fontScales[..n][i] == fontScales[i];
    }
  }

  /** createConfig: fontCount * displayCount configurations, row by row;
      the one at the pager index of (i, j) has font scale i and density j,
      each on a copy of the original configuration. */
  method CreateConfig<F>(orig: Config<F>, fontScales: seq<F>, densities: seq<int>) returns (r: seq<Config<F>>)
    ensures |r| == |fontScales| * |densities|
    ensures forall i: nat, j: nat :: i < |fontScales| && j < |densities| ==>
      PagerIndex(i, j, |densities|) < |r|
      && r[PagerIndex(i, j, |densities|)] == orig.(fontScale := fontScales[i], densityDpi := densities[j])
  {
    r := [];
    for i := 0 to |fontScales|
      invariant r == Grid(orig, fontScales[..i], densities)
    {
      for j := 0 to |densities|
        invariant r == Grid(orig, fontScales[..i], densities) + Row(orig, fontScales[i], densities[..j])
      {
        assert Row(orig, fontScales[i], densities[..j + 1])
          == Row(orig, fontScales[i], densities[..j]) + [orig.(fontScale := fontScales[i], densityDpi := densities[j])];
        r := r + [orig.(fontScale := fontScales[i], densityDpi := densities[j])];
      }
      assert densities[..|densities|] == densities;
      assert fontScales[..i + 1][..i] == fontScales[..i];
    }
    assert fontScales[..|fontScales|] == fontScales;
    forall i: nat, j: nat | i < |fontScales| && j < |densities|
      ensures PagerIndex(i, j, |densities|) < |r|
        && r[PagerIndex(i, j, |densities|)] == orig.(fontScale := fontScales[i], densityDpi := densities[j])
    {
      GridIndex(orig, fontScales, densities, i, j);
    }
  }

  /** The commit scheduler's state: the progress values last committed and
      when the last commit ran. */
  datatype CommitState = CommitState(lastFontProgress: int, lastDisplayProgress: int, lastCommitTime: int)

  /** postCommitDelayed: the requested delay, plus 800 ms when the last
      commit was under 800 ms ago. The posted commit replaces any pending
      one, so it is due at `now` plus the result. */
  function CommitDelay(s: CommitState, now: int, requestedDelay: int): (r: int)
    // The delay is only ever extended, by the whole minimum interval ...
    ensures r - requestedDelay in {0, MinCommitIntervalMs}
    // ... and exactly when the last commit is more recent than that interval.
    ensures r == requestedDelay <==> now - s.lastCommitTime >= MinCommitIntervalMs
  {
    if now - s.lastCommitTime < MinCommitIntervalMs then requestedDelay + MinCommitIntervalMs else requestedDelay
  }

  /** onProgressChanged (a button press) and onEndTrackingTouch (a released
      seek bar). */
  function ButtonCommitDelay(s: CommitState, now: int): int {
    CommitDelay(s, now, ChangeByButtonDelayMs)
  }

  function SeekBarCommitDelay(s: CommitState, now: int): int {
    CommitDelay(s, now, ChangeBySeekBarDelayMs)
  }

  /** A posted commit is never due sooner than 800 ms after the last commit,
      nor sooner than the delay its caller asked for. */
  lemma CommitsAreSpacedOut(s: CommitState, now: int, requestedDelay: int)
    requires now >= s.lastCommitTime && requestedDelay >= 0
    ensures now + CommitDelay(s, now, requestedDelay) >= s.lastCommitTime + MinCommitIntervalMs
    ensures CommitDelay(s, now, requestedDelay) >= requestedDelay
  {
  }

  /** What a commit frame wrote: the font and display progress committed,
      when changed. */
  datatype Commits = Commits(font: Option<int>, display: Option<int>)

  /** The commit frame callback (tryCommitFontSizeConfig,
      tryCommitDisplaySizeConfig, then the commit time): each progress is
      committed only when it differs from the last one committed. */
  function CommitFrame(s: CommitState, fontProgress: int, displayProgress: int, now: int): (r: (CommitState, Commits))
    ensures r.1.font.Some? <==> fontProgress != s.lastFontProgress
    ensures r.1.display.Some? <==> displayProgress != s.lastDisplayProgress
    // The new state records the frame's progress and time, so whatever was
    // committed is now the last committed value.
    ensures r.0 == CommitState(fontProgress, displayProgress, now)
    ensures r.1.font.Some? ==> r.1.font.value == r.0.lastFontProgress
    ensures r.1.display.Some? ==> r.1.display.value == r.0.lastDisplayProgress
  {
    var font := if fontProgress != s.lastFontProgress then Some(fontProgress) else None;
    var display := if displayProgress != s.lastDisplayProgress then Some(displayProgress) else None;
    (CommitState(fontProgress, displayProgress, now), Commits(font, display))
  }

  /** A second frame with the same progress commits nothing. */
  lemma CommitFrameIsIdempotent(s: CommitState, fontProgress: int, displayProgress: int, t1: int, t2: int)
    ensures CommitFrame(CommitFrame(s, fontProgress, displayProgress, t1).0, fontProgress, displayProgress, t2).1
      == Commits(None, None)
  {
  }
}

=== FILE: wifi_config.dfy ===
/** The parts of a WifiConfiguration the Settings helpers look at. */
module WifiConfig {
  import opened Common

  /** The WifiConfiguration.KeyMgmt bits the classifiers test. */
  datatype KeyMgmt = KeyNone | WpaPsk | WpaEap | Ieee8021x | Wpa2Psk | Owe | Sae | SuiteB192

  /** A configuration: its SSID (quoted for a UTF-8 SSID, possibly null), the
      allowed key managements, the first WEP key and the pre-shared key. */
  datatype Config = Config(
    ssid: Option<string>,
    keyMgmt: set<KeyMgmt>,
    wepKey0: Option<string>,
    preSharedKey: Option<string>)

  /** The four security classes the Wi-Fi helpers sort a configuration
      into: no password (open or OWE), WEP, WPA/WPA2 pre-shared key, SAE. */
  datatype Security = NoPassword | Wep | WpaPskType | SaeType
}

=== FILE: wifi_dpp.dfy ===
/** Wi-Fi Easy Connect (DPP) helpers: unquoting an SSID or key for a QR code,
    the security string written into it, and which networks the QR scanner
    and generators support. */
module WifiDpp {
  import opened Common
  import opened WifiConfig
  import AddAppNetworks

  /** The exception String.substring raises when begin exceeds end. */
  datatype Thrown = StringIndexOutOfBounds

  function LeadingQuote(s: string): string {
    if |s| > 0 && s[0] == '"' then "\"" else ""
  }

  function TrailingQuote(s: string): string {
    if |s| > 0 && s[|s| - 1] == '"' then "\"" else ""
  }

  /** removeFirstAndLastDoubleQuotes as written: null and empty come back
      unchanged, otherwise a leading and a trailing quote are each dropped
      on their own; for the one-character text `"` the two drops overlap and
      the substring call throws. */
  function RemoveFirstAndLastDoubleQuotesAsWritten(str: Option<string>): (r: Result<Option<string>, Thrown>)
    ensures r.Failure? <==> str == Some("\"")
    ensures IsEmpty(str) ==> r == Success(str)
    ensures r.Success? && str.Some? && |str.value| >= 2 ==>
      r.value.Some? && LeadingQuote(str.value) + r.value.value + TrailingQuote(str.value) == str.value
  {
    if IsEmpty(str) then Success(str)
    else
      var s := str.value;
      var begin := if s[0] == '"' then 1 else 0;
      var end := if s[|s| - 1] == '"' then |s| - 2 else |s| - 1;
      assert |s| == 1 && s[0] == '"' ==> s == "\"";
      if begin > end + 1 then Failure(StringIndexOutOfBounds)
      else
        assert s[begin..end + 1] + TrailingQuote(s) == s[begin..] by {
          if TrailingQuote(s) != "" { assert s[end + 1..] == TrailingQuote(s); }
        }
        Success(Some(s[begin..end + 1]))
  }

  /** The input the as-written helper cannot handle. */
  lemma LoneQuoteThrows()
    ensures RemoveFirstAndLastDoubleQuotesAsWritten(Some("\"")) == Failure(StringIndexOutOfBounds)
  {
  }

  /** The evidently intended helper: the lone quote becomes the empty text,
      and every other input is handled as before. */
  function RemoveFirstAndLastDoubleQuotes(str: Option<string>): (r: Option<string>)
    ensures IsEmpty(str) ==> r == str
    ensures str.Some? ==> r.Some? && |r.value| <= |str.value|
    ensures str.Some? && |str.value| >= 2 ==>
      LeadingQuote(str.value) + r.value + TrailingQuote(str.value) == str.value
    ensures str != Some("\"") ==> RemoveFirstAndLastDoubleQuotesAsWritten(str) == Success(r)
    ensures str == Some("\"") ==> r == Some("")
  {
    if str == Some("\"") then Some("")
    else RemoveFirstAndLastDoubleQuotesAsWritten(str).value
  }

  /** On texts quoted at both ends or at neither end, the DPP helper and the
      add-networks helper unquote alike; they differ only on a quote at one
      end, which the DPP helper drops and the other keeps. */
  lemma UnquoteAgreesWithAddNetworks(s: string)
    requires |s| >= 2
    ensures (s[0] == '"') == (s[|s| - 1] == '"') ==>
      RemoveFirstAndLastDoubleQuotes(Some(s)) == Some(AddAppNetworks.RemoveDoubleQuotes(Some(s)))
    ensures (s[0] == '"') != (s[|s| - 1] == '"') ==>
      |RemoveFirstAndLastDoubleQuotes(Some(s)).value| == |AddAppNetworks.RemoveDoubleQuotes(Some(s))| - 1
  {
    var r := RemoveFirstAndLastDoubleQuotes(Some(s)).value;
    assert |LeadingQuote(s) + r + TrailingQuote(s)| == |s|;
    if s[0] == '"' && s[|s| - 1] == '"' {
      assert s == "\"" + r + "\"";
      assert r == s[1..|s| - 1];
    } else if s[0] != '"' && s[|s| - 1] != '"' {
      assert r == s;
    }
  }

  /** getSecurityString: SAE, then either PSK flavour, then WEP exactly when
      a first WEP key is set; unlike the add-networks classifier it has no
      OWE case. */
  function SecurityString(c: Config): (r: Security)
    ensures r == SaeType <==> Sae in c.keyMgmt
    ensures r == WpaPskType <==> Sae !in c.keyMgmt && (WpaPsk in c.keyMgmt || Wpa2Psk in c.keyMgmt)
    ensures r == Wep <==> Sae !in c.keyMgmt && WpaPsk !in c.keyMgmt && Wpa2Psk !in c.keyMgmt && c.wepKey0.Some?
  {
    if Sae in c.keyMgmt then SaeType
    else if WpaPsk in c.keyMgmt || Wpa2Psk in c.keyMgmt then WpaPskType
    else if c.wepKey0.None? then NoPassword
    else Wep
  }

  /** The two classifiers agree except on an OWE network without SAE, which
      the add-networks screen always treats as having no password. */
  lemma SecurityClassifiersAgree(c: Config)
    ensures Owe !in c.keyMgmt || Sae in c.keyMgmt ==>
      SecurityString(c) == AddAppNetworks.SecurityType(c)
    ensures Owe in c.keyMgmt && Sae !in c.keyMgmt ==>
      AddAppNetworks.SecurityType(c) == NoPassword
  {
  }

  /** AccessPoint.getSecurity values. */
  datatype ApSecurity = ApNone | ApWep | ApPsk | ApEap | ApOwe | ApSae | ApEapSuiteB

  /** DPP 1.0 configurator scanning: only SAE and PSK, only with DPP on. */
  function SupportsConfiguratorQrCodeScanner(dppEnabled: bool, security: ApSecurity): (r: bool)
    ensures !dppEnabled ==> !r
    // Open, WEP, enterprise and OWE networks are never scanned.
    ensures r <==> dppEnabled && security !in {ApNone, ApWep, ApEap, ApOwe, ApEapSuiteB}
  {
    dppEnabled && (security == ApSae || security == ApPsk)
  }

  /** The ZXing Wi-Fi format: PSK, WEP and open networks. */
  function SupportsConfiguratorQrCodeGenerator(security: ApSecurity): (r: bool)
    // Enterprise, OWE and SAE networks get no QR code.
    ensures r <==> security !in {ApEap, ApOwe, ApSae, ApEapSuiteB}
  {
    security == ApPsk || security == ApWep || security == ApNone
  }

  /** A hotspot QR code is offered for WPA2-PSK or no key management (the
      latter covering WEP and open hotspots). */
  function SupportsHotspotConfiguratorQrCodeGenerator(c: Config): (r: bool)
    ensures r <==> Wpa2Psk in c.keyMgmt || KeyNone in c.keyMgmt
    // Without SAE the hotspot's security is one the ZXing format can write.
    ensures r && Sae !in c.keyMgmt ==> SecurityString(c) in {WpaPskType, Wep, NoPassword}
    // A WPA-PSK-only or SAE-only hotspot is not offered.
    ensures c.keyMgmt <= {WpaPsk, Sae} ==> !r
  {
    Wpa2Psk in c.keyMgmt || KeyNone in c.keyMgmt
  }

  /** The only security both the scanner and the generator handle is PSK,
      and the scanner handles nothing while DPP is off. */
  lemma ScannerAndGeneratorOverlap(dppEnabled: bool, security: ApSecurity)
    ensures SupportsConfiguratorQrCodeScanner(dppEnabled, security) && SupportsConfiguratorQrCodeGenerator(security)
      <==> dppEnabled && security == ApPsk
    ensures !dppEnabled ==> !SupportsConfiguratorQrCodeScanner(dppEnabled, security)
  {
  }

  /** The hotspot check against the security the QR code would carry: a
      WPA2-PSK hotspot is offered and written as PSK, a hotspot without key
      management is offered and written as WEP or open, but a WPA-PSK-only
      hotspot is refused although its security string is PSK. An offered
      hotspot carries PSK, WEP or none unless SAE is among its key
      managements as well (a WPA2/WPA3 transition hotspot), in which case it
      carries SAE. */
  lemma HotspotGeneratorSecurity(c: Config)
    ensures Wpa2Psk in c.keyMgmt && Sae !in c.keyMgmt ==>
      SupportsHotspotConfiguratorQrCodeGenerator(c) && SecurityString(c) == WpaPskType
    ensures c.keyMgmt == {KeyNone} ==>
      SupportsHotspotConfiguratorQrCodeGenerator(c) && SecurityString(c) in {Wep, NoPassword}
    ensures c.keyMgmt == {WpaPsk} ==>
      !SupportsHotspotConfiguratorQrCodeGenerator(c) && SecurityString(c) == WpaPskType
    ensures SupportsHotspotConfiguratorQrCodeGenerator(c) && Sae !in c.keyMgmt ==>
      SecurityString(c) in {WpaPskType, Wep, NoPassword}
    ensures SupportsHotspotConfiguratorQrCodeGenerator(c) && Sae in c.keyMgmt ==> SecurityString(c) == SaeType
  {
  }

  /** The extras setConfiguratorIntentExtra puts on the configurator intent;
      an absent extra is None. */
  datatype Extras = Extras(ssid: Option<string>, security: Option<Security>, preSharedKey: Option<string>)

  /** setConfiguratorIntentExtra: the extras for a configuration;
      `privilegedKey` is what the privileged WifiManager call returns for the
      real pre-shared key. Empty values are not put. The SSID, and the key
      when the configuration has one, go through the unquoting helper as
      written, so a lone `"` in either throws. */
  function ConfiguratorIntentExtras(c: Config, privilegedKey: Option<string>): (r: Result<Extras, Thrown>)
    ensures r.Failure? <==> c.ssid == Some("\"") || (c.preSharedKey.Some? && privilegedKey == Some("\""))
    ensures r.Success? ==>
      (r.value.ssid.Some? <==> !IsEmpty(RemoveFirstAndLastDoubleQuotes(c.ssid)))
    ensures r.Success? && r.value.ssid.Some? ==> r.value.ssid == RemoveFirstAndLastDoubleQuotes(c.ssid)
    ensures r.Success? ==> r.value.security == Some(SecurityString(c))
    ensures r.Success? && c.preSharedKey.None? ==> r.value.preSharedKey.None?
    ensures r.Success? && c.preSharedKey.Some? ==>
      (r.value.preSharedKey.Some? <==> !IsEmpty(RemoveFirstAndLastDoubleQuotes(privilegedKey)))
    ensures r.Success? && r.value.preSharedKey.Some? ==>
      r.value.preSharedKey == RemoveFirstAndLastDoubleQuotes(privilegedKey) && |r.value.preSharedKey.value| > 0
  {
    match RemoveFirstAndLastDoubleQuotesAsWritten(c.ssid)
    case Failure(e) => Failure(e)
    case Success(ssid) =>
      var key := if c.preSharedKey.Some? then RemoveFirstAndLastDoubleQuotesAsWritten(privilegedKey) else Success(None);
      match key
      case Failure(e) => Failure(e)
      case Success(k) =>
        Success(Extras(
          if IsEmpty(ssid) then None else ssid,
          Some(SecurityString(c)),
          if IsEmpty(k) then None else k))
  }

  /** A quoted SSID reaches the QR code without its quotes, and a quoted key
      likewise. */
  lemma QuotedExtrasUnquoted(c: Config, privilegedKey: Option<string>, ssid: string, key: string)
    requires c.ssid == Some("\"" + ssid + "\"") && |ssid| > 0
    requires c.preSharedKey.Some? && privilegedKey == Some("\"" + key + "\"") && |key| > 0
    ensures ConfiguratorIntentExtras(c, privilegedKey) == Success(Extras(Some(ssid), Some(SecurityString(c)), Some(key)))
  {
    Unquoted(ssid);
    Unquoted(key);
  }

  lemma Unquoted(s: string)
    ensures RemoveFirstAndLastDoubleQuotes(Some("\"" + s + "\"")) == Some(s)
  {
    var q := "\"" + s + "\"";
    var r := RemoveFirstAndLastDoubleQuotes(Some(q)).value;
    assert LeadingQuote(q) == "\"" && TrailingQuote(q) == "\"";
    assert "\"" + r + "\"" == q;
    assert r == q[1..|q| - 1];
  }
}

=== FILE: zen_countdown.dfy ===
/** The "for a set time" row of the Do Not Disturb dialog: stepping the
    countdown through the minute buckets with the minus and plus buttons,
    which of the buttons are enabled, and the condition id handed to the
    notification manager. */
module ZenCountdown {
  import opened Common

  const MinutesMs: int := 60000
  /** The bucket index when the countdown is not on a known bucket. */
  const UnknownIndex: int := -1

  /** ZenModeConfig.MINUTE_BUCKETS is supplied by the platform: a strictly
      increasing list of positive minute counts containing 60 (the default
      bucket, found by binary search). */
  predicate ValidBuckets(buckets: seq<int>) {
    |buckets| > 0
    && (forall i :: 0 <= i < |buckets| ==> buckets[i] > 0)
    && (forall i :: 0 < i < |buckets| ==> buckets[i - 1] < buckets[i])
    && 60 in buckets
  }

  /** DEFAULT_BUCKET_INDEX: the position of 60. */
  function DefaultBucketIndex(buckets: seq<int>): (r: nat)
    requires 60 in buckets
    ensures r < |buckets| && buckets[r] == 60
  {
    if buckets[0] == 60 then 0 else 1 + DefaultBucketIndex(buckets[1..])
  }

  /** A bucket index as the dialog holds it: unknown or a valid position. */
  predicate ValidIndex(buckets: seq<int>, index: int) {
    index == UnknownIndex || 0 <= index < |buckets|
  }

  /** The known-index step: one bucket up or down, clamped to the ends. */
  function Step(n: nat, index: int, up: bool): (r: int)
    requires n > 0 && 0 <= index < n
    ensures 0 <= r < n
    ensures up ==> r == (if index < n - 1 then index + 1 else index)
    ensures !up ==> r == (if index > 0 then index - 1 else index)
  {
    var moved := index + (if up then 1 else -1);
    var capped := if n - 1 < moved then n - 1 else moved;
    if 0 < capped then capped else 0
  }

  /** The end time of bucket `j`, counting from `now`. */
  function BucketTime(buckets: seq<int>, j: int, now: int): int
    requires 0 <= j < |buckets|
  {
    now + buckets[j] * MinutesMs
  }

  /** onClickTimeButton: the new bucket index and the minutes of the new
      countdown. From an unknown index, `up` takes the first bucket ending
      after the current countdown end `time` and down the last one ending
      before it; when there is none the default bucket is used. */
  method OnClickTimeButton(buckets: seq<int>, index: int, up: bool, now: int, time: int)
      returns (newIndex: int, minutes: int)
    requires ValidBuckets(buckets) && ValidIndex(buckets, index)
    ensures 0 <= newIndex < |buckets| && minutes == buckets[newIndex]
    ensures index != UnknownIndex ==> newIndex == Step(|buckets|, index, up)
    ensures index == UnknownIndex && up ==>
      if exists j :: 0 <= j < |buckets| && BucketTime(buckets, j, now) > time then
        BucketTime(buckets, newIndex, now) > time
        && forall k :: 0 <= k < newIndex ==> BucketTime(buckets, k, now) <= time
      else newIndex == DefaultBucketIndex(buckets)
    ensures index == UnknownIndex && !up ==>
      if exists j :: 0 <= j < |buckets| && BucketTime(buckets, j, now) < time then
        BucketTime(buckets, newIndex, now) < time
        && forall k :: newIndex < k < |buckets| ==> BucketTime(buckets, k, now) >= time
      else newIndex == DefaultBucketIndex(buckets)
  {
    var n := |buckets|;
    if index != UnknownIndex {
      newIndex := Step(n, index, up);
      minutes := buckets[newIndex];
      return;
    }
    var found := false;
    newIndex := 0;
    var i := 0;
    while i < n
      invariant 0 <= i <= n
      invariant !found
      invariant up ==> forall k :: 0 <= k < i ==> BucketTime(buckets, k, now) <= time
      invariant !up ==> forall k :: n - i <= k < n ==> BucketTime(buckets, k, now) >= time
    {
      var j := if up then i else n - 1 - i;
      if (up && BucketTime(buckets, j, now) > time) || (!up && BucketTime(buckets, j, now) < time) {
        newIndex := j;
        found := true;
        break;
      }
      i := i + 1;
    }
    if !found {
      newIndex := DefaultBucketIndex(buckets);
    }
    minutes := buckets[newIndex];
  }

  /** The enabled state of the minus and plus buttons on the countdown row. */
  datatype Buttons = Buttons(minusEnabled: bool, plusEnabled: bool)

  /** On a known index the minus button is enabled above the first bucket
      and plus below the last; otherwise minus needs more than the smallest
      bucket left (`span` ms) and plus needs the row not to show the
      longest bucket's text already. */
  function ButtonState(buckets: seq<int>, index: int, span: int, showsLongest: bool): (r: Buttons)
    requires ValidBuckets(buckets) && ValidIndex(buckets, index)
    ensures index != UnknownIndex ==> (r.minusEnabled <==> index > 0) && (r.plusEnabled <==> index < |buckets| - 1)
    ensures index == UnknownIndex ==> (r.minusEnabled <==> span > buckets[0] * MinutesMs) && (r.plusEnabled <==> !showsLongest)
  {
    if index > UnknownIndex then Buttons(index > 0, index < |buckets| - 1)
    else Buttons(span > buckets[0] * MinutesMs, !showsLongest)
  }

  /** On a known bucket a button is enabled exactly when pressing it would
      move to another bucket. */
  lemma EnabledIffStepMoves(buckets: seq<int>, index: int, span: int, showsLongest: bool)
    requires ValidBuckets(buckets) && 0 <= index < |buckets|
    ensures ButtonState(buckets, index, span, showsLongest).minusEnabled <==> Step(|buckets|, index, false) != index
    ensures ButtonState(buckets, index, span, showsLongest).plusEnabled <==> Step(|buckets|, index, true) != index
  {
  }

  /** Pressing up from a known bucket never shortens the countdown, and
      down never lengthens it. */
  lemma StepIsMonotone(buckets: seq<int>, index: int)
    requires ValidBuckets(buckets) && 0 <= index < |buckets|
    ensures buckets[Step(|buckets|, index, true)] >= buckets[index]
    ensures buckets[Step(|buckets|, index, false)] <= buckets[index]
  {
  }

  /** A condition: its id (a URI, as text). */
  datatype Condition = Condition(id: string)

  /** getRealConditionId: the forever condition turns zen on without an
      end, so it is sent as null; any other condition as its own id, and a
      null condition as null. */
  function RealConditionId(condition: Option<Condition>, foreverId: string): (r: Option<string>)
    ensures condition.Some? && condition.value.id == foreverId ==> r.None?
    ensures condition.Some? && condition.value.id != foreverId ==> r == Some(condition.value.id)
    ensures condition.None? ==> r.None?
    ensures r.Some? ==> r.value != foreverId
  {
    if condition.Some? && condition.value.id == foreverId then None
    else if condition.Some? then Some(condition.value.id)
    else None
  }
}

=== FILE: zen_priority_senders.dfy ===
/** The priority-sender selectors of a Do Not Disturb mode, for calls or for
    messages: what checking or unchecking a selector asks for, which
    settings a click saves, and which selectors show as checked. */
module ZenPrioritySenders {
  import opened Common

  /** ZenPolicy people types (UNSET 0, ANYONE 1, CONTACTS 2, STARRED 3, NONE 4). */
  datatype PeopleType = PeopleUnset | PeopleAnyone | PeopleContacts | PeopleStarred | PeopleNone

  /** ZenPolicy conversation senders (UNSET 0, ANYONE 1, IMPORTANT 2, NONE 3). */
  datatype ConvSenders = ConvUnset | ConvAnyone | ConvImportant | ConvNone

  /** Selector keys; `OtherKey` is any other preference key. */
  datatype Key = KeyStarred | KeyContacts | KeyImportant | KeyAny | KeyNone | OtherKey

  /** The pair the controller passes around: senders first, conversations second. */
  datatype Settings = Settings(people: PeopleType, conv: ConvSenders)

  /** The selectors shown, in screen order; priority conversations only for messages. */
  function Selectors(isMessages: bool): (r: seq<Key>)
    ensures |r| == if isMessages then 5 else 4
    ensures KeyImportant in r <==> isMessages
    ensures OtherKey !in r
    ensures r[0] == KeyStarred && r[|r| - 1] == KeyNone
  {
    [KeyStarred, KeyContacts] + (if isMessages then [KeyImportant] else []) + [KeyAny, KeyNone]
  }

  /** Whether checking (`checked`) or unchecking a key touches the senders
      part. Unchecking any senders key resets senders to NONE. */
  function PeopleEndState(key: Key, checked: bool): PeopleType {
    if !checked then
      match key
      case KeyImportant => PeopleUnset
      case OtherKey => PeopleUnset
      case _ => PeopleNone
    else
      match key
      case KeyStarred => PeopleStarred
      case KeyContacts => PeopleContacts
      case KeyAny => PeopleAnyone
      case KeyNone => PeopleNone
      case _ => PeopleUnset
  }

  /** The conversations part, which only the messages controller sets. */
  function ConvEndState(key: Key, checked: bool, isMessages: bool): ConvSenders {
    if !isMessages then ConvUnset
    else if !checked then
      match key
      case KeyImportant => ConvNone
      case KeyAny => ConvNone
      case KeyNone => ConvNone
      case _ => ConvUnset
    else
      match key
      case KeyImportant => ConvImportant
      case KeyAny => ConvAnyone
      case KeyNone => ConvNone
      case _ => ConvUnset
  }

  /** keyToSettingEndState; None is the IllegalArgumentException raised when
      neither part would be set. */
  function KeyToSettingEndState(key: Key, checked: bool, isMessages: bool): (r: Option<Settings>)
    ensures r.None? <==> key == OtherKey || (key == KeyImportant && !isMessages)
    ensures r.Some? && !isMessages ==> r.value.conv == ConvUnset
    ensures r.Some? && !checked ==> r.value.people in {PeopleUnset, PeopleNone} && r.value.conv in {ConvUnset, ConvNone}
    ensures r.Some? ==> r.value.people != PeopleUnset || r.value.conv != ConvUnset
    // Checking a selector: the senders it names, and for messages the
    // conversations it names.
    ensures checked && key == KeyStarred ==> r == Some(Settings(PeopleStarred, ConvUnset))
    ensures checked && key == KeyContacts ==> r == Some(Settings(PeopleContacts, ConvUnset))
    ensures checked && key == KeyAny ==>
      r == Some(Settings(PeopleAnyone, if isMessages then ConvAnyone else ConvUnset))
    ensures checked && key == KeyNone ==>
      r == Some(Settings(PeopleNone, if isMessages then ConvNone else ConvUnset))
    ensures checked && key == KeyImportant && isMessages ==> r == Some(Settings(PeopleUnset, ConvImportant))
    // Unchecking a selector: the four senders selectors reset senders to
    // none; for messages, "important", "any" and "none" reset conversations
    // to none.
    ensures !checked && (key == KeyStarred || key == KeyContacts) ==> r == Some(Settings(PeopleNone, ConvUnset))
    ensures !checked && (key == KeyAny || key == KeyNone) ==>
      r == Some(Settings(PeopleNone, if isMessages then ConvNone else ConvUnset))
    ensures !checked && key == KeyImportant && isMessages ==> r == Some(Settings(PeopleUnset, ConvNone))
  {
    var end := Settings(PeopleEndState(key, checked), ConvEndState(key, checked, isMessages));
    if end.people == PeopleUnset && end.conv == ConvUnset then None else Some(end)
  }

  /** settingsToSaveOnClick: the end state's parts that differ from the
      current ones, plus the two overlap rules of the messages controller.
      Unset parts mean "leave unchanged". None propagates the exception. */
  function SettingsToSaveOnClick(key: Key, checked: bool, isMessages: bool,
                                 currSenders: PeopleType, currConvs: ConvSenders): (r: Option<Settings>)
    ensures r.None? <==> KeyToSettingEndState(key, checked, isMessages).None?
    ensures r.Some? && r.value.people != PeopleUnset ==> r.value.people != currSenders
    ensures r.Some? && r.value.conv != ConvUnset ==> r.value.conv != currConvs
    ensures r.Some? && !isMessages ==> r.value.conv == ConvUnset
    ensures r.Some? && !isMessages ==>
      r.value.people == (var e := PeopleEndState(key, checked); if e != currSenders then e else PeopleUnset)
    // A set end-state part that differs from the current value is saved.
    ensures r.Some? ==> var e := PeopleEndState(key, checked);
      e != PeopleUnset && e != currSenders ==> r.value.people == e
    ensures r.Some? && isMessages ==> var e := ConvEndState(key, checked, isMessages);
      e != ConvUnset && e != currConvs ==> r.value.conv == e
    // Nothing else is saved, except the two overlap resets.
    ensures r.Some? ==>
      (r.value.people == PeopleUnset || r.value.people == PeopleEndState(key, checked)
       || (isMessages && key == KeyImportant && currSenders == PeopleAnyone && r.value.people == PeopleNone))
    ensures r.Some? ==>
      (r.value.conv == ConvUnset || r.value.conv == ConvEndState(key, checked, isMessages)
       || (isMessages && (key == KeyStarred || key == KeyContacts) && currConvs == ConvAnyone && r.value.conv == ConvNone))
    // The overlap resets: priority conversations over "anyone" clears the
    // senders to none; a contacts selector over "any conversation" clears
    // the conversations to none.
    ensures isMessages && key == KeyImportant && currSenders == PeopleAnyone ==>
      r.Some? && r.value.people == PeopleNone
    ensures isMessages && (key == KeyStarred || key == KeyContacts) && currConvs == ConvAnyone ==>
      r.Some? && r.value.conv == ConvNone
  {
    match KeyToSettingEndState(key, checked, isMessages)
    case None => None
    case Some(end) =>
      var people := if end.people != PeopleUnset && end.people != currSenders then end.people else PeopleUnset;
      if !isMessages then Some(Settings(people, ConvUnset))
      else
        var conv := if end.conv != ConvUnset && end.conv != currConvs then end.conv else ConvUnset;
        var people' := if key == KeyImportant && currSenders == PeopleAnyone then PeopleNone else people;
        var conv' := if (key == KeyStarred || key == KeyContacts) && currConvs == ConvAnyone then ConvNone else conv;
        Some(Settings(people', conv'))
  }

  /** The policy after writing the saved parts that are not UNSET; calls
      never write the conversation setting. */
  function ApplySaved(save: Settings, isMessages: bool, currSenders: PeopleType, currConvs: ConvSenders): Settings {
    Settings(
      if save.people != PeopleUnset then save.people else currSenders,
      if isMessages && save.conv != ConvUnset then save.conv else currConvs)
  }

  /** Saving settles: once the saved parts are written, the same click asks
      to save nothing more. */
  lemma ClickSettles(key: Key, checked: bool, isMessages: bool, currSenders: PeopleType, currConvs: ConvSenders)
    ensures var r := SettingsToSaveOnClick(key, checked, isMessages, currSenders, currConvs);
      r.Some? ==>
        var after := ApplySaved(r.value, isMessages, currSenders, currConvs);
        SettingsToSaveOnClick(key, checked, isMessages, after.people, after.conv) == Some(Settings(PeopleUnset, ConvUnset))
  {
  }

  /** updateState: a selector shows checked when the senders setting equals
      what checking it would prescribe; for a messages selector that also
      governs conversations, the conversation setting must match as well,
      and the senders part may instead be one it does not govern. Calls have
      no conversation setting (it reads as UNSET). */
  predicate SelectorChecked(key: Key, isMessages: bool, currSenders: PeopleType, currConvs: ConvSenders)
    requires KeyToSettingEndState(key, true, isMessages).Some?
  {
    var end := KeyToSettingEndState(key, true, isMessages).value;
    var m := end.people == currSenders;
    if isMessages && end.conv != ConvUnset then
      (m || end.people == PeopleUnset) && end.conv == currConvs
    else m
  }

  /** The click listener: a messages selector (a checkbox) toggles, a calls
      selector (a radio button) always checks; the non-UNSET parts are then
      written to the policy. Returns the policy's new senders and
      conversations, or None for the exception. */
  function OnSelectorClicked(key: Key, isMessages: bool, isChecked: bool,
                             currSenders: PeopleType, currConvs: ConvSenders): (r: Option<Settings>)
    ensures r.None? <==> key == OtherKey || (key == KeyImportant && !isMessages)
    ensures r.Some? && !isMessages ==> r.value.conv == currConvs
  {
    var checked := if isMessages then !isChecked else true;
    match SettingsToSaveOnClick(key, checked, isMessages, currSenders, currConvs)
    case None => None
    case Some(save) => Some(ApplySaved(save, isMessages, currSenders, currConvs))
  }

  /** Checking a selector leaves it shown as checked. */
  lemma CheckedSelectorShowsChecked(key: Key, isMessages: bool, currSenders: PeopleType, currConvs: ConvSenders)
    requires key in Selectors(isMessages)
    ensures KeyToSettingEndState(key, true, isMessages).Some?
    ensures var r := OnSelectorClicked(key, isMessages, false, currSenders, if isMessages then currConvs else ConvUnset);
      r.Some? && SelectorChecked(key, isMessages, r.value.people, if isMessages then r.value.conv else ConvUnset)
  {
  }

  /** After "anyone" or "none" is checked, no other selector shows checked. */
  lemma AnyoneAndNoneAreExclusive(key: Key, other: Key, isMessages: bool, currSenders: PeopleType, currConvs: ConvSenders)
    requires key in {KeyAny, KeyNone} && other in Selectors(isMessages) && other != key
    ensures var conv := if isMessages then currConvs else ConvUnset;
      var r := OnSelectorClicked(key, isMessages, false, currSenders, conv);
      r.Some? && !SelectorChecked(other, isMessages, r.value.people, if isMessages then r.value.conv else ConvUnset)
  {
  }

  /** Unchecking a messages checkbox other than "none" leaves it unchecked;
      "none" cannot be unchecked this way. */
  lemma UncheckedSelectorShowsUnchecked(key: Key, currSenders: PeopleType, currConvs: ConvSenders)
    requires key in Selectors(true)
    ensures var r := OnSelectorClicked(key, true, true, currSenders, currConvs);
      r.Some? && (SelectorChecked(key, true, r.value.people, r.value.conv) <==> key == KeyNone)
  {
  }

  /** The conversation-count summary: the count is compared with the
      CONVERSATION_SENDERS_UNSET constant (0), so no important conversations
      means no summary. */
  function ConversationSummaryCount(numImportantConversations: nat): (r: Option<nat>)
    ensures r.None? <==> numImportantConversations == 0
    ensures r.Some? ==> r.value == numImportantConversations
  {
    if numImportantConversations == 0 then None else Some(numImportantConversations)
  }
}

=== FILE: zen_summary.dfy ===
/** The text a Do Not Disturb mode shows for what may interrupt it: the
    allowed categories in a fixed order, the calls, messages and
    other-sounds summaries built from them, and the people summary. */
module ZenSummary {
  import opened ZenPrioritySenders

  /** ZenPolicy priority categories. */
  datatype Category = Alarms | Media | System | Messages | Conversations | Events | Reminders | Calls | RepeatCallers

  /** The fixed visiting order. */
  const AllCategories: seq<Category> :=
    [Alarms, Media, System, Messages, Conversations, Events, Reminders, Calls, RepeatCallers]

  /** The policy fields the summaries read; a category is allowed when it
      is in `allowed`. */
  datatype Policy = Policy(
    allowed: set<Category>,
    callSenders: PeopleType,
    messageSenders: PeopleType,
    conversationSenders: ConvSenders)

  /** The string resources a category can be shown as. `Blank` is the empty
      string of the final fall-through. */
  datatype Label =
    | AlarmsListFirst | AlarmsList | MediaListFirst | MediaList | SystemListFirst | SystemList
    | FromAnyone | FromContacts | FromStarred
    | FromImportantConversations | FromImportantConversationsSecond
    | EventsListFirst | EventsList | RemindersListFirst | RemindersList
    | AllCallers | ContactsCallers | StarredCallers
    | RepeatCallersFirst | RepeatCallersList
    | Blank

  /** getCategory: the label of one category; `isFirst` picks the
      capitalised form where there is one. */
  function CategoryLabel(c: Category, policy: Policy, isFirst: bool): (r: Label)
    ensures r == Blank <==> c == Conversations && policy.conversationSenders != ConvImportant
  {
    match c
    case Alarms => if isFirst then AlarmsListFirst else AlarmsList
    case Media => if isFirst then MediaListFirst else MediaList
    case System => if isFirst then SystemListFirst else SystemList
    case Messages =>
      if policy.messageSenders == PeopleAnyone then FromAnyone
      else if policy.messageSenders == PeopleContacts then FromContacts
      else FromStarred
    case Conversations =>
      if policy.conversationSenders == ConvImportant then
        (if isFirst then FromImportantConversations else FromImportantConversationsSecond)
      else Blank
    case Events => if isFirst then EventsListFirst else EventsList
    case Reminders => if isFirst then RemindersListFirst else RemindersList
    case Calls =>
      if policy.callSenders == PeopleAnyone then (if isFirst then FromAnyone else AllCallers)
      else if policy.callSenders == PeopleContacts then (if isFirst then FromContacts else ContactsCallers)
      else (if isFirst then FromStarred else StarredCallers)
    case RepeatCallers => if isFirst then RepeatCallersFirst else RepeatCallersList
  }

  /** Whether getEnabledCategories lists a category: it passes the filter,
      is allowed, and is neither repeat callers subsumed by calls from
      anyone nor conversations other than priority ones. */
  predicate Listed(c: Category, policy: Policy, filter: set<Category>) {
    c in filter && c in policy.allowed
    && !(c == RepeatCallers && Calls in policy.allowed && policy.callSenders == PeopleAnyone)
    && !(c == Conversations && policy.conversationSenders != ConvImportant)
  }

  /** The listed categories of `cs`, in order (a reference definition). */
  function ListedOf(cs: seq<Category>, policy: Policy, filter: set<Category>): (r: seq<Category>)
  {
    if |cs| == 0 then []
    else
      ListedOf(cs[..|cs| - 1], policy, filter)
      + (if Listed(cs[|cs| - 1], policy, filter) then [cs[|cs| - 1]] else [])
  }

  function Rank(c: Category): nat {
    match c
    case Alarms => 0 case Media => 1 case System => 2 case Messages => 3
    case Conversations => 4 case Events => 5 case Reminders => 6 case Calls => 7
    case RepeatCallers => 8
  }

  lemma {:induction false} ListedOfProps(cs: seq<Category>, policy: Policy, filter: set<Category>)
    requires forall i, j :: 0 <= i < j < |cs| ==> Rank(cs[i]) < Rank(cs[j])
    ensures forall c :: c in ListedOf(cs, policy, filter) <==> c in cs && Listed(c, policy, filter)
    ensures forall i, j :: 0 <= i < j < |ListedOf(cs, policy, filter)| ==>
      Rank(ListedOf(cs, policy, filter)[i]) < Rank(ListedOf(cs, policy, filter)[j])
    decreases |cs|
  {
    if |cs| > 0 {
      var init := cs[..|cs| - 1];
      ListedOfProps(init, policy, filter);
      assert forall c :: c in init ==> Rank(c) < Rank(cs[|cs| - 1]);
    }
  }

  /** getEnabledCategories: visits every category in the fixed order and
      labels each listed one, the first in capitalised form when asked. */
  method EnabledCategories(policy: Policy, filter: set<Category>, capitalizeFirst: bool)
    returns (labels: seq<Label>)
    ensures var listed := ListedOf(AllCategories, policy, filter);
      |labels| == |listed|
      && forall k :: 0 <= k < |labels| ==>
        labels[k] == CategoryLabel(listed[k], policy, capitalizeFirst && k == 0)
  {
    labels := [];
    var i := 0;
    while i < |AllCategories|
      invariant 0 <= i <= |AllCategories|
      invariant var listed := ListedOf(AllCategories[..i], policy, filter);
        |labels| == |listed|
        && forall k :: 0 <= k < |labels| ==>
          labels[k] == CategoryLabel(listed[k], policy, capitalizeFirst && k == 0)
    {
      var c := AllCategories[i];
      var isFirst := capitalizeFirst && |labels| == 0;
      assert AllCategories[..i + 1][..i] == AllCategories[..i];
      if Listed(c, policy, filter) {
        labels := labels + [CategoryLabel(c, policy, isFirst)];
      }
      i := i + 1;
    }
    assert AllCategories[..i] == AllCategories;
  }

  lemma AllCategoriesRanked()
    ensures forall i, j :: 0 <= i < j < |AllCategories| ==> Rank(AllCategories[i]) < Rank(AllCategories[j])
  {
  }

  /** The listed categories keep the fixed order and are exactly the
      filtered, allowed ones minus the two subsumed cases. */
  lemma ListedCategoriesOrdered(policy: Policy, filter: set<Category>)
    ensures var listed := ListedOf(AllCategories, policy, filter);
      (forall c :: c in listed <==> Listed(c, policy, filter))
      && forall i, j :: 0 <= i < j < |listed| ==> Rank(listed[i]) < Rank(listed[j])
  {
    AllCategoriesRanked();
    ListedOfProps(AllCategories, policy, filter);
    forall c ensures c in AllCategories {
      match c
      case Alarms => assert AllCategories[0] == c;
      case Media => assert AllCategories[1] == c;
      case System => assert AllCategories[2] == c;
      case Messages => assert AllCategories[3] == c;
      case Conversations => assert AllCategories[4] == c;
      case Events => assert AllCategories[5] == c;
      case Reminders => assert AllCategories[6] == c;
      case Calls => assert AllCategories[7] == c;
      case RepeatCallers => assert AllCategories[8] == c;
    }
  }

  /** Repeat callers are never listed while calls from anyone are allowed,
      and conversations are listed only for priority conversations. */
  lemma SubsumedCategoriesOmitted(policy: Policy, filter: set<Category>)
    ensures Calls in policy.allowed && policy.callSenders == PeopleAnyone ==>
      RepeatCallers !in ListedOf(AllCategories, policy, filter)
    ensures Conversations in ListedOf(AllCategories, policy, filter) ==>
      policy.conversationSenders == ConvImportant
  {
    ListedCategoriesOrdered(policy, filter);
  }

  const CallsFilter: set<Category> := {Calls, RepeatCallers}
  const MessagesFilter: set<Category> := {Messages, Conversations}
  const OtherSoundsFilter: set<Category> := {Alarms, Media, System, Reminders, Events}

  datatype CallsSummary = NoneCalls | CallsOne(first: Label) | CallsTwo(first: Label, second: Label)

  /** getCallsSettingSummary: the none, one or two form for 0, 1 or more
      listed categories. */
  method CallsSettingSummary(policy: Policy) returns (r: CallsSummary)
    ensures r.NoneCalls? <==> |ListedOf(AllCategories, policy, CallsFilter)| == 0
    ensures r.CallsTwo? <==>
      Calls in policy.allowed && RepeatCallers in policy.allowed && policy.callSenders != PeopleAnyone
    ensures r.CallsOne? <==> |ListedOf(AllCategories, policy, CallsFilter)| == 1
    ensures r.CallsOne? && Calls in policy.allowed ==> r.first == CategoryLabel(Calls, policy, true)
    // Repeat callers alone: the one item is their capitalised label.
    ensures r.CallsOne? && Calls !in policy.allowed ==> r.first == CategoryLabel(RepeatCallers, policy, true)
    ensures r.CallsTwo? ==>
      r.first == CategoryLabel(Calls, policy, true) && r.second == RepeatCallersList
  {
    var labels := EnabledCategories(policy, CallsFilter, true);
    CallsListed(policy);
    if |labels| == 0 {
      r := NoneCalls;
    } else if |labels| == 1 {
      r := CallsOne(labels[0]);
    } else {
      r := CallsTwo(labels[0], labels[1]);
    }
  }

  /** With the calls filter at most calls then repeat callers are listed. */
  lemma CallsListed(policy: Policy)
    ensures var listed := ListedOf(AllCategories, policy, CallsFilter);
      listed == (if Calls in policy.allowed then [Calls] else [])
        + (if Listed(RepeatCallers, policy, CallsFilter) then [RepeatCallers] else [])
  {
    var listed := ListedOf(AllCategories, policy, CallsFilter);
    assert ListedOf(AllCategories[..7], policy, CallsFilter) == [] by {
      ListedCategoriesOrderedPrefix(policy);
    }
    assert AllCategories[..9][..8] == AllCategories[..8];
    assert AllCategories[..8][..7] == AllCategories[..7];
    assert AllCategories[..9] == AllCategories;
  }

  lemma ListedCategoriesOrderedPrefix(policy: Policy)
    ensures ListedOf(AllCategories[..7], policy, CallsFilter) == []
  {
    NothingListed(AllCategories[..7], policy, CallsFilter);
  }

  lemma {:induction false} NothingListed(cs: seq<Category>, policy: Policy, filter: set<Category>)
    requires forall i :: 0 <= i < |cs| ==> cs[i] !in filter
    ensures ListedOf(cs, policy, filter) == []
    decreases |cs|
  {
    if |cs| > 0 {
      NothingListed(cs[..|cs| - 1], policy, filter);
    }
  }

  datatype MessagesSummary = NoneMessages | MessagesOne(text: Label) | MessagesTwo(first: Label, second: Label)

  /** getMessagesSettingSummary: the none form, the single label itself, or
      the two-part form. */
  method MessagesSettingSummary(policy: Policy) returns (r: MessagesSummary)
    ensures r.NoneMessages? <==> |ListedOf(AllCategories, policy, MessagesFilter)| == 0
    ensures r.MessagesOne? <==> |ListedOf(AllCategories, policy, MessagesFilter)| == 1
    ensures r.MessagesOne? ==> r.text == CategoryLabel(ListedOf(AllCategories, policy, MessagesFilter)[0], policy, true)
    ensures r.MessagesTwo? ==>
      (|ListedOf(AllCategories, policy, MessagesFilter)| >= 2
       && r.first == CategoryLabel(ListedOf(AllCategories, policy, MessagesFilter)[0], policy, true)
       && r.second == CategoryLabel(ListedOf(AllCategories, policy, MessagesFilter)[1], policy, false))
    ensures r.MessagesTwo? <==> Listed(Messages, policy, MessagesFilter) && Listed(Conversations, policy, MessagesFilter)
    ensures r.MessagesTwo? ==>
      r.first == CategoryLabel(Messages, policy, true) && r.second == CategoryLabel(Conversations, policy, false)
  {
    MessagesListed(policy);
    var labels := EnabledCategories(policy, MessagesFilter, true);
    if |labels| == 0 {
      r := NoneMessages;
    } else if |labels| == 1 {
      r := MessagesOne(labels[0]);
    } else {
      r := MessagesTwo(labels[0], labels[1]);
    }
  }

  /** With the messages filter at most messages then conversations are
      listed. */
  lemma MessagesListed(policy: Policy)
    ensures ListedOf(AllCategories, policy, MessagesFilter)
      == (if Listed(Messages, policy, MessagesFilter) then [Messages] else [])
         + (if Listed(Conversations, policy, MessagesFilter) then [Conversations] else [])
  {
    var head, mid, tail := AllCategories[..3], AllCategories[3..5], AllCategories[5..];
    assert AllCategories == head + mid + tail;
    NothingListed(head, policy, MessagesFilter);
    NothingListed(tail, policy, MessagesFilter);
    ListedOfAppend(head, mid, policy, MessagesFilter);
    ListedOfAppend(head + mid, tail, policy, MessagesFilter);
    var m := if Listed(Messages, policy, MessagesFilter) then [Messages] else [];
    var c := if Listed(Conversations, policy, MessagesFilter) then [Conversations] else [];
    assert mid == [Messages, Conversations];
    assert mid[..1] == [Messages] && [Messages][..0] == [];
    assert ListedOf([Messages], policy, MessagesFilter) == m;
    assert ListedOf(mid, policy, MessagesFilter) == m + c;
  }

  /** Listing a concatenation lists each part in turn. */
  lemma {:induction false} ListedOfAppend(a: seq<Category>, b: seq<Category>, policy: Policy, filter: set<Category>)
    ensures ListedOf(a + b, policy, filter) == ListedOf(a, policy, filter) + ListedOf(b, policy, filter)
    decreases |b|
  {
    if |b| == 0 {
      assert a + b == a;
    } else {
      assert (a + b)[..|a + b| - 1] == a + b[..|b| - 1];
      ListedOfAppend(a, b[..|b| - 1], policy, filter);
    }
  }

  /** getOtherSoundCategoriesSummary: the count, and the first one, two or
      three labels (the third only when there are exactly three). */
  datatype OtherSoundsSummary = OtherSoundsSummary(count: nat, shown: seq<Label>)

  method OtherSoundCategoriesSummary(policy: Policy) returns (r: OtherSoundsSummary)
    ensures r.count == |ListedOf(AllCategories, policy, OtherSoundsFilter)|
    ensures |r.shown| == (if r.count == 3 then 3 else if r.count >= 2 then 2 else r.count)
    ensures forall k :: 0 <= k < |r.shown| ==>
      r.shown[k] == CategoryLabel(ListedOf(AllCategories, policy, OtherSoundsFilter)[k], policy, k == 0)
  {
    var labels := EnabledCategories(policy, OtherSoundsFilter, true);
    var n := |labels|;
    var shown := if n == 3 then labels[..3] else if n >= 2 then labels[..2] else labels;
    r := OtherSoundsSummary(n, shown);
  }

  datatype PeopleSummary = PeopleAll | PeopleNoneSummary | PeopleSome

  /** getPeopleSummary: "all" when calls, messages and conversations are
      all from anyone; "none" when all three are from no one and repeat
      callers are not let through; otherwise the listed form. */
  function GetPeopleSummary(policy: Policy): (r: PeopleSummary)
    ensures r == PeopleAll <==>
      (policy.callSenders == PeopleAnyone && policy.messageSenders == PeopleAnyone
       && policy.conversationSenders == ConvAnyone)
    ensures r == PeopleNoneSummary <==>
      (policy.callSenders == PeopleNone && policy.messageSenders == PeopleNone
       && policy.conversationSenders == ConvNone && RepeatCallers !in policy.allowed)
  {
    if policy.callSenders == PeopleAnyone && policy.messageSenders == PeopleAnyone
       && policy.conversationSenders == ConvAnyone then PeopleAll
    else if policy.callSenders == PeopleNone && policy.messageSenders == PeopleNone
       && policy.conversationSenders == ConvNone && RepeatCallers !in policy.allowed then PeopleNoneSummary
    else PeopleSome
  }

  /** The people summary reads "all" exactly when the "anyone" selectors of
      both the calls and the messages screens show checked, and "none"
      exactly when both "none" selectors do and repeat callers are not let
      through. */
  lemma PeopleSummaryMatchesSelectors(policy: Policy)
    ensures GetPeopleSummary(policy) == PeopleAll <==>
      SelectorChecked(KeyAny, false, policy.callSenders, ConvUnset)
      && SelectorChecked(KeyAny, true, policy.messageSenders, policy.conversationSenders)
    ensures GetPeopleSummary(policy) == PeopleNoneSummary <==>
      SelectorChecked(KeyNone, false, policy.callSenders, ConvUnset)
      && SelectorChecked(KeyNone, true, policy.messageSenders, policy.conversationSenders)
      && RepeatCallers !in policy.allowed
  {
  }
}
